=== FILE: README.md ===
# Mosaic presentation engine, modelled in Dafny

This project models the presentation-engine core of the Mosaic UI library:
- the Animator state machine and its per-frame tick;
- the Application's pointer dispatch, focus handling and redraw scheduling;
- the Canvas and WebCanvas draw primitives, with ShadowStyle and the Surface widget;
- the deferred values PercentageLength, ThemeColor (both trees) and Theme;
- the small utilities PropertySet, HandlerList (both trees) and TextMetrics.

The browser is replaced by three things:
- explicit clock readings, used in place of `Date.now()` (a tick reads the clock up to three times, and each reading is its own argument);
- an abstract frame scheduler, recorded as effects (`RequestTick`, `CancelTick`, `RequestFrame`);
- a 2D context recorded as a record of attributes, a transform and a save stack, plus a log of the calls made on it (`Context2D`).

JavaScript values and numbers are modelled in `Js`:
- `Num` is `Fin(real) | PosInf | NegInf | NaN`.
- `ToNumber`, `isNaN`, `isFinite`, truthiness, `Math.min` and `Math.floor` are written out over that type for primitive values (with the string limits under "## Left out").
- An object is converted through `ToPrimitive` (section 7.1.1 of ECMAScript), whose result for each object (what its `valueOf` gives) is a parameter.

Files, one module each (`wrappers.dfy` and `js.dfy` are shared):

| file | module | source component |
|---|---|---|
| wrappers.dfy | Wrappers | Option / Result / error kinds |
| js.dfy | Js | JavaScript values, numbers, coercions |
| handler_list.dfy | HandlerList | src/utils/HandlerList |
| legacy_handler_list.dfy | LegacyHandlerList | utils/HandlerList |
| property_set.dfy | PropertySet, LegacyPropertySet | src/utils/PropertySet, utils/PropertySet |
| text_metrics.dfy | TextMetrics | drawing/text/TextMetrics |
| percentage_length.dfy | PercentageLength | src/layout/PercentageLength |
| theme.dfy | Themes, LegacyThemeColor | src/resources/Theme, src/resources/ThemeColor, resources/ThemeColor |
| drawing.dfy | Drawing | style application (FillStyle, StrokeStyle, ShadowStyle) |
| context2d.dfy | Context2D | the 2D context as a call log, save/restore bracket |
| canvas.dfy | Canvas | drawing/Canvas |
| web_canvas.dfy | WebCanvas | platform/drawing/WebCanvas |
| surface.dfy | Surface | widgets/Surface |
| animator.dfy | Animator | animation/Animator |
| application.dfy | Application | src/core/Application |

Behaviours of the code that its comments do not state, and that the model keeps:
- Raw animation progress is `min(elapsed / duration, 1)` with no lower clamp, so a clock read before the start time gives a negative value (`Animator.NoLowerClamp`).
- The comment in the animator's tick promises that the callback sees a raw progress of 1 at an iteration end. It sees 1 or NaN; NaN comes with a zero duration read at the instant the iteration started (`Animator.EndProgressIsOneOrNaN`, `Animator.ResumeAtZeroDurationReadsNaN`). The branch test and the callback read the clock separately, so a frame that is not at the iteration end can also carry 1 when the clock moves on between the two readings; the end frame then carries 1 again (`Animator.FrameCanReachOneBeforeTheEnd`).
- Setting a canvas element's width or height resets its 2D context to the default state (section 4.12.5, "The canvas element", of the HTML Living Standard). The constructors' `imageSmoothingEnabled = false` and the transform set with the scale factor are lost on every resize (`Canvas.ResizeForgetsSmoothingAndScale`). `draw()` sets the scale factor again after resizing, but not the smoothing flag.
- The redraw handle is cleared after `draw()` returns, not before; see Findings.

## Model

| member | source | states |
|---|---|---|
| HandlerList.IndexOf | src/utils/HandlerList/index.js:23 | the first position of the element, or -1 exactly when it is absent |
| HandlerList.Insert | src/utils/HandlerList/index.js:13-15 | appends only an element not yet present, so a duplicate-free list stays duplicate-free |
| HandlerList.Delete | src/utils/HandlerList/index.js:23-30 | reports true iff the element was present; then the list is one shorter and no longer holds it, otherwise it is unchanged |
| HandlerList.Add | src/utils/HandlerList/index.js:8-16 | a handler list is stored as the shared prototype `invoke`; the stored set gains exactly that entry; no duplicates are created |
| HandlerList.Remove | src/utils/HandlerList/index.js:18-31 | true iff the (unwrapped) entry was present; then exactly its first occurrence is spliced out and every other entry keeps its order, otherwise the list is untouched |
| HandlerList.ShortCircuit | src/utils/HandlerList/index.js:34-40 | handlers run in order until the first truthy result, which is returned; a throwing call stops the loop; when none is truthy every handler runs and the result is the last falsy value returned (the initial falsy value on an empty list) |
| HandlerList.Results | src/utils/HandlerList/index.js:36-38 | a plain function returns its value, and a stored prototype `invoke` always throws |
| HandlerList.Invoke | src/utils/HandlerList/index.js:33-41 | an empty list returns false; the result is truthy iff some handler before the first throw returns truthy; the call throws iff a nested-list entry is reached |
| HandlerList.AddBound | src/utils/HandlerList/index.js:8-16 | corrected `add`: a nested list is kept as itself, with set semantics and no duplicates |
| HandlerList.InvokeBound | src/utils/HandlerList/index.js:33-41 | corrected `invoke`: never throws; truthy iff some entry's call is truthy, and it stops at the first such entry |
| HandlerList.NestedListsCollapseAndThrow | src/utils/HandlerList/index.js:9-10 | as written, two different handler lists collapse into one entry, and invoking it throws |
| HandlerList.NestedListsStayDistinct | src/utils/HandlerList/index.js:9-10 | with the corrected definitions the two lists stay two entries and invoking them does not throw |
| LegacyHandlerList.Add | utils/HandlerList/index.js:8-12 | appends only an absent handler; membership gains exactly it; no duplicates |
| LegacyHandlerList.Remove | utils/HandlerList/index.js:14-23 | true iff present; then exactly its first occurrence is spliced out, otherwise the list is unchanged |
| LegacyHandlerList.Walk | utils/HandlerList/index.js:28-30 | the loop as the operators parse: it throws iff a plain function is reached while `handled` is truthy; otherwise `handled` ends as the last call's result |
| LegacyHandlerList.Invoke | utils/HandlerList/index.js:25-33 | false on an empty list; the result is the last call's value, not an OR; it throws iff a plain function follows a truthy result |
| LegacyHandlerList.TruthyThenPlainThrows | utils/HandlerList/index.js:29 | a truthy function followed by another function throws as written, while the intended short-circuit returns true after one call |
| LegacyHandlerList.LaterResultOverwrites | utils/HandlerList/index.js:29 | a falsy last nested list hides an earlier truthy one as written |
| PropertySet.Keys | src/utils/PropertySet/index.js:35-36 | a record's keys in enumeration order |
| PropertySet.Merge | src/utils/PropertySet/index.js:31-42 | exactly the defaults' keys in their order; each value is the own-key override when present, else the default |
| PropertySet.MergeIdempotent | src/utils/PropertySet/index.js:31-42 | merging again with the same overrides changes nothing, and with no overrides the defaults come back |
| PropertySet.AssignAll | src/utils/PropertySet/index.js:55-67 | completes iff every failing assignment is suppressed; otherwise it aborts at the first rethrown error, with that error; the keys left written are exactly those whose assignment took effect before that point, in order |
| PropertySet.Assign | src/utils/PropertySet/index.js:55-67 | the loop by recursion: it completes iff no error is rethrown; it aborts with the first rethrown error, having written exactly the successful assignments before it |
| PropertySet.WrittenMembers | src/utils/PropertySet/index.js:58-60 | a key is written exactly when some entry for it is assignable and its setter does not throw |
| PropertySet.FirstRethrown | src/utils/PropertySet/index.js:55-66 | the first entry whose setter throws with the error not ignored, or the end when there is none |
| PropertySet.Apply | src/utils/PropertySet/index.js:52-70 | returns the merged values when no error is rethrown; aborts at the first rethrown setter error, with that setter's error; either way the written keys are exactly the successful assignments before the first rethrown error; `ignoreErrors === true` never aborts |
| LegacyPropertySet.Apply | utils/PropertySet/index.js:26-40 | completes iff no assignable property's setter throws; the first throw aborts the rest with that setter's error, leaving written exactly the successful assignments before it; on completion every assignable key is written; no other key is |
| TextMetrics.Set | drawing/text/TextMetrics/index.js:41-83 | refused after construction before the value is looked at; otherwise refused iff the value converts to NaN (an object through its primitive value); an accepted value is stored as `Number(val)` and the other measures are unchanged |
| TextMetrics.SetAll | drawing/text/TextMetrics/index.js:27-31 | the three setters in order succeed iff no value converts to NaN, objects included through their primitive values; a failure is `InvalidArgument`; success stores the three converted values |
| TextMetrics.New | drawing/text/TextMetrics/index.js:27-31 | omitted props throw; otherwise construction succeeds iff none of the three merged values converts to NaN (an object through its primitive value), and fails with `InvalidArgument`; the result is frozen and holds the converted merged values |
| TextMetrics.ObjectMeasuresConvert | drawing/text/TextMetrics/index.js:41-51 | an object measure whose primitive value is a number other than NaN is accepted and stored as that number; one without a numeric primitive value is refused |
| TextMetrics.ConstructsIffApplied | drawing/text/TextMetrics/index.js:27-31 | construction succeeds exactly when the property applier completes |
| TextMetrics.AscentAndDescent | drawing/text/TextMetrics/index.js:27-31 | an ascent and a descent that are not NaN-ish are stored coerced, with width 0, and the result is frozen |
| TextMetrics.Height | drawing/text/TextMetrics/index.js:33-35 | finite iff both measures are, and then their sum; NaN whenever either measure is NaN |
| TextMetrics.AcceptedMeasuresCanSumToNaN | drawing/text/TextMetrics/index.js:33-35 | opposite infinite measures are accepted by the constructor, and their height is NaN |
| TextMetrics.AppliesIffNoNaN | drawing/text/TextMetrics/index.js:4-10 | the applier completes on the three defaults exactly when none of the merged values is NaN-ish |
| TextMetrics.DefaultsAreZero | drawing/text/TextMetrics/index.js:4-10 | with no overrides every measure is 0 and so is the height |
| TextMetrics.HeightIsSum | drawing/text/TextMetrics/index.js:33-35 | the height is ascent + descent; a digit string is stored as its number |
| TextMetrics.WriteOnce | drawing/text/TextMetrics/index.js:30 | after construction every setter reports `Frozen` |
| TextMetrics.NaNRejected | drawing/text/TextMetrics/index.js:46-48 | a NaN-ish measure makes construction fail with `InvalidArgument` |
| PercentageLength.New | src/layout/PercentageLength/index.js:13-16 | an undefined reference defaults to 1; any other value, a function included, is kept |
| PercentageLength.ValueOf | src/layout/PercentageLength/index.js:34-46 | a function reference is called first; fails iff the reference then coerces to NaN (an object through its `valueOf`), and then with `InvalidReference`; finite coerced operands give their product |
| PercentageLength.ValueOfIsProduct | src/layout/PercentageLength/index.js:45 | finite operands give their product |
| PercentageLength.DefaultReferenceIsOne | src/layout/PercentageLength/index.js:13 | with the default reference the value is the coerced percentage |
| PercentageLength.FunctionIsLateBound | src/layout/PercentageLength/index.js:37-39 | resolving through a function equals resolving against what it returns at that moment; a returned function is not called again and fails |
| PercentageLength.ObjectsReadThroughValueOf | src/layout/PercentageLength/index.js:41-45 | an object reference, such as another length, resolves through its `valueOf` |
| PercentageLength.InfinityAccepted | src/layout/PercentageLength/index.js:41-43 | an infinite reference is accepted; against 0 it yields NaN without an error |
| PercentageLength.NonNumbersRejected | src/layout/PercentageLength/index.js:41-43 | undefined returned by a function, and an object whose conversion is not numeric, are rejected; a numeric string is accepted |
| Themes.Store | src/resources/Theme/index.js:24-32 | a Color is stored as given, a string as the supplied theme colour, nullish as undefined, anything else changes nothing; no other key changes |
| Themes.GetColor | src/resources/Theme/index.js:34-38 | a Color stored under the name, and undefined for a name never set or set to nullish |
| Themes.SetColor | src/resources/Theme/index.js:24-32 | `setColor` as written: the same, with a string stored as some theme colour |
| Themes.SetColorIntended | src/resources/Theme/index.js:27-28 | corrected: a string stores an alias of that name in this theme; all other cases are as written |
| Themes.SetColorsSetsEach | src/resources/Theme/index.js:18-22 | with distinct keys, every key reads back as if set alone and every other key is untouched |
| Themes.SetColors | src/resources/Theme/index.js:18-22 | keeps the theme's identity, and every key not among the entries reads as before |
| Themes.NewTheme | src/resources/Theme/index.js:13-16 | a new theme has the given identity, reads undefined for every name not among its entries, and holds nothing when the argument is omitted |
| Themes.ThemeOf | src/resources/ThemeColor/index.js:12-22 | a theme context is itself; an object's is the current theme of the application it belongs to at the moment of reading; undefined when anything on the way is missing; only a stored theme is ever returned |
| Themes.Resolve | src/resources/ThemeColor/index.js:24-30 | never fails; the result is either the default or the colour the context's theme stores under the name, and a stored colour always wins over the default |
| Themes.NewThemeColor | src/resources/ThemeColor/index.js:35-42 | the default defaults to transparent and a Color is kept with the context and name; a value without `toHsv` fails with a TypeError before the type check, a colour-like non-Color with the constructor's own error |
| Themes.ConstructedFallsBack | src/resources/ThemeColor/index.js:24-42 | read while no theme is reachable from its context, a constructed colour stands for the default it was given, transparent when none |
| Themes.Convert | src/resources/ThemeColor/index.js:44-62 | every conversion forwards to the colour resolved at that moment: the theme's colour of the name, or the default when there is no theme or no such colour |
| Themes.OwnerReadsAsItsTheme | src/resources/ThemeColor/index.js:14-18 | an object that belongs to an application resolves exactly as that application's current theme given directly |
| Themes.AttachingLaterIsObserved | src/resources/ThemeColor/index.js:12-30 | a colour built for an object with no application yet stands for its default, and for the application theme's colour once the object is attached |
| Themes.ThemeSwapObserved | src/resources/ThemeColor/index.js:18 | after the application's theme is swapped, the next conversion sees the new theme's colour |
| Themes.FallsBackToDefault | src/resources/ThemeColor/index.js:19-29 | no theme reachable, or a name the theme lacks, resolves to the default |
| Themes.StringColorIsAlwaysTransparent | src/resources/Theme/index.js:28 | as written, a colour stored from a string resolves to transparent in every environment |
| Themes.StringColorIsAlias | src/resources/Theme/index.js:28 | corrected, it resolves to the theme's colour of that name |
| LegacyThemeColor.Resolve | resources/ThemeColor/index.js:12-26 | never fails; the result is either the default or the current theme's colour of that name, and a stored colour always wins |
| LegacyThemeColor.New | resources/ThemeColor/index.js:31-38 | the default defaults to transparent and a Color is kept; a value without `toHsv` fails with a TypeError, a colour-like non-Color with the constructor's own error |
| LegacyThemeColor.ConstructedFallsBack | resources/ThemeColor/index.js:20-38 | with no current theme, a constructed colour stands for its default, transparent when none was given |
| LegacyThemeColor.Convert | resources/ThemeColor/index.js:40-58 | conversions forward to the freshly resolved colour: the theme's colour of the name, else the default |
| LegacyThemeColor.AgreesWithOwnerContext | resources/ThemeColor/index.js:12-18 | the root colour, given the theme an object's context reaches, resolves as the src colour whose context is that object does |
| Drawing.ApplyShadow | src/drawing/ShadowStyle/index.js:82-87 | offsets and blur are scaled by the canvas scale factor, the colour is its hex form, and no other key changes |
| Drawing.ApplyStyle | drawing/Canvas/index.js:64-68 | a style writes exactly its own keys over the map and keeps the rest |
| Drawing.Compose | drawing/Canvas/index.js:60-68 | no styles give no attributes, and the last style's writes hold in the result |
| Drawing.ComposedKeys | drawing/Canvas/index.js:64-68 | a key is in the composed attributes iff some present style writes it |
| Drawing.LastWriterWins | drawing/Canvas/index.js:64-68 | a key holds the value of the last present style that writes it |
| Drawing.NoStylesNoAttributes | drawing/Canvas/index.js:64-68 | entries that are not Styles leave the fresh map empty |
| Drawing.ShadowLeavesPaintKeys | src/drawing/ShadowStyle/index.js:82-87 | a shadow never adds, removes or changes `fillStyle` or `strokeStyle` |
| Context2D.Step | drawing/Canvas/index.js:62-83 | `save` pushes the paint state, `restore` pops it (and is a no-op on an empty stack), `setTransform` replaces the transform; every call is logged |
| Context2D.RunLogs | drawing/Canvas/index.js:62-83 | a sequence of calls is appended to the log in order |
| Context2D.RunKeepsStack | drawing/Canvas/index.js:62-83 | calls that neither save nor restore leave the save stack as it was |
| Context2D.PaintOrder | drawing/Canvas/index.js:75-81 | fill is issued iff `fillStyle` is truthy, stroke iff `strokeStyle` is, every fill before every stroke, all after the set-up calls |
| Context2D.LoggedCallsPaint | drawing/Canvas/index.js:58-84 | the logged calls of a primitive satisfy the whole draw contract |
| Context2D.Bracket | drawing/Canvas/index.js:62-83 | save/restore puts attributes, transform and stack back, and the log gains the primitive's calls |
| Canvas.New | drawing/Canvas/index.js:5-23 | the scale factor starts at 1 with an identity transform, and the one logged call assigns `imageSmoothingEnabled = false`, which is the only attribute set |
| Canvas.SetWidth | drawing/Canvas/index.js:29-31 | the width changes and the context is reset (no attribute assigned, identity transform, empty save stack); the private scale factor is kept and nothing is logged |
| Canvas.SetHeight | drawing/Canvas/index.js:37-39 | the height changes and the context is reset in the same way |
| Canvas.SetScaleFactor | drawing/Canvas/index.js:45-48 | the factor is stored and `setTransform(s, 0, 0, s, 0, 0)` is issued |
| Canvas.DrawRect | drawing/Canvas/index.js:58-84 | save, assign, `beginPath`, `rect`, fill iff `fillStyle`, stroke iff `strokeStyle`, fill before stroke, restore, and the log gains exactly these calls; paint state unchanged |
| Canvas.DrawShape | drawing/Canvas/index.js:95-120 | the same bracket with `translate(x, y)`, painting the shape's path for the given size; the log gains exactly that bracket's calls |
| Canvas.DrawText | drawing/Canvas/index.js:148-171 | the same bracket with `fillText` / `strokeText` at (x, y); the log gains exactly that bracket's calls |
| Canvas.DrawImage | drawing/Canvas/index.js:134-146 | accepted iff the argument count including the image is 3, 5, 7 or 9; 3/5 use the destination form, 7/9 the source-rectangle form; a Canvas is unwrapped to its element |
| Canvas.Clear | drawing/Canvas/index.js:174-176 | clears exactly (0, 0, width, height) |
| Canvas.ScaleFactorReadsBack | drawing/Canvas/index.js:41-48 | the factor starts at 1 and reads back the last value set |
| Canvas.ShadowFollowsScale | src/drawing/ShadowStyle/index.js:83-85 | a drawn shadow's offsets and blur are scaled by the canvas's current factor |
| Canvas.ShadowAlonePaintsNothing | drawing/Canvas/index.js:75-81 | a rectangle with only a shadow issues neither fill nor stroke |
| Canvas.ThreeArgumentsLeaveSizeUndefined | drawing/Canvas/index.js:139-140 | the three-argument call passes undefined width and height |
| Canvas.OmittedSizeIsUndefined | drawing/Canvas/index.js:139-142 | leaving out the trailing size arguments logs the same call as passing them as undefined |
| Canvas.ResizeForgetsSmoothingAndScale | drawing/Canvas/index.js:17-31 | after a resize the canvas still reports its scale factor but paints unscaled, with image smoothing back on |
| WebCanvas.SetWidth | platform/drawing/WebCanvas/index.js:55-61 | succeeds iff resizable; then the width changes, the context is reset, and the flags, element and scale factor are kept |
| WebCanvas.SetHeight | platform/drawing/WebCanvas/index.js:67-73 | succeeds iff resizable; then the height changes, the context is reset, and the flags, element and scale factor are kept |
| WebCanvas.SetScaleFactor | platform/drawing/WebCanvas/index.js:79-86 | succeeds iff scalable; then the factor is stored and the transform set |
| WebCanvas.New | platform/drawing/WebCanvas/index.js:32-48 | size and factor are applied with both flags on, the size defaulting to 0 by 0; the flags then take the requested values, defaulting to false; the resize resets the context, which ends with the scale-factor transform and no attribute assigned, so the smoothing switched off before it is on again |
| WebCanvas.DefaultsAreFixed | platform/drawing/WebCanvas/index.js:9-13 | a default canvas is 0 by 0 whatever the internal canvas's size, and refuses resizing and rescaling |
| WebCanvas.ConstructionIgnoresFlags | platform/drawing/WebCanvas/index.js:42-48 | the requested size and factor are applied even when the canvas is created fixed |
| WebCanvas.DrawRect | platform/drawing/WebCanvas/index.js:104-130 | the same draw contract as the base canvas, the log gaining exactly the base bracket's calls, and the flags are kept |
| WebCanvas.DrawShape | platform/drawing/WebCanvas/index.js:141-166 | the same draw contract as the base canvas, the log gaining exactly the base bracket's calls, and the flags are kept |
| WebCanvas.DrawText | platform/drawing/WebCanvas/index.js:194-217 | the same draw contract as the base canvas, the log gaining exactly the base bracket's calls, and the flags are kept |
| WebCanvas.DrawImage | platform/drawing/WebCanvas/index.js:180-192 | accepted iff the count is 3, 5, 7 or 9; 3/5 log the destination form with the arguments in order, 7/9 the source-rectangle form with the source arguments first; a canvas is unwrapped to its element |
| WebCanvas.Clear | platform/drawing/WebCanvas/index.js:220-222 | clears (0, 0, width, height) |
| Surface.SetBackground | widgets/Surface/index.js:36-45 | a Color is wrapped in a FillStyle, a FillStyle is kept, anything else is refused with no change; success invalidates once |
| Surface.SetShadow | widgets/Surface/index.js:55-62 | a ShadowStyle or nullish is accepted, anything else refused; success invalidates once |
| Surface.SetStroke | widgets/Surface/index.js:72-79 | a StrokeStyle or nullish is accepted, anything else refused; success invalidates once |
| Surface.SetShape | widgets/Surface/index.js:89-96 | only a Shape is accepted; success invalidates once |
| Surface.SettersInvalidateOnce | widgets/Surface/index.js:36-96 | every successful setter changes one field and invalidates exactly once; an unrelated value is refused by all four |
| Surface.HitTest | widgets/Surface/index.js:98-101 | false when hit-testing is off or the widget is gone; otherwise the shape's test at the local point with the stroke thickness |
| Surface.HitTestIsTranslationInvariant | widgets/Surface/index.js:100 | moving the surface and the point together does not change the answer |
| Surface.Draw | widgets/Surface/index.js:103-112 | the canvas keeps its size, factor and paint state; the log gains exactly two drawShape brackets of the surface's shape at its position and size, the first over the background-and-shadow styles and the second over the stroke |
| Surface.FirstCallFillsOnly | widgets/Surface/index.js:104-107 | the first call's attributes are exactly the background colour as `fillStyle` and, when a shadow is set, its four scaled attributes; so it fills and never strokes |
| Surface.SecondCallStrokesOnly | widgets/Surface/index.js:109-111 | the second call's attributes are exactly the stroke colour as `strokeStyle` when a stroke is set, and none otherwise: no shadow, no fill |
| Surface.DrawFillsThenStrokes | widgets/Surface/index.js:103-112 | draw fills the surface's path, strokes it iff a stroke is set, paints nothing else, and fills before stroking |
| Animator.SetCallback | animation/Animator/index.js:107-117 | allowed only while stopped; only a function is accepted; nothing else changes |
| Animator.SetEndCallback | animation/Animator/index.js:127-137 | allowed only while stopped; a function or nullish is accepted |
| Animator.SetDuration | animation/Animator/index.js:147-157 | allowed only while stopped; accepted iff it converts (an object through its primitive value) to a finite number ≥ 0; the stored duration reads as that number |
| Animator.ObjectDurationConverts | animation/Animator/index.js:147-157 | an object whose primitive value is a finite number ≥ 0 is accepted as a duration, and one without a numeric primitive value is refused |
| Animator.SetDelay | animation/Animator/index.js:167-177 | allowed only while stopped; accepted iff it converts (an object through its primitive value) to a finite number ≥ 0; the stored delay reads as that number |
| Animator.SetIterations | animation/Animator/index.js:187-197 | allowed only while stopped; accepted iff it is a number not below 1 (so NaN passes) |
| Animator.SetInterpolator | animation/Animator/index.js:207-217 | allowed only while stopped; only an interpolator is accepted |
| Animator.SettersPreserveValid | animation/Animator/index.js:107-217 | a successful setter keeps every stored property valid |
| Animator.CoercingValidation | animation/Animator/index.js:147-197 | numeric strings and null pass the duration check, Infinity fails it; NaN and Infinity pass the iterations check, a string fails it |
| Animator.RawProgress | animation/Animator/index.js:32-34 | never above 1 and never +Infinity; NaN exactly when the elapsed-over-duration quotient is |
| Animator.EndProgressIsOneOrNaN | animation/Animator/index.js:46-56 | the iteration-end branch is taken exactly when the raw progress is 1 or NaN |
| Animator.IterationEndCharacterized | animation/Animator/index.js:32-50 | not at the iteration end iff duration > 0 and elapsed < duration |
| Animator.NoLowerClamp | animation/Animator/index.js:32-34 | a clock read before the start gives a negative raw progress |
| Animator.Start | animation/Animator/index.js:230-239 | succeeds iff stopped; then running, iteration 1, start time now, one tick requested, and every other property as it was |
| Animator.Stop | animation/Animator/index.js:244-247 | from any state: stopped, the tick cancelled, nothing else changed |
| Animator.Pause | animation/Animator/index.js:252-260 | succeeds iff running; then paused, with the tick cancelled and the raw progress captured |
| Animator.Resume | animation/Animator/index.js:265-273 | succeeds iff paused; then running from now − progress · duration, with a tick requested |
| Animator.RawAtZeroDuration | animation/Animator/index.js:32-34 | with duration 0 the raw progress is 1 once time has passed, and NaN at the start instant |
| Animator.PauseResumeKeepsProgress | animation/Animator/index.js:252-273 | with positive duration and no clamping, resuming reads back the progress captured at pause |
| Animator.ResumeReadsSnapshot | animation/Animator/index.js:265-273 | resuming a captured progress of at most 1 with a positive duration reads that progress back at the resuming instant |
| Animator.NaNProgressEndsIteration | animation/Animator/index.js:50 | a NaN raw progress is treated as the iteration end |
| Animator.PauseAtZeroDurationCapturesOne | animation/Animator/index.js:256 | pausing with duration 0 after the start captures 1 |
| Animator.ResumeFromFullAtZeroDuration | animation/Animator/index.js:268 | resuming that snapshot restarts at now |
| Animator.ResumeAtZeroDurationReadsNaN | animation/Animator/index.js:265-273 | the next read at the same instant is NaN, which ends the iteration |
| Animator.Tick | animation/Animator/index.js:44-71 | nothing unless running; the branch test, the frame and a restart each read the clock; the frame carries the raw progress at its own reading (1 or NaN when the test found an iteration end and the clock has not gone back); then either a new tick, the next iteration started at the restart reading, or stop followed by the end callback if it is a function |
| Animator.EndStaysEnd | animation/Animator/index.js:44-56 | with a started animation and a valid duration, once an iteration end is reached every later clock reading is still at the end, with raw progress 1 or NaN |
| Animator.FrameCanReachOneBeforeTheEnd | animation/Animator/index.js:32-56 | with duration 100 started at 0, a test reading of 99 and a frame reading of 100 give a frame of 1 that requests another tick, and the next tick's end frame carries 1 again |
| Animator.DelayIsNeverRead | animation/Animator/index.js:44-71 | the tick's effects do not depend on the delay |
| Animator.CompletesFloorIterations | animation/Animator/index.js:55-68 | from iteration c, ticks at iteration ends emit exactly floor(iterations) − c + 1 frames, then stop, calling the end callback once iff it is a function |
| Animator.NaNIterationsEndAtOnce | animation/Animator/index.js:58 | NaN iterations stop at the first iteration end |
| Animator.InfiniteIterationsNeverStop | animation/Animator/index.js:58 | infinite iterations never stop |
| Application.Invalidate | src/core/Application/index.js:311-318 | a frame is requested only if none is pending; otherwise nothing happens |
| Application.InvalidationsCoalesce | src/core/Application/index.js:311-318 | any number of invalidations request at most one frame |
| Application.Prepare | src/core/Application/index.js:299-303 | the canvas is resized to viewport × scale (floored), which resets its context, then given the scale again and cleared: no attribute, transform or save state survives |
| Application.Draw | src/core/Application/index.js:295-308 | only the canvas changes: the view, if any, draws on the prepared canvas, and with no view the prepared canvas is the result |
| Application.DrawForgetsEarlierCanvasState | src/core/Application/index.js:295-308 | a draw depends on the canvas only through its element, scale factor and call log |
| Application.Frame | src/core/Application/index.js:313-316 | as written: the application is the drawn one with the handle cleared, so nothing is pending and nothing is requested afterwards |
| Application.FrameClearingFirst | src/core/Application/index.js:313-316 | corrected: clear the handle first, then draw, so an invalidation during the draw leaves a frame pending and requests it |
| Application.InvalidateDuringDrawIsLost | src/core/Application/index.js:313-316 | as written, an invalidation during the draw schedules nothing |
| Application.InvalidateDuringDrawReschedules | src/core/Application/index.js:313-316 | corrected, it schedules exactly one new frame |
| Application.SetFocus | src/core/Application/index.js:208-225 | no-op when the value is the focused widget (by identity) or the same nullish value; refused iff the value is neither a focusable widget nor nullish; on a change the new widget hears `onFocus` before the old hears `onFocusLost` |
| Application.FocusMoveOrder | src/core/Application/index.js:211-221 | moving focus between two different widgets notifies gained then lost, and setting it again notifies nothing |
| Application.NonFocusableRefused | src/core/Application/index.js:211-224 | a non-focusable widget or a non-widget is refused |
| Application.Walk | src/core/Application/index.js:78-84 | widget handlers run in hit order up to the first truthy one; the walk reports whether any was truthy |
| Application.WidgetCalls | src/core/Application/index.js:79 | each widget's handler gets the point relative to that widget |
| Application.HandlerCalls | src/core/Application/index.js:76-88 | a prefix of the hits is invoked, stopping after the first truthy result; the application handler runs with client coordinates iff none was truthy |
| Application.Dispatch | src/core/Application/index.js:73-97 | without a view the widget lookup throws before any handler; otherwise the handler calls, then on a click exactly the notifications of `focus` follow them (the new widget's `onFocus`, then the old one's `onFocusLost`), and focus moves to the first hit if it is focusable, and is cleared otherwise |
| Application.FirstHandlerStops | src/core/Application/index.js:81-83 | when the first widget handles the event, no other handler runs |
| Application.ClickOnFocusedWidgetIsQuiet | src/core/Application/index.js:90-93 | a click on the focused widget, seen in a newer state, changes no focus and notifies nobody |
| Application.SetTheme | src/core/Application/index.js:143-153 | a Theme is stored, nullish clears it, anything else is refused before invalidating |
| Application.SetView | src/core/Application/index.js:235-247 | the new view's parent is the application; the old view is detached only if it was attached here; every other parent is unchanged; invalidates |
| Application.SeenBy | src/resources/ThemeColor/index.js:18 | what a theme colour reads through the application: its current theme (absent iff unset), each view whose parent it is as belonging to it, each detached view as belonging to none, and everything else as before |
| Application.SetThemeIsSeen | src/core/Application/index.js:143-153 | after a theme is set, an attached view's theme colours resolve as that theme given directly; after it is cleared they resolve to their defaults |
| Application.ViewBackgroundFollowsAttachment | src/core/View/index.js:7-13 | a view's default background, built before the view has an application, reads transparent until the view is set as the application's view, the theme's background while it is, and transparent after it is replaced |
| Application.SetScaleFactor | src/core/Application/index.js:163-166 | forwards the factor to the canvas and invalidates |
| Application.LogicalSize | src/core/Application/index.js:172-182 | width and height are the canvas size divided by the factor: Infinity or NaN when the factor is 0 |
| Application.AssignEventList | src/core/Application/index.js:254-292 | assigning any handler list throws |

## Left out

- The DOM and the browser are not modelled: the shadow root and style sheet, window listeners, `resize`, the constructors of Application, Animator and Surface, and `defineCustomElement`. The viewport size, `Date.now()` and the frame scheduler are parameters or effects.
- `getValue` and `interpolate` are uninterpreted. A tick's frame effect records the callback, the interpolator and the raw progress it was given.
- Re-entrant callbacks are not modelled: a frame callback, end callback or handler that calls back into the object. The effects record the order of those calls, not their consequences.
- Floating point is modelled as real arithmetic, with NaN and the infinities. Signed zero and rounding are not modelled.
- `ToNumber` of strings is modelled only for the empty string, the infinity literals and plain decimal digit strings. Every other string reads as NaN.
- Animator.SetIterations: the setter also accepts a `Number` wrapper object (`val instanceof Number`), which the model does not: an object value carries no record of its class, so every object is refused.
- Application.Prepare: the canvas size is a `nat`. The viewport-times-scale product is floored and clamped at 0, and the 2^32 wrap-around of the canvas size attributes is not modelled.
- The real 2D context's own checking of attribute values is not modelled. `Object.assign(ctx, props)` is recorded as one call.
- FillStyle and StrokeStyle are not part of this model. They are taken to write `fillStyle` and `strokeStyle` as the colour's hex form and nothing else, so the stroke thickness is not written to the context.
- The ShadowStyle getters and setters are the fields of a record.
- `Shape.getPath` is a path value named by the shape and size. `Shape.hitTest` is a function parameter.
- The view's own `parent` setter is a map from view to parent reference.
- src/utils/PropertySet's `merge` reads a free `object`, which would throw as written. The defaults record is a parameter.
- WebCanvas.New: the constructor as written calls the base constructor with no canvas, and uses `privates.setup` and `privates(this)`, which are not part of this model. The model keeps only the flag sequence of lines 42-48, starting from the merged options. The width and height defaults (lines 9-10) read the internal canvas during the merge at line 35, before line 37 stores it, so they give 0 and the model defaults both to 0.
- Exceptions thrown by user code are not modelled. This covers a stored handler, a legacy handler, a view's `draw`, a property setter outside the ones modelled, and an animator callback or end callback. Handlers and callbacks are functions that return. A throw would leave the later effects of the loop or the tick undone, and the model records them as done. A throwing `view.draw` in a frame would leave the redraw handle set for good, so `invalidate` would schedule nothing afterwards (src/core/Application/index.js:311-316). A throwing frame callback would leave the animator running with no next tick requested. The throws the model does follow are those of the two handler lists: the unbound prototype `invoke` stored in a src `HandlerList`, and the legacy list's `.invoke` called on a plain function.
- TextMetrics.Set: an object measure is converted once, through its primitive value. In the source, `isNaN` and `Number` each convert it, so a `valueOf` with side effects may give two readings; the model takes them to agree.
- Animator.SetDuration: an object duration is converted once, and the primitive it gives is what is stored. In the source the object itself is kept and converted again at every use (a length's `valueOf` follows the device pixel ratio, layout/PixelLength/index.js:17-19), and `isFinite` and `<` each convert it; the model takes all these readings to agree with the first.
- Animator.SetDelay: the same single conversion as the duration.
- Application.SeenBy: a view's `application` is taken to be the application that is its parent. The widget and container classes that define `application` are not part of this model, so a view nested in another widget keeps whatever application the environment gives it.
- PercentageLength.ValueOf: an object reference is converted once, through its `valueOf` result. In the source, `isNaN` and the multiplication each convert it, so a `valueOf` with side effects may give two readings; the model takes them to agree. A `valueOf` that returns an object would fall through to `toString`; the model reads that case as NaN.
- The pixels of a canvas are not modelled. A resize clears the bitmap along with the context state; the model keeps the call log and resets only the attributes, the transform and the save stack.

## Findings

| source | as written | input that shows it | evidently intended | confidence | as-written member | corrected member |
|---|---|---|---|---|---|---|
| utils/HandlerList/index.js:29 | `handled = handled \|\| handler instanceof HandlerList ? handler.invoke(...) : handler(...)` parses as `(handled \|\| isList) ? … : …` | two plain handlers, the first returning true: the second is called as `.invoke` and throws | short-circuit OR of each handler's result | high (not executed) | LegacyHandlerList.TruthyThenPlainThrows | HandlerList.InvokeBound |
| src/utils/HandlerList/index.js:9-10 | a handler list is stored as `handler.invoke`, the prototype method shared by every list and unbound | adding two different lists keeps one entry, and invoking it throws (`this` is undefined) | store each nested list so that invoking it runs that list | high (not executed) | HandlerList.NestedListsCollapseAndThrow | HandlerList.NestedListsStayDistinct |
| src/resources/Theme/index.js:28 | `new ThemeColor(color, Color.transparent)` passes the string as the context and the colour as the name | `setColor("primary", "accent")` on a theme defining "accent": the stored colour always resolves to transparent | an alias: `new ThemeColor(this, color)` resolving the named colour in this theme | high (not executed) | Themes.StringColorIsAlwaysTransparent | Themes.StringColorIsAlias |
| src/core/Application/index.js:313-316 | the pending handle is cleared after `draw()` returns | a widget that calls `invalidate()` from inside its draw: no new frame is requested | clear the handle first, so an invalidation during the draw schedules the next frame | medium (not executed) | Application.InvalidateDuringDrawIsLost | Application.InvalidateDuringDrawReschedules |

=== FILE: animator.dfy ===
/** The frame-driven animation state machine (`animation/Animator`).
    The clock is the `now` argument (milliseconds); the frame scheduler is
    a flag for an outstanding tick request plus the effects each operation
    emits. The interpolator and `getValue` are known only by identity: a
    frame records the raw progress it was computed from. */
module Animator {
  import opened Wrappers
  import opened Js

  datatype State = Stopped | Running | Paused

  /** What an operation does outside the animator, in order. A frame is
      `callback(getValue(interpolator.interpolate(raw)))`. */
  datatype Effect =
    | RequestTick
    | CancelTick
    | Frame(callback: Value, interpolator: nat, raw: Num)
    | EndCalled(endCallback: Value)

  datatype Animator = Animator(
    state: State,
    callback: Value,
    endCallback: Value,
    duration: Value,
    delay: Value,
    iterations: Num,
    interpolator: nat,
    startTime: Num,
    pausedProgress: Num,
    currentIteration: int,
    pending: bool)

  datatype Transition = Transition(anim: Animator, effects: seq<Effect>)

  /** The accepted values of `duration` and `delay`: `isFinite` holds and
      the value is not below 0. */
  predicate TimeOk(v: Value) {
    IsFiniteValue(v) && !Less(ToNumber(v), Fin(0.0))
  }

  /** The accepted values of `iterations`: a number not below 1. NaN and
      Infinity pass. */
  predicate IterationsOk(v: Value) {
    v.Number? && !Less(v.n, Fin(1.0))
  }

  predicate EndCallbackOk(v: Value) {
    v.Function? || IsNullish(v)
  }

  /** What a constructed animator keeps true: every property passed its
      setter's check, a tick request is outstanding exactly while running,
      and a started animator counts from iteration 1. */
  predicate Valid(a: Animator) {
    a.callback.Function?
    && EndCallbackOk(a.endCallback)
    && TimeOk(a.duration)
    && TimeOk(a.delay)
    && IterationsOk(Number(a.iterations))
    && (a.pending <==> a.state == Running)
    && (a.state != Stopped ==> a.currentIteration >= 1)
  }

  // ---- property setters: only while stopped ----

  function SetCallback(a: Animator, v: Value): (r: Result<Animator>)
    ensures r.Ok? <==> a.state == Stopped && v.Function?
    ensures a.state != Stopped ==> r == Err(InvalidState)
    ensures a.state == Stopped && !v.Function? ==> r == Err(InvalidArgument)
    ensures r.Ok? ==> r.value == a.(callback := v)
  {
    if a.state != Stopped then Err(InvalidState)
    else if !v.Function? then Err(InvalidArgument)
    else Ok(a.(callback := v))
  }

  function SetEndCallback(a: Animator, v: Value): (r: Result<Animator>)
    ensures r.Ok? <==> a.state == Stopped && EndCallbackOk(v)
    ensures a.state != Stopped ==> r == Err(InvalidState)
    ensures a.state == Stopped && !EndCallbackOk(v) ==> r == Err(InvalidArgument)
    ensures r.Ok? ==> r.value == a.(endCallback := v)
  {
    if a.state != Stopped then Err(InvalidState)
    else if !(v.Function? || IsNullish(v)) then Err(InvalidArgument)
    else Ok(a.(endCallback := v))
  }

  /** `isFinite(val)` and `val < 0` convert an object through its
      primitive (`primitive`); an accepted object is kept as that primitive. */
  function SetDuration(a: Animator, v: Value, primitive: nat -> Value): (r: Result<Animator>)
    ensures r.Ok? <==> a.state == Stopped && ToNumberVia(v, primitive).Fin? && ToNumberVia(v, primitive).r >= 0.0
    ensures a.state != Stopped ==> r == Err(InvalidState)
    ensures a.state == Stopped && !TimeOk(ToPrimitive(v, primitive)) ==> r == Err(InvalidArgument)
    ensures r.Ok? ==> r.value == a.(duration := ToPrimitive(v, primitive))
    ensures r.Ok? ==> ToNumber(r.value.duration) == ToNumberVia(v, primitive)
  {
    var p := ToPrimitive(v, primitive);
    if a.state != Stopped then Err(InvalidState)
    else if !IsFiniteValue(p) || Less(ToNumber(p), Fin(0.0)) then Err(InvalidArgument)
    else Ok(a.(duration := p))
  }

  function SetDelay(a: Animator, v: Value, primitive: nat -> Value): (r: Result<Animator>)
    ensures r.Ok? <==> a.state == Stopped && ToNumberVia(v, primitive).Fin? && ToNumberVia(v, primitive).r >= 0.0
    ensures a.state != Stopped ==> r == Err(InvalidState)
    ensures a.state == Stopped && !TimeOk(ToPrimitive(v, primitive)) ==> r == Err(InvalidArgument)
    ensures r.Ok? ==> r.value == a.(delay := ToPrimitive(v, primitive))
    ensures r.Ok? ==> ToNumber(r.value.delay) == ToNumberVia(v, primitive)
  {
    var p := ToPrimitive(v, primitive);
    if a.state != Stopped then Err(InvalidState)
    else if !IsFiniteValue(p) || Less(ToNumber(p), Fin(0.0)) then Err(InvalidArgument)
    else Ok(a.(delay := p))
  }

  /** `typeof val !== "number" && !(val instanceof Number) || val < 1`:
      only numbers reach the comparison, and NaN is not below 1. */
  function SetIterations(a: Animator, v: Value): (r: Result<Animator>)
    ensures r.Ok? <==> a.state == Stopped && IterationsOk(v)
    ensures a.state != Stopped ==> r == Err(InvalidState)
    ensures a.state == Stopped && !IterationsOk(v) ==> r == Err(InvalidArgument)
    ensures r.Ok? ==> r.value == a.(iterations := v.n)
  {
    if a.state != Stopped then Err(InvalidState)
    else if !v.Number? || Less(ToNumber(v), Fin(1.0)) then Err(InvalidArgument)
    else Ok(a.(iterations := v.n))
  }

  /** The argument is an Interpolator instance (`Some(id)`) or not (`None`). */
  function SetInterpolator(a: Animator, v: Option<nat>): (r: Result<Animator>)
    ensures r.Ok? <==> a.state == Stopped && v.Some?
    ensures a.state != Stopped ==> r == Err(InvalidState)
    ensures a.state == Stopped && v.None? ==> r == Err(InvalidArgument)
    ensures r.Ok? ==> r.value == a.(interpolator := v.value)
  {
    if a.state != Stopped then Err(InvalidState)
    else if v.None? then Err(InvalidArgument)
    else Ok(a.(interpolator := v.value))
  }

  /** Accepted setter calls keep the animator valid. */
  lemma SettersPreserveValid(a: Animator, v: Value, i: Option<nat>, primitive: nat -> Value)
    requires Valid(a)
    ensures SetCallback(a, v).Ok? ==> Valid(SetCallback(a, v).value)
    ensures SetEndCallback(a, v).Ok? ==> Valid(SetEndCallback(a, v).value)
    ensures SetDuration(a, v, primitive).Ok? ==> Valid(SetDuration(a, v, primitive).value)
    ensures SetDelay(a, v, primitive).Ok? ==> Valid(SetDelay(a, v, primitive).value)
    ensures SetIterations(a, v).Ok? ==> Valid(SetIterations(a, v).value)
    ensures SetInterpolator(a, i).Ok? ==> Valid(SetInterpolator(a, i).value)
  {
  }

  /** The validation accepts a numeric string duration and `null`, since
      `isFinite` and `<` coerce, and accepts NaN and Infinity as iterations. */
  lemma CoercingValidation(a: Animator, primitive: nat -> Value)
    requires a.state == Stopped
    ensures SetDuration(a, Str("250"), primitive).Ok?
    ensures SetDuration(a, Null, primitive).Ok?
    ensures SetDuration(a, Number(PosInf), primitive).Err?
    ensures SetIterations(a, Number(NaN)).Ok?
    ensures SetIterations(a, Number(PosInf)).Ok?
    ensures SetIterations(a, Str("3")).Err?
  {
    assert "250"[..2] == "25" && "25"[..1] == "2" && "2"[..0] == "";
  }

  /** An object duration is read through its primitive: one whose `valueOf`
      yields a finite number not below 0 is accepted and kept as that
      number, and one without a numeric primitive is refused. */
  lemma ObjectDurationConverts(a: Animator, o: nat, primitive: nat -> Value)
    requires a.state == Stopped
    ensures primitive(o).Number? && primitive(o).n.Fin? && primitive(o).n.r >= 0.0 ==>
      SetDuration(a, Object(o), primitive) == Ok(a.(duration := primitive(o)))
    ensures primitive(o).Object? ==> SetDuration(a, Object(o), primitive) == Err(InvalidArgument)
  {
  }

  // ---- progress ----

  /** `Math.min((now - startTime) / duration, 1)`: capped at 1 but with no
      lower clamp, and NaN when the quotient is. */
  function RawProgress(a: Animator, now: int): (r: Num)
    ensures !r.PosInf?
    ensures r.Fin? ==> r.r <= 1.0
    ensures r.NaN? <==> Div(Sub(Fin(now as real), a.startTime), ToNumber(a.duration)).NaN?
  {
    Min(Div(Sub(Fin(now as real), a.startTime), ToNumber(a.duration)), Fin(1.0))
  }

  /** Whether a tick at `now` takes the iteration-end branch. */
  predicate AtIterationEnd(a: Animator, now: int) {
    !Less(RawProgress(a, now), Fin(1.0))
  }

  /** The iteration-end branch sees a progress of exactly 1, or NaN: the
      source's promise that the callback gets 1 at the end fails only when
      the quotient is NaN, as with a zero duration and no elapsed time. */
  lemma EndProgressIsOneOrNaN(a: Animator, now: int)
    ensures AtIterationEnd(a, now) <==> RawProgress(a, now) == Fin(1.0) || RawProgress(a, now) == NaN
  {
  }

  lemma QuotientBelowOne(e: real, d: real)
    requires d > 0.0
    ensures e / d < 1.0 <==> e < d
  {
    var q := e / d;
    assert q * d == e;
    if q < 1.0 {
      assert q * d < 1.0 * d;
    } else {
      assert q * d >= 1.0 * d;
    }
  }

  /** With a finite start and a positive duration, the raw progress is the
      elapsed share of the duration, capped at 1. */
  lemma RawWhenPositive(a: Animator, now: int)
    requires a.startTime.Fin? && ToNumber(a.duration).Fin? && ToNumber(a.duration).r > 0.0
    ensures var x := (now as real - a.startTime.r) / ToNumber(a.duration).r;
      RawProgress(a, now) == if x < 1.0 then Fin(x) else Fin(1.0)
  {
    var d := ToNumber(a.duration).r;
    var e := now as real - a.startTime.r;
    assert Sub(Fin(now as real), a.startTime) == Fin(e);
    assert Div(Fin(e), Fin(d)) == Fin(e / d);
  }

  /** With a non-negative elapsed time, a tick is before the iteration end
      exactly when the duration is positive and has not yet elapsed; a zero
      duration ends every iteration at once (the quotient is Infinity, or
      NaN when no time has passed). */
  lemma IterationEndCharacterized(a: Animator, now: int)
    requires a.startTime.Fin? && ToNumber(a.duration).Fin? && ToNumber(a.duration).r >= 0.0
    requires now as real - a.startTime.r >= 0.0
    ensures !AtIterationEnd(a, now) <==> ToNumber(a.duration).r > 0.0 && now as real - a.startTime.r < ToNumber(a.duration).r
  {
    var d := ToNumber(a.duration).r;
    var e := now as real - a.startTime.r;
    assert Sub(Fin(now as real), a.startTime) == Fin(e);
    if d > 0.0 {
      RawWhenPositive(a, now);
      QuotientBelowOne(e, d);
    }
  }

  /** A clock earlier than the start time gives a negative raw progress. */
  lemma NoLowerClamp(a: Animator, now: int)
    requires a.startTime.Fin? && ToNumber(a.duration).Fin? && ToNumber(a.duration).r > 0.0
    requires now as real < a.startTime.r
    ensures RawProgress(a, now).Fin? && RawProgress(a, now).r < 0.0
  {
    var d := ToNumber(a.duration).r;
    var e := now as real - a.startTime.r;
    RawWhenPositive(a, now);
    assert (e / d) * d == e;
    assert e / d < 0.0;
  }

  // ---- transitions ----

  function Start(a: Animator, now: int): (r: Result<Transition>)
    ensures r.Ok? <==> a.state == Stopped
    ensures r.Err? ==> r.error == InvalidState
    ensures r.Ok? ==> (
      r.value.anim.state == Running && r.value.anim.currentIteration == 1
      && r.value.anim.startTime == Fin(now as real)
      && r.value.effects == [RequestTick])
    ensures r.Ok? ==> r.value.anim == a.(state := Running, currentIteration := 1, startTime := Fin(now as real), pending := true)
    ensures r.Ok? && Valid(a) ==> Valid(r.value.anim)
  {
    if a.state == Stopped then
      Ok(Transition(a.(state := Running, currentIteration := 1, startTime := Fin(now as real), pending := true), [RequestTick]))
    else
      Err(InvalidState)
  }

  /** Legal in every state; always cancels the outstanding tick request. */
  function Stop(a: Animator): (r: Transition)
    ensures r.anim.state == Stopped && !r.anim.pending
    ensures r.effects == [CancelTick]
    ensures r.anim.(state := a.state, pending := a.pending) == a
    ensures Valid(a) ==> Valid(r.anim)
  {
    Transition(a.(state := Stopped, pending := false), [CancelTick])
  }

  function Pause(a: Animator, now: int): (r: Result<Transition>)
    ensures r.Ok? <==> a.state == Running
    ensures r.Err? ==> r.error == InvalidState
    ensures r.Ok? ==> (
      r.value.anim.state == Paused
      && r.value.anim.pausedProgress == RawProgress(a, now)
      && r.value.effects == [CancelTick])
    ensures r.Ok? ==> r.value.anim == a.(state := Paused, pausedProgress := r.value.anim.pausedProgress, pending := false)
    ensures r.Ok? && Valid(a) ==> Valid(r.value.anim)
  {
    if a.state == Running then
      Ok(Transition(a.(state := Paused, pausedProgress := RawProgress(a, now), pending := false), [CancelTick]))
    else
      Err(InvalidState)
  }

  /** Moves the start time back by the paused progress's share of the
      duration. */
  function Resume(a: Animator, now: int): (r: Result<Transition>)
    ensures r.Ok? <==> a.state == Paused
    ensures r.Err? ==> r.error == InvalidState
    ensures r.Ok? ==> (
      r.value.anim.state == Running
      && r.value.anim.startTime == Sub(Fin(now as real), Mul(a.pausedProgress, ToNumber(a.duration)))
      && r.value.effects == [RequestTick])
    ensures r.Ok? ==> r.value.anim == a.(state := Running, startTime := r.value.anim.startTime, pending := true)
    ensures r.Ok? && Valid(a) ==> Valid(r.value.anim)
  {
    if a.state == Paused then
      Ok(Transition(a.(state := Running,
                       startTime := Sub(Fin(now as real), Mul(a.pausedProgress, ToNumber(a.duration))),
                       pending := true), [RequestTick]))
    else
      Err(InvalidState)
  }

  /** With a zero duration the raw progress is 1 once time has passed and
      NaN (0 / 0) at the start instant. */
  lemma RawAtZeroDuration(a: Animator, now: int)
    requires a.startTime.Fin? && ToNumber(a.duration) == Fin(0.0)
    requires now as real >= a.startTime.r
    ensures now as real > a.startTime.r ==> RawProgress(a, now) == Fin(1.0)
    ensures now as real == a.startTime.r ==> RawProgress(a, now) == NaN
  {
    var e := now as real - a.startTime.r;
    assert Sub(Fin(now as real), a.startTime) == Fin(e);
  }

  /** With a positive duration, pausing and later resuming leaves the raw
      progress, at the moment of resuming, equal to the value captured at
      the pause. */
  lemma PauseResumeKeepsProgress(a: Animator, t1: int, t2: int)
    requires a.state == Running && a.startTime.Fin?
    requires ToNumber(a.duration).Fin? && ToNumber(a.duration).r > 0.0
    ensures var p := Pause(a, t1).value.anim;
      RawProgress(Resume(p, t2).value.anim, t2) == p.pausedProgress
  {
    var d := ToNumber(a.duration).r;
    var e := t1 as real - a.startTime.r;
    RawWhenPositive(a, t1);
    var q := if e / d < 1.0 then e / d else 1.0;
    var p := Pause(a, t1).value.anim;
    assert p.pausedProgress == Fin(q);
    ResumeReadsSnapshot(p, t2, q);
  }

  /** Resuming a snapshot `q` of at most 1 with a positive duration reads
      `q` back at the resuming instant. */
  lemma ResumeReadsSnapshot(p: Animator, t2: int, q: real)
    requires p.state == Paused && p.pausedProgress == Fin(q) && q <= 1.0
    requires ToNumber(p.duration).Fin? && ToNumber(p.duration).r > 0.0
    ensures RawProgress(Resume(p, t2).value.anim, t2) == Fin(q)
  {
    var d := ToNumber(p.duration).r;
    var r := Resume(p, t2).value.anim;
    assert Mul(Fin(q), Fin(d)) == Fin(q * d);
    assert r.startTime == Fin(t2 as real - q * d);
    RawWhenPositive(r, t2);
    var x := t2 as real - (t2 as real - q * d);
    assert x == q * d;
    ScaleCancels(q, d);
  }

  /** Scaling by a positive factor and dividing by it again gives back the
      original value. */
  lemma ScaleCancels(q: real, d: real)
    requires d > 0.0
    ensures (q * d) / d == q
  {
  }

  lemma NaNProgressEndsIteration(a: Animator, now: int)
    requires RawProgress(a, now) == NaN
    ensures AtIterationEnd(a, now)
  {
  }

  /** With a zero duration the round trip does not keep the progress:
      once time has passed, the pause captures 1 ... */
  lemma PauseAtZeroDurationCapturesOne(a: Animator, t1: int)
    requires a.state == Running && a.startTime.Fin? && ToNumber(a.duration) == Fin(0.0)
    requires t1 as real > a.startTime.r
    ensures Pause(a, t1).Ok? && Pause(a, t1).value.anim.pausedProgress == Fin(1.0)
  {
    RawAtZeroDuration(a, t1);
  }

  lemma ResumeFromFullAtZeroDuration(p: Animator, t2: int)
    requires p.state == Paused && p.pausedProgress == Fin(1.0) && ToNumber(p.duration) == Fin(0.0)
    ensures Resume(p, t2).Ok?
    ensures Resume(p, t2).value.anim.startTime == Fin(t2 as real)
    ensures Resume(p, t2).value.anim.duration == p.duration
  {
    assert Resume(p, t2).value.anim.startTime == Sub(Fin(t2 as real), Mul(Fin(1.0), Fin(0.0)));
    FiniteArithmetic(1.0, 0.0);
    FiniteArithmetic(t2 as real, 0.0);
  }

  /** ... and the resumed animator reads NaN (0 / 0) at the moment of
      resuming, which still takes the iteration-end branch. */
  lemma ResumeAtZeroDurationReadsNaN(p: Animator, t2: int)
    requires p.state == Paused && p.pausedProgress == Fin(1.0) && ToNumber(p.duration) == Fin(0.0)
    ensures Resume(p, t2).Ok?
    ensures RawProgress(Resume(p, t2).value.anim, t2) == NaN
    ensures AtIterationEnd(Resume(p, t2).value.anim, t2)
  {
    ResumeFromFullAtZeroDuration(p, t2);
    var r := Resume(p, t2).value.anim;
    RawAtZeroDuration(r, t2);
    NaNProgressEndsIteration(r, t2);
  }

  /** A finite start time and a finite duration not below 0. */
  predicate Timed(a: Animator) {
    a.startTime.Fin? && ToNumber(a.duration).Fin? && ToNumber(a.duration).r >= 0.0
  }

  /** The clock readings one tick makes, in order: the branch test reads
      the raw progress, the callback's progress reads it again, and a new
      iteration reads the clock for its start time. */
  datatype Clock = Clock(test: int, frame: int, restart: int)

  /** One animation frame. While running: the frame's callback fires with
      the progress at its own clock reading; before the iteration end the
      tick is requested again; at the end, the next iteration starts if the
      count is below `floor(iterations)`, and otherwise the animator stops
      and then calls `endCallback` if it is a function. In any other state
      nothing happens. */
  function Tick(a: Animator, t: Clock): (r: Transition)
    ensures a.state != Running ==> r == Transition(a, [])
    ensures a.state == Running ==> |r.effects| >= 2 && r.effects[0] == Frame(a.callback, a.interpolator, RawProgress(a, t.frame))
    ensures a.state == Running && !AtIterationEnd(a, t.test) ==> r == Transition(a, [r.effects[0], RequestTick])
    ensures a.state == Running && AtIterationEnd(a, t.test) && t.test <= t.frame && Timed(a) ==>
      r.effects[0].raw == Fin(1.0) || r.effects[0].raw == NaN
    ensures a.state == Running && AtIterationEnd(a, t.test) && Less(Fin(a.currentIteration as real), Floor(a.iterations)) ==>
      r.anim == a.(currentIteration := a.currentIteration + 1, startTime := Fin(t.restart as real))
      && r.effects[1..] == [RequestTick]
    ensures a.state == Running && AtIterationEnd(a, t.test) && !Less(Fin(a.currentIteration as real), Floor(a.iterations)) ==>
      r.anim == Stop(a).anim
      && r.effects[1..] == [CancelTick] + (if a.endCallback.Function? then [EndCalled(a.endCallback)] else [])
    ensures r.anim.interpolator == a.interpolator && r.anim.duration == a.duration && r.anim.delay == a.delay
    ensures Valid(a) ==> Valid(r.anim)
  {
    EndStaysEnd(a, t.test, t.frame);
    if a.state != Running then Transition(a, [])
    else
      var frame := Frame(a.callback, a.interpolator, RawProgress(a, t.frame));
      if Less(RawProgress(a, t.test), Fin(1.0)) then
        Transition(a, [frame, RequestTick])
      else if Less(Fin(a.currentIteration as real), Floor(a.iterations)) then
        Transition(a.(currentIteration := a.currentIteration + 1, startTime := Fin(t.restart as real)), [frame, RequestTick])
      else
        var stopped := Stop(a);
        Transition(stopped.anim, [frame] + stopped.effects
                                 + (if a.endCallback.Function? then [EndCalled(a.endCallback)] else []))
  }

  /** Once a clock reading is at the iteration end, a later reading is too,
      so it sees 1 or NaN. */
  lemma EndStaysEnd(a: Animator, t1: int, t2: int)
    ensures AtIterationEnd(a, t1) && t1 <= t2 && Timed(a) ==>
      AtIterationEnd(a, t2) && (RawProgress(a, t2) == Fin(1.0) || RawProgress(a, t2) == NaN)
  {
    if AtIterationEnd(a, t1) && t1 <= t2 && Timed(a) {
      IterationEndCharacterized(a, t1);
      IterationEndCharacterized(a, t2);
      EndProgressIsOneOrNaN(a, t2);
    }
  }

  /** The clock may pass the iteration end between the branch test and the
      callback: the frame then carries 1 although another tick is
      requested, and the end frame that follows carries 1 again. */
  lemma FrameCanReachOneBeforeTheEnd(a: Animator)
    requires a.state == Running && a.duration == Number(Fin(100.0)) && a.startTime == Fin(0.0)
    ensures Tick(a, Clock(99, 100, 100)) == Transition(a, [Frame(a.callback, a.interpolator, Fin(1.0)), RequestTick])
    ensures Tick(a, Clock(101, 101, 101)).effects[0] == Frame(a.callback, a.interpolator, Fin(1.0))
  {
    assert RawProgress(a, 99) == Fin(99.0 / 100.0);
    assert RawProgress(a, 100) == Fin(1.0);
  }

  /** The tick never reads `delay`: two animators differing only in their
      delay tick alike. */
  lemma DelayIsNeverRead(a: Animator, d: Value, now: Clock)
    ensures Tick(a.(delay := d), now).effects == Tick(a, now).effects
    ensures Tick(a.(delay := d), now).anim == Tick(a, now).anim.(delay := d)
  {
  }

  // ---- whole runs ----

  /** Ticks at the given times, in order, with their effects concatenated. */
  function Ticks(a: Animator, times: seq<Clock>): Transition
    decreases |times|
  {
    if |times| == 0 then Transition(a, [])
    else
      var first := Tick(a, times[0]);
      var rest := Ticks(first.anim, times[1..]);
      Transition(rest.anim, first.effects + rest.effects)
  }

  /** Whether every tick of the run lands at an iteration end. */
  predicate AllAtEnd(a: Animator, times: seq<Clock>)
    decreases |times|
  {
    |times| == 0 || (AtIterationEnd(a, times[0].test) && AllAtEnd(Tick(a, times[0]).anim, times[1..]))
  }

  function CountFrames(effects: seq<Effect>): nat
    decreases |effects|
  {
    if |effects| == 0 then 0
    else (if effects[0].Frame? then 1 else 0) + CountFrames(effects[1..])
  }

  function CountEnds(effects: seq<Effect>): nat
    decreases |effects|
  {
    if |effects| == 0 then 0
    else (if effects[0].EndCalled? then 1 else 0) + CountEnds(effects[1..])
  }

  lemma {:induction false} CountsAdd(e1: seq<Effect>, e2: seq<Effect>)
    ensures CountFrames(e1 + e2) == CountFrames(e1) + CountFrames(e2)
    ensures CountEnds(e1 + e2) == CountEnds(e1) + CountEnds(e2)
    decreases |e1|
  {
    if |e1| > 0 {
      CountsAdd(e1[1..], e2);
      assert (e1 + e2)[0] == e1[0];
      assert (e1 + e2)[1..] == e1[1..] + e2;
    } else {
      assert e1 + e2 == e2;
    }
  }

  /** Iteration count: a running animator at iteration k, with
      `floor(iterations)` a finite N >= k, stops after exactly N - k + 1
      iteration-end ticks; each emits one frame, and the end callback fires
      once if it is a function. */
  lemma {:induction false} CompletesFloorIterations(a: Animator, times: seq<Clock>)
    requires a.state == Running && a.iterations.Fin?
    requires 1 <= a.currentIteration <= a.iterations.r.Floor
    requires |times| == a.iterations.r.Floor - a.currentIteration + 1
    requires AllAtEnd(a, times)
    ensures Ticks(a, times).anim.state == Stopped
    ensures CountFrames(Ticks(a, times).effects) == |times|
    ensures CountEnds(Ticks(a, times).effects) == (if a.endCallback.Function? then 1 else 0)
    decreases |times|
  {
    var first := Tick(a, times[0]);
    var rest := Ticks(first.anim, times[1..]);
    CountsAdd(first.effects, rest.effects);
    var n := a.iterations.r.Floor;
    assert Floor(a.iterations) == Fin(n as real);
    if a.currentIteration < n {
      assert first.effects == [first.effects[0], RequestTick];
      assert CountFrames(first.effects) == 1 && CountEnds(first.effects) == 0;
      CompletesFloorIterations(first.anim, times[1..]);
    } else {
      var tail := [CancelTick] + (if a.endCallback.Function? then [EndCalled(a.endCallback)] else []);
      assert first.effects == [first.effects[0]] + tail;
      assert [CancelTick][1..] == [];
      if a.endCallback.Function? {
        assert [EndCalled(a.endCallback)][1..] == [];
        CountsAdd([CancelTick], [EndCalled(a.endCallback)]);
      } else {
        assert tail == [CancelTick];
      }
      assert [first.effects[0]][1..] == [];
      CountsAdd([first.effects[0]], tail);
      assert times[1..] == [];
    }
  }

  /** `Math.floor(NaN)` is NaN and nothing is below NaN, so NaN iterations
      end the animation at the first iteration end. */
  lemma NaNIterationsEndAtOnce(a: Animator, now: Clock)
    requires a.state == Running && a.iterations == NaN && AtIterationEnd(a, now.test)
    ensures Tick(a, now).anim.state == Stopped
  {
  }

  /** Infinite iterations never stop on their own. */
  lemma InfiniteIterationsNeverStop(a: Animator, now: Clock)
    requires a.state == Running && a.iterations == PosInf
    ensures Tick(a, now).anim.state == Running
  {
  }
}

=== FILE: application.dfy ===
/** The application element (`src/core/Application`): pointer-event
    dispatch over the widgets under the pointer, keyboard focus, redraw
    scheduling, and the theme, view and scale-factor properties. The DOM,
    the window and the widget tree are inputs: the widgets under the
    pointer arrive as a list, each widget's handler-list result as a
    function, the viewport size as numbers, and the view's own drawing as
    a function on the canvas. */
module Application {
  import opened Wrappers
  import opened Js
  import C = Canvas
  import Context2D
  import Themes

  /** What dispatch and focus read of a widget. `id` is the object's
      identity: two records with the same `id` are the same widget seen at
      different times, so `===` compares ids only. */
  datatype Widget = Widget(id: nat, x: real, y: real, focusable: bool)

  /** The stored focused widget. `undefined` and `null` are different
      stored values, as the identity check on assignment tells them apart. */
  datatype FocusRef = Unset | NullRef | Focused(w: Widget)

  /** A value assigned to `focusedWidget`. */
  datatype FocusArg = WidgetArg(w: Widget) | UndefinedArg | NullArg | OtherArg

  /** A view's `parent`, as far as the application inspects it. */
  datatype ParentRef = NoParent | ThisApp | OtherParent(id: nat)

  datatype App = App(
    theme: Option<Themes.ThemeId>,
    view: Option<nat>,
    parents: map<nat, ParentRef>,
    focus: FocusRef,
    drawPending: bool,
    canvas: C.Canvas)

  datatype EventKind = Click | PointerDown | PointerMove | PointerUp

  datatype PointerEvent = PointerEvent(kind: EventKind, clientX: real, clientY: real, offsetX: real, offsetY: real)

  /** What the application does outside its own fields, in order. */
  datatype Effect =
    | RequestFrame
    | FocusGained(gained: Widget)
    | FocusLost(lost: Widget)
    | WidgetHandler(kind: EventKind, widget: Widget, x: real, y: real)
    | AppHandler(appKind: EventKind, appX: real, appY: real)

  datatype Update = Update(app: App, effects: seq<Effect>)

  // ---- redraw scheduling ----

  /** Schedules a draw for the next frame unless one is already pending. */
  function Invalidate(a: App): (r: Update)
    ensures r.app.drawPending
    ensures r.app.(drawPending := a.drawPending) == a
    ensures r.effects == if a.drawPending then [] else [RequestFrame]
  {
    if a.drawPending then Update(a, []) else Update(a.(drawPending := true), [RequestFrame])
  }

  /** `n` invalidations in a row, effects concatenated. */
  function InvalidateTimes(a: App, n: nat): Update
    decreases n
  {
    if n == 0 then Update(a, [])
    else
      var first := Invalidate(a);
      var rest := InvalidateTimes(first.app, n - 1);
      Update(rest.app, first.effects + rest.effects)
  }

  /** Coalescing: any number of invalidations schedules at most one draw,
      and none if one was already pending. */
  lemma {:induction false} InvalidationsCoalesce(a: App, n: nat)
    requires n >= 1
    ensures InvalidateTimes(a, n).app == a.(drawPending := true)
    ensures InvalidateTimes(a, n).effects == if a.drawPending then [] else [RequestFrame]
    decreases n
  {
    if n > 1 {
      var first := Invalidate(a);
      InvalidationsCoalesce(first.app, n - 1);
      assert first.app.drawPending;
    }
  }

  /** The canvas size the browser stores for a requested size: the whole
      part of a non-negative number, 0 otherwise. */
  function CanvasSize(x: real): nat {
    if x <= 0.0 then 0 else x.Floor
  }

  /** The canvas the view is handed: resized to the viewport at the
      current scale, which resets its context, then given its scale again
      and cleared. Nothing assigned before survives. */
  function Prepare(c: C.Canvas, viewportWidth: real, viewportHeight: real): (r: C.Canvas)
    ensures r.element == c.element
    ensures r.width == CanvasSize(viewportWidth * c.scaleFactor) && r.height == CanvasSize(viewportHeight * c.scaleFactor)
    ensures r.scaleFactor == c.scaleFactor
    ensures r.ctx.attrs == map[] && r.ctx.stack == [] && r.ctx.transform == Context2D.Scaled(c.scaleFactor)
    ensures r.ctx.log == c.ctx.log
      + [Context2D.SetTransform(c.scaleFactor), Context2D.ClearRect(0.0, 0.0, r.width as real, r.height as real)]
  {
    var s := c.scaleFactor;
    var sized := C.SetHeight(C.SetWidth(c, CanvasSize(viewportWidth * s)), CanvasSize(viewportHeight * s));
    C.Clear(C.SetScaleFactor(sized, s))
  }

  /** `draw()`: prepare the canvas, and let the view draw on it if there is
      one; nothing else of the application changes. */
  function Draw(a: App, viewportWidth: real, viewportHeight: real, drawView: C.Canvas -> C.Canvas): (r: App)
    ensures r.(canvas := a.canvas) == a
    ensures a.view.None? ==> r.canvas == Prepare(a.canvas, viewportWidth, viewportHeight)
    ensures a.view.Some? ==> r.canvas == drawView(Prepare(a.canvas, viewportWidth, viewportHeight))
    ensures a.view.None? ==> (
      r.canvas.width == CanvasSize(viewportWidth * a.canvas.scaleFactor)
      && r.canvas.height == CanvasSize(viewportHeight * a.canvas.scaleFactor)
      && r.canvas.scaleFactor == a.canvas.scaleFactor
      && r.canvas.ctx.log == a.canvas.ctx.log
         + [Context2D.SetTransform(a.canvas.scaleFactor),
            Context2D.ClearRect(0.0, 0.0, r.canvas.width as real, r.canvas.height as real)])
  {
    var prepared := Prepare(a.canvas, viewportWidth, viewportHeight);
    a.(canvas := if a.view.Some? then drawView(prepared) else prepared)
  }

  /** A draw depends on the canvas only through its element, scale factor
      and call log: the size, attributes, transform and save stack left by
      earlier frames make no difference to what the view is handed. */
  lemma DrawForgetsEarlierCanvasState(a: App, c: C.Canvas, viewportWidth: real, viewportHeight: real, drawView: C.Canvas -> C.Canvas)
    requires c.element == a.canvas.element && c.scaleFactor == a.canvas.scaleFactor && c.ctx.log == a.canvas.ctx.log
    ensures Draw(a.(canvas := c), viewportWidth, viewportHeight, drawView) == Draw(a, viewportWidth, viewportHeight, drawView)
  {
    var p1 := Prepare(c, viewportWidth, viewportHeight);
    var p2 := Prepare(a.canvas, viewportWidth, viewportHeight);
    assert p1.ctx == p2.ctx;
    assert p1 == p2;
  }

  /** The scheduled frame as written: draw, during which the view may
      invalidate `k` times, and only then forget the pending handle. */
  function Frame(a: App, viewportWidth: real, viewportHeight: real, drawView: C.Canvas -> C.Canvas, k: nat): (r: Update)
    requires a.drawPending
    ensures !r.app.drawPending
    ensures r.effects == []
    ensures r.app == Draw(a, viewportWidth, viewportHeight, drawView).(drawPending := false)
  {
    var drawn := Draw(a, viewportWidth, viewportHeight, drawView);
    if k == 0 then Update(drawn.(drawPending := false), [])
    else
      InvalidationsCoalesce(drawn, k);
      var during := InvalidateTimes(drawn, k);
      Update(during.app.(drawPending := false), during.effects)
  }

  /** The evidently intended frame: forget the handle first, then draw, so
      that an invalidation during the draw schedules the next frame. */
  function FrameClearingFirst(a: App, viewportWidth: real, viewportHeight: real, drawView: C.Canvas -> C.Canvas, k: nat): (r: Update)
    requires a.drawPending
    ensures r.app.drawPending <==> k > 0
    ensures r.effects == if k > 0 then [RequestFrame] else []
    ensures r.app == Draw(a.(drawPending := false), viewportWidth, viewportHeight, drawView).(drawPending := k > 0)
  {
    var drawn := Draw(a.(drawPending := false), viewportWidth, viewportHeight, drawView);
    if k == 0 then Update(drawn, [])
    else
      InvalidationsCoalesce(drawn, k);
      InvalidateTimes(drawn, k)
  }

  /** As written, a redraw requested while drawing is lost: nothing is
      scheduled and nothing stays pending. */
  lemma InvalidateDuringDrawIsLost(a: App, vw: real, vh: real, drawView: C.Canvas -> C.Canvas)
    requires a.drawPending
    ensures Frame(a, vw, vh, drawView, 1).effects == []
    ensures !Frame(a, vw, vh, drawView, 1).app.drawPending
  {
  }

  /** Clearing first, the same request schedules exactly one new frame. */
  lemma InvalidateDuringDrawReschedules(a: App, vw: real, vh: real, drawView: C.Canvas -> C.Canvas, k: nat)
    requires a.drawPending && k >= 1
    ensures FrameClearingFirst(a, vw, vh, drawView, k).effects == [RequestFrame]
    ensures FrameClearingFirst(a, vw, vh, drawView, k).app.drawPending
  {
  }

  // ---- focus ----

  /** `this.focusedWidget === val`. */
  predicate SameFocus(f: FocusRef, v: FocusArg) {
    match v
    case UndefinedArg => f.Unset?
    case NullArg => f.NullRef?
    case WidgetArg(w) => f.Focused? && f.w.id == w.id
    case OtherArg => false
  }

  /** A focusable widget or a nullish value. */
  predicate Focusable(v: FocusArg) {
    (v.WidgetArg? && v.w.focusable) || v.UndefinedArg? || v.NullArg?
  }

  function Stored(v: FocusArg): FocusRef
    requires Focusable(v)
  {
    match v
    case WidgetArg(w) => Focused(w)
    case UndefinedArg => Unset
    case NullArg => NullRef
  }

  /** Assigning the current value does nothing; otherwise a non-focusable
      value is refused, and an accepted one is stored, then the new widget
      is told it gained focus, then the old one that it lost it. */
  function SetFocus(a: App, v: FocusArg): (r: Result<Update>)
    ensures SameFocus(a.focus, v) ==> r == Ok(Update(a, []))
    ensures !SameFocus(a.focus, v) && !Focusable(v) ==> r == Err(InvalidArgument)
    ensures r.Ok? <==> SameFocus(a.focus, v) || Focusable(v)
    ensures r.Ok? ==> r.value.app == a.(focus := r.value.app.focus)
    ensures r.Ok? && !SameFocus(a.focus, v) ==> (
      r.value.app.focus == Stored(v)
      && r.value.effects == (if v.WidgetArg? then [FocusGained(v.w)] else [])
                            + (if a.focus.Focused? then [FocusLost(a.focus.w)] else []))
  {
    if SameFocus(a.focus, v) then Ok(Update(a, []))
    else if !Focusable(v) then Err(InvalidArgument)
    else
      var gained := if v.WidgetArg? then [FocusGained(v.w)] else [];
      var lost := if a.focus.Focused? then [FocusLost(a.focus.w)] else [];
      Ok(Update(a.(focus := Stored(v)), gained + lost))
  }

  /** Moving focus between two widgets notifies the new one first, and
      assigning the same widget again notifies nobody. */
  lemma FocusMoveOrder(a: App, w1: Widget, w2: Widget)
    requires a.focus == Focused(w1) && w2.focusable && w1.id != w2.id
    ensures SetFocus(a, WidgetArg(w2)) == Ok(Update(a.(focus := Focused(w2)), [FocusGained(w2), FocusLost(w1)]))
    ensures SetFocus(SetFocus(a, WidgetArg(w2)).value.app, WidgetArg(w2)).value.effects == []
  {
    assert [FocusGained(w2)] + [FocusLost(w1)] == [FocusGained(w2), FocusLost(w1)];
  }

  /** A refused assignment leaves focus alone, even from no focus at all. */
  lemma NonFocusableRefused(a: App, w: Widget)
    requires !w.focusable && !(a.focus.Focused? && a.focus.w.id == w.id)
    ensures SetFocus(a, WidgetArg(w)) == Err(InvalidArgument)
    ensures SetFocus(a, OtherArg) == Err(InvalidArgument)
  {
  }

  // ---- pointer dispatch ----

  /** What a widget's handler list returned for the event at the given
      widget-relative point. */
  type Responder = (Widget, real, real) -> Value

  function Response(hits: seq<Widget>, i: nat, ev: PointerEvent, respond: Responder): Value
    requires i < |hits|
  {
    respond(hits[i], ev.offsetX - hits[i].x, ev.offsetY - hits[i].y)
  }

  lemma ShiftedResponses(hits: seq<Widget>, ev: PointerEvent, respond: Responder)
    requires |hits| > 0
    ensures (exists i :: 0 <= i < |hits| && Truthy(Response(hits, i, ev, respond)))
      <==> Truthy(Response(hits, 0, ev, respond)) || exists j :: 0 <= j < |hits| - 1 && Truthy(Response(hits[1..], j, ev, respond))
    ensures forall i :: 1 <= i < |hits| ==> Response(hits, i, ev, respond) == Response(hits[1..], i - 1, ev, respond)
  {
    assert forall i :: 1 <= i < |hits| ==> Response(hits, i, ev, respond) == Response(hits[1..], i - 1, ev, respond);
    if exists j :: 0 <= j < |hits| - 1 && Truthy(Response(hits[1..], j, ev, respond)) {
      var j :| 0 <= j < |hits| - 1 && Truthy(Response(hits[1..], j, ev, respond));
      assert Truthy(Response(hits, j + 1, ev, respond));
    }
  }

  /** The dispatch loop: how many widgets were asked, and whether the last
      one asked handled the event. */
  function Walk(hits: seq<Widget>, ev: PointerEvent, respond: Responder): (r: (nat, bool))
    ensures r.0 <= |hits|
    ensures r.1 <==> exists i :: 0 <= i < |hits| && Truthy(Response(hits, i, ev, respond))
    ensures forall i :: 0 <= i < r.0 - 1 ==> !Truthy(Response(hits, i, ev, respond))
    ensures r.1 ==> r.0 >= 1 && Truthy(Response(hits, r.0 - 1, ev, respond))
    ensures !r.1 ==> r.0 == |hits|
    decreases |hits|
  {
    if |hits| == 0 then (0, false)
    else if Truthy(Response(hits, 0, ev, respond)) then (1, true)
    else
      var rest := Walk(hits[1..], ev, respond);
      ShiftedResponses(hits, ev, respond);
      (rest.0 + 1, rest.1)
  }

  function WidgetCalls(hits: seq<Widget>, n: nat, ev: PointerEvent): (r: seq<Effect>)
    requires n <= |hits|
    ensures |r| == n
    ensures forall i :: 0 <= i < n ==> r[i] == WidgetHandler(ev.kind, hits[i], ev.offsetX - hits[i].x, ev.offsetY - hits[i].y)
  {
    seq(n, i requires 0 <= i < n => WidgetHandler(ev.kind, hits[i], ev.offsetX - hits[i].x, ev.offsetY - hits[i].y))
  }

  /** The focus a click leaves: the first widget under the pointer if it is
      focusable, otherwise none. */
  function ClickFocus(hits: seq<Widget>): FocusArg {
    if |hits| > 0 && hits[0].focusable then WidgetArg(hits[0]) else UndefinedArg
  }

  /** The handler calls of one pointer event: widgets under the pointer
      are asked in order, each with the point relative to itself, until one
      handles it; the application's own handler is asked, with client
      coordinates, only if none did. */
  function HandlerCalls(ev: PointerEvent, hits: seq<Widget>, respond: Responder): (r: seq<Effect>)
    ensures var handled := exists i :: 0 <= i < |hits| && Truthy(Response(hits, i, ev, respond));
      (AppHandler(ev.kind, ev.clientX, ev.clientY) in r <==> !handled)
    ensures forall e :: e in r ==> e.WidgetHandler? || e.AppHandler?
    ensures exists n :: (
      0 <= n <= |hits| && n <= |r|
      && r[..n] == WidgetCalls(hits, n, ev)
      && (forall i :: 0 <= i < n - 1 ==> !Truthy(Response(hits, i, ev, respond)))
      && (n < |hits| ==> n >= 1 && Truthy(Response(hits, n - 1, ev, respond)))
      && (forall e :: e in r[n..] ==> !e.WidgetHandler?))
  {
    var walk := Walk(hits, ev, respond);
    var widgetCalls := WidgetCalls(hits, walk.0, ev);
    var r := widgetCalls + (if walk.1 then [] else [AppHandler(ev.kind, ev.clientX, ev.clientY)]);
    assert r[..walk.0] == widgetCalls;
    assert r[walk.0..] == (if walk.1 then [] else [AppHandler(ev.kind, ev.clientX, ev.clientY)]);
    assert forall e :: e in widgetCalls ==> e.WidgetHandler?;
    r
  }

  /** A pointer event: the handler calls, then, for a click, the focus
      change to the first widget under the pointer if it is focusable and
      to no focus otherwise, with its notifications. Without a view the
      lookup of the widgets under the pointer throws before any handler
      runs. */
  function Dispatch(a: App, ev: PointerEvent, hits: seq<Widget>, respond: Responder): (r: Result<Update>)
    ensures r.Ok? <==> a.view.Some?
    ensures a.view.None? ==> r == Err(TypeError)
    ensures r.Ok? ==> |HandlerCalls(ev, hits, respond)| <= |r.value.effects|
    ensures r.Ok? ==> r.value.effects[..|HandlerCalls(ev, hits, respond)|] == HandlerCalls(ev, hits, respond)
    ensures r.Ok? ==> forall e :: e in r.value.effects[|HandlerCalls(ev, hits, respond)|..] ==> e.FocusGained? || e.FocusLost?
    ensures r.Ok? && ev.kind == Click ==> r.value.effects == HandlerCalls(ev, hits, respond) + SetFocus(a, ClickFocus(hits)).value.effects
    ensures r.Ok? && ev.kind == Click ==> r.value.app == a.(focus := r.value.app.focus)
    ensures r.Ok? && ev.kind == Click ==>
      if ClickFocus(hits).WidgetArg? then r.value.app.focus.Focused? && r.value.app.focus.w.id == hits[0].id
      else r.value.app.focus == Unset
    ensures r.Ok? && ev.kind != Click ==> r.value == Update(a, HandlerCalls(ev, hits, respond))
  {
    if a.view.None? then Err(TypeError)
    else
      var calls := HandlerCalls(ev, hits, respond);
      if ev.kind == Click then
        var focus := SetFocus(a, ClickFocus(hits));
        assert focus.Ok?;
        var u := Update(focus.value.app, calls + focus.value.effects);
        assert u.effects[..|calls|] == calls;
        assert u.effects[|calls|..] == focus.value.effects;
        Ok(u)
      else
        Ok(Update(a, calls))
  }

  /** The first handler that reports the event handled is the last one
      asked: with the first widget handling it, no other widget and not the
      application is asked. */
  lemma FirstHandlerStops(a: App, ev: PointerEvent, hits: seq<Widget>, respond: Responder)
    requires |hits| >= 2 && ev.kind != Click && a.view.Some?
    requires Truthy(Response(hits, 0, ev, respond))
    ensures Dispatch(a, ev, hits, respond).value.effects
      == [WidgetHandler(ev.kind, hits[0], ev.offsetX - hits[0].x, ev.offsetY - hits[0].y)]
  {
    assert Walk(hits, ev, respond) == (1, true);
  }

  /** A click on a focused widget seen in a newer state (same identity)
      leaves focus and notifications alone. */
  lemma ClickOnFocusedWidgetIsQuiet(a: App, ev: PointerEvent, hits: seq<Widget>, respond: Responder)
    requires a.view.Some? && ev.kind == Click
    requires |hits| > 0 && hits[0].focusable && a.focus.Focused? && a.focus.w.id == hits[0].id
    ensures Dispatch(a, ev, hits, respond) == Ok(Update(a, HandlerCalls(ev, hits, respond)))
  {
    assert HandlerCalls(ev, hits, respond) + [] == HandlerCalls(ev, hits, respond);
  }

  // ---- properties ----

  datatype ThemeArg = ThemeObject(id: Themes.ThemeId) | NullishTheme | OtherTheme

  /** A Theme is stored, a nullish value clears the theme; either way a
      redraw follows. Anything else is refused before invalidating. */
  function SetTheme(a: App, v: ThemeArg): (r: Result<Update>)
    ensures r.Ok? <==> !v.OtherTheme?
    ensures r.Err? ==> r.error == InvalidArgument
    ensures r.Ok? ==> r.value.app.theme == (if v.ThemeObject? then Some(v.id) else None)
    ensures r.Ok? ==> r.value.app.drawPending && r.value.app.(theme := a.theme, drawPending := a.drawPending) == a
    ensures r.Ok? ==> r.value.effects == if a.drawPending then [] else [RequestFrame]
  {
    match v
    case ThemeObject(id) => Ok(Invalidate(a.(theme := Some(id))))
    case NullishTheme => Ok(Invalidate(a.(theme := None)))
    case OtherTheme => Err(InvalidArgument)
  }

  function ParentOf(parents: map<nat, ParentRef>, view: nat): ParentRef {
    if view in parents then parents[view] else NoParent
  }

  /** The old view is detached only if it is attached to this application,
      the new one (if any) is attached, and a redraw follows. */
  function SetView(a: App, v: Option<nat>): (r: Update)
    ensures r.app.view == v
    ensures v.Some? ==> ParentOf(r.app.parents, v.value) == ThisApp
    ensures a.view.Some? && a.view != v && ParentOf(a.parents, a.view.value) == ThisApp ==>
      ParentOf(r.app.parents, a.view.value) == NoParent
    ensures forall u: nat :: Some(u) != v && (Some(u) != a.view || ParentOf(a.parents, u) != ThisApp) ==>
      ParentOf(r.app.parents, u) == ParentOf(a.parents, u)
    ensures r.app.drawPending && r.effects == if a.drawPending then [] else [RequestFrame]
  {
    var detached := if a.view.Some? && ParentOf(a.parents, a.view.value) == ThisApp
                    then a.parents[a.view.value := NoParent] else a.parents;
    var attached := if v.Some? then detached[v.value := ThisApp] else detached;
    Invalidate(a.(view := v, parents := attached))
  }

  /** The view `o` has this application as its parent. */
  predicate ChildOf(a: App, o: nat) {
    o in a.parents && a.parents[o] == ThisApp
  }

  /** The view `o` was detached and has no parent. */
  predicate Detached(a: App, o: nat) {
    o in a.parents && a.parents[o] == NoParent
  }

  /** What a theme colour reads through this application (known to it as
      `id`) at the moment of use: the application's current theme, every
      view whose parent is this application as belonging to it, and every
      detached view as belonging to none. Themes, other applications and
      views with some other parent are as `env` has them. */
  function SeenBy(a: App, id: Themes.AppId, env: Themes.Env): (r: Themes.Env)
    ensures r.themes == env.themes
    ensures a.theme.Some? <==> id in r.appThemes
    ensures a.theme.Some? ==> r.appThemes[id] == a.theme.value
    ensures forall b :: b != id ==> (b in r.appThemes <==> b in env.appThemes)
    ensures forall b :: b != id && b in env.appThemes ==> r.appThemes[b] == env.appThemes[b]
    ensures forall o :: ChildOf(a, o) ==> o in r.owners && r.owners[o] == id
    ensures forall o :: Detached(a, o) ==> o !in r.owners
    ensures forall o :: o !in a.parents ==> (o in r.owners <==> o in env.owners)
    ensures forall o :: o !in a.parents && o in env.owners ==> r.owners[o] == env.owners[o]
  {
    var appThemes := if a.theme.Some? then env.appThemes[id := a.theme.value] else env.appThemes - {id};
    var owners := map o | o in env.owners.Keys + a.parents.Keys && (ChildOf(a, o) || (o in env.owners && !Detached(a, o)))
                    :: if ChildOf(a, o) then id else env.owners[o];
    Themes.Env(env.themes, appThemes, owners)
  }

  /** A theme set on the application is what every attached view's theme
      colours read from then on, and clearing it sends them to their
      defaults. */
  lemma SetThemeIsSeen(a: App, id: Themes.AppId, env: Themes.Env, t: Themes.ThemeId, o: nat, name: string, fallback: Themes.Color)
    requires ChildOf(a, o)
    ensures var r := SetTheme(a, ThemeObject(t)).value.app;
      Themes.Resolve(Themes.ThemeColor(Themes.Owner(o), name, fallback), SeenBy(r, id, env))
        == Themes.Resolve(Themes.ThemeColor(Themes.DirectTheme(t), name, fallback), SeenBy(r, id, env))
    ensures var r := SetTheme(a, NullishTheme).value.app;
      Themes.Resolve(Themes.ThemeColor(Themes.Owner(o), name, fallback), SeenBy(r, id, env)) == fallback
  {
    var r1 := SetTheme(a, ThemeObject(t)).value.app;
    assert ChildOf(r1, o);
    var r2 := SetTheme(a, NullishTheme).value.app;
    assert ChildOf(r2, o);
  }

  /** A view's default background is built when the view is, before it has
      an application: it reads as transparent until the view is set as the
      application's view, as the theme's background while it is, and as
      transparent again once another view replaces it. */
  lemma ViewBackgroundFollowsAttachment(a: App, id: Themes.AppId, env: Themes.Env, v: nat, w: nat, c: Themes.Color)
    requires v !in a.parents && v !in env.owners && w != v
    requires a.theme.Some? && a.theme.value in env.themes
    requires Themes.GetColor(env.themes[a.theme.value], "background") == Some(c)
    ensures var bg := Themes.NewThemeColor(Themes.Owner(v), "background", Themes.GivenColor(Themes.Transparent)).value;
      var attached := SetView(a, Some(v)).app;
      Themes.Resolve(bg, SeenBy(a, id, env)) == Themes.Transparent
      && Themes.Resolve(bg, SeenBy(attached, id, env)) == c
      && Themes.Resolve(bg, SeenBy(SetView(attached, Some(w)).app, id, env)) == Themes.Transparent
  {
    var attached := SetView(a, Some(v)).app;
    assert ChildOf(attached, v);
    assert Detached(SetView(attached, Some(w)).app, v);
  }

  /** Setting the scale factor sets the canvas's, then asks for a redraw. */
  function SetScaleFactor(a: App, s: real): (r: Update)
    ensures r.app.canvas.scaleFactor == s && r.app.canvas.ctx.transform == Context2D.Scaled(s)
    ensures r.app.canvas.width == a.canvas.width && r.app.canvas.height == a.canvas.height
    ensures r.app.drawPending && r.effects == if a.drawPending then [] else [RequestFrame]
  {
    Invalidate(a.(canvas := C.SetScaleFactor(a.canvas, s)))
  }

  /** Width and height in logical pixels: the canvas size over the scale. */
  function Width(a: App): Num {
    Div(Fin(a.canvas.width as real), Fin(a.canvas.scaleFactor))
  }

  function Height(a: App): Num {
    Div(Fin(a.canvas.height as real), Fin(a.canvas.scaleFactor))
  }

  /** Logical size times the scale is the canvas size; a zero scale gives
      Infinity for a non-empty canvas and NaN for an empty one. */
  lemma LogicalSize(a: App)
    ensures a.canvas.scaleFactor != 0.0 ==> Width(a).Fin? && Width(a).r * a.canvas.scaleFactor == a.canvas.width as real
    ensures a.canvas.scaleFactor != 0.0 ==> Height(a).Fin? && Height(a).r * a.canvas.scaleFactor == a.canvas.height as real
    ensures a.canvas.scaleFactor == 0.0 && a.canvas.width > 0 ==> Width(a) == PosInf
    ensures a.canvas.scaleFactor == 0.0 && a.canvas.width == 0 ==> Width(a) == NaN
  {
  }

  datatype EventList = OnResize | OnClick | OnPointerDown | OnPointerMove | OnPointerUp

  /** The handler lists are read-only: assigning any of them throws. */
  function AssignEventList(a: App, which: EventList, v: Value): (r: Result<App>)
    ensures r == Err(ReadOnly)
  {
    Err(ReadOnly)
  }
}

=== FILE: canvas.dfy ===
/** The drawing surface (`drawing/Canvas`): a canvas element, its 2D
    context and a scale factor, with the draw primitives built on the
    shared save / assign / paint / restore bracket. */
module Canvas {
  import opened Wrappers
  import opened Js
  import opened Drawing
  import opened Context2D

  /** An image handed to `drawImage`: a Canvas object (identified by the
      element it draws on) or any other image source. */
  datatype ImageSource = CanvasImage(element: nat) | OtherImage(id: nat)

  /** `width` and `height` are the element's; `scaleFactor` is private state. */
  datatype Canvas = Canvas(element: nat, width: nat, height: nat, scaleFactor: real, ctx: Context)

  /** The element's context before anything is assigned to it. */
  const BlankContext: Context := Context(map[], Scaled(1.0), [], [])

  const SmoothingOff: Attrs := map["imageSmoothingEnabled" := Plain(Bool(false))]

  /** A canvas over an element of the given size: the constructor's one
      call on the context switches image smoothing off. */
  function New(element: nat, width: nat, height: nat): (r: Canvas)
    ensures r.element == element && r.width == width && r.height == height
    ensures r.scaleFactor == 1.0
    ensures Has(r.ctx.attrs, "imageSmoothingEnabled") == false && "imageSmoothingEnabled" in r.ctx.attrs
    ensures r.ctx.attrs.Keys == {"imageSmoothingEnabled"}
    ensures r.ctx.transform == Scaled(1.0) && r.ctx.stack == []
    ensures r.ctx.log == [Assign(map["imageSmoothingEnabled" := Plain(Bool(false))])]
  {
    Canvas(element, width, height, 1.0, Step(BlankContext, Assign(SmoothingOff)))
  }

  /** Whether the element, its size and the scale factor are unchanged. */
  predicate SameCanvas(c: Canvas, r: Canvas) {
    r.element == c.element && r.width == c.width && r.height == c.height && r.scaleFactor == c.scaleFactor
  }

  /** Resizing the element resets its context: the assigned attributes
      (image smoothing included) and the transform are lost, while the
      private scale factor is kept, so it no longer matches the transform. */
  function SetWidth(c: Canvas, w: nat): (r: Canvas)
    ensures r.width == w && r.height == c.height && r.element == c.element && r.scaleFactor == c.scaleFactor
    ensures r.ctx.attrs == map[] && r.ctx.transform == Scaled(1.0) && r.ctx.stack == []
    ensures r.ctx.log == c.ctx.log
  {
    c.(width := w, ctx := Reset(c.ctx))
  }

  function SetHeight(c: Canvas, h: nat): (r: Canvas)
    ensures r.height == h && r.width == c.width && r.element == c.element && r.scaleFactor == c.scaleFactor
    ensures r.ctx.attrs == map[] && r.ctx.transform == Scaled(1.0) && r.ctx.stack == []
    ensures r.ctx.log == c.ctx.log
  {
    c.(height := h, ctx := Reset(c.ctx))
  }

  /** After a resize, even to the same size, the canvas paints smoothed and
      unscaled although it still reports its scale factor: the constructor's
      `imageSmoothingEnabled = false` and the transform set with the scale
      factor do not survive it. */
  lemma ResizeForgetsSmoothingAndScale(element: nat, w: nat, h: nat, s: real)
    requires s != 1.0
    ensures var c := SetWidth(SetScaleFactor(New(element, w, h), s), w);
      c.scaleFactor == s && c.ctx.transform != Scaled(c.scaleFactor)
      && "imageSmoothingEnabled" !in c.ctx.attrs
  {
  }

  /** Storing the scale factor also resets the context transform to it. */
  function SetScaleFactor(c: Canvas, s: real): (r: Canvas)
    ensures r.scaleFactor == s
    ensures r.element == c.element && r.width == c.width && r.height == c.height
    ensures r.ctx.transform == Scaled(s) && r.ctx.attrs == c.ctx.attrs && r.ctx.stack == c.ctx.stack
    ensures r.ctx.log == c.ctx.log + [SetTransform(s)]
  {
    c.(scaleFactor := s, ctx := Step(c.ctx, SetTransform(s)))
  }

  /** The attributes a draw call assigns: its Style entries applied in
      order onto a fresh map at this canvas's scale. */
  function Props(c: Canvas, styles: seq<StyleEntry>): Attrs {
    Compose(styles, c.scaleFactor)
  }

  function DrawRect(c: Canvas, x: real, y: real, w: real, h: real, styles: seq<StyleEntry>): (r: Canvas)
    ensures SameCanvas(c, r) && SameState(c.ctx, r.ctx)
    ensures PaintedWith(c.ctx, r.ctx, Props(c, styles), [BeginPath, Rect(x, y, w, h)], FillPath(None), StrokePath(None))
    ensures r.ctx.log == c.ctx.log + Calls(Props(c, styles), [BeginPath, Rect(x, y, w, h)], FillPath(None), StrokePath(None))
  {
    c.(ctx := Bracket(c.ctx, Props(c, styles), [BeginPath, Rect(x, y, w, h)], FillPath(None), StrokePath(None)))
  }

  function DrawShape(c: Canvas, x: real, y: real, w: real, h: real, shape: Shape, styles: seq<StyleEntry>): (r: Canvas)
    ensures SameCanvas(c, r) && SameState(c.ctx, r.ctx)
    ensures PaintedWith(c.ctx, r.ctx, Props(c, styles), [Translate(x, y)],
                        FillPath(Some(PathOf(shape, w, h))), StrokePath(Some(PathOf(shape, w, h))))
    ensures r.ctx.log == c.ctx.log + Calls(Props(c, styles), [Translate(x, y)],
                                           FillPath(Some(PathOf(shape, w, h))), StrokePath(Some(PathOf(shape, w, h))))
  {
    var path := PathOf(shape, w, h);
    c.(ctx := Bracket(c.ctx, Props(c, styles), [Translate(x, y)], FillPath(Some(path)), StrokePath(Some(path))))
  }

  function DrawText(c: Canvas, text: string, x: real, y: real, styles: seq<StyleEntry>): (r: Canvas)
    ensures SameCanvas(c, r) && SameState(c.ctx, r.ctx)
    ensures PaintedWith(c.ctx, r.ctx, Props(c, styles), [], FillText(text, x, y), StrokeText(text, x, y))
    ensures r.ctx.log == c.ctx.log + Calls(Props(c, styles), [], FillText(text, x, y), StrokeText(text, x, y))
  {
    c.(ctx := Bracket(c.ctx, Props(c, styles), [], FillText(text, x, y), StrokeText(text, x, y)))
  }

  /** A Canvas object is replaced by the element it draws on. */
  function Unwrap(image: ImageSource): ImageRef {
    match image
    case CanvasImage(e) => ElementRef(e)
    case OtherImage(id) => ForeignRef(id)
  }

  /** The i-th argument after the image, `undefined` when not passed. */
  function Arg(args: seq<Value>, i: nat): Value {
    if i < |args| then args[i] else Undefined
  }

  /** `drawImage(image, ...args)`: `arguments.length` is `1 + |args|`.
      3 or 5 arguments use the destination form, 7 or 9 the source
      rectangle form (source arguments first), anything else throws. */
  function DrawImage(c: Canvas, image: ImageSource, args: seq<Value>): (r: Result<Canvas>)
    ensures r.Ok? <==> 1 + |args| in {3, 5, 7, 9}
    ensures r.Err? ==> r.error == InvalidArgument
    ensures r.Ok? ==> SameCanvas(c, r.value) && SameState(c.ctx, r.value.ctx)
    ensures r.Ok? ==> |r.value.ctx.log| == |c.ctx.log| + 1 && r.value.ctx.log[..|c.ctx.log|] == c.ctx.log
    ensures r.Ok? && 1 + |args| in {3, 5} ==>
      r.value.ctx.log[|c.ctx.log|] == DrawImage5(Unwrap(image), Arg(args, 0), Arg(args, 1), Arg(args, 2), Arg(args, 3))
    ensures r.Ok? && 1 + |args| in {7, 9} ==>
      r.value.ctx.log[|c.ctx.log|] == DrawImage9(Unwrap(image), Arg(args, 4), Arg(args, 5), Arg(args, 6), Arg(args, 7),
                                                 Arg(args, 0), Arg(args, 1), Arg(args, 2), Arg(args, 3))
  {
    var img := Unwrap(image);
    var n := 1 + |args|;
    if n == 3 || n == 5 then
      Ok(c.(ctx := Step(c.ctx, DrawImage5(img, Arg(args, 0), Arg(args, 1), Arg(args, 2), Arg(args, 3)))))
    else if n == 7 || n == 9 then
      Ok(c.(ctx := Step(c.ctx, DrawImage9(img, Arg(args, 4), Arg(args, 5), Arg(args, 6), Arg(args, 7),
                                          Arg(args, 0), Arg(args, 1), Arg(args, 2), Arg(args, 3)))))
    else
      Err(InvalidArgument)
  }

  /** Clears the rectangle from the origin to the canvas's current size. */
  function Clear(c: Canvas): (r: Canvas)
    ensures SameCanvas(c, r) && SameState(c.ctx, r.ctx)
    ensures r.ctx.log == c.ctx.log + [ClearRect(0.0, 0.0, c.width as real, c.height as real)]
  {
    c.(ctx := Step(c.ctx, ClearRect(0.0, 0.0, c.width as real, c.height as real)))
  }

  /** Leaving out the trailing size arguments is the same as passing them
      as undefined: the 3- and 5-argument forms, and the 7- and 9-argument
      forms, log the same call. */
  lemma OmittedSizeIsUndefined(c: Canvas, image: ImageSource, dx: Value, dy: Value, sx: Value, sy: Value, sw: Value, sh: Value)
    ensures DrawImage(c, image, [dx, dy]) == DrawImage(c, image, [dx, dy, Undefined, Undefined])
    ensures DrawImage(c, image, [dx, dy, Undefined, Undefined, sx, sy]) == DrawImage(c, image, [dx, dy, Undefined, Undefined, sx, sy, Undefined, Undefined])
    ensures DrawImage(c, image, [dx, dy, Undefined, Undefined, sx, sy, sw, sh]).Ok?
  {
  }

  /** The scale factor starts at 1 and reads back whatever was set last. */
  lemma ScaleFactorReadsBack(element: nat, w: nat, h: nat, s1: real, s2: real)
    ensures New(element, w, h).scaleFactor == 1.0
    ensures SetScaleFactor(New(element, w, h), s1).scaleFactor == s1
    ensures SetScaleFactor(SetScaleFactor(New(element, w, h), s1), s2).scaleFactor == s2
    ensures SetScaleFactor(SetScaleFactor(New(element, w, h), s1), s2).ctx.transform == Scaled(s2)
  {
  }

  lemma SingleShadow(sh: ShadowStyle, scale: real)
    ensures Compose([Present(Shadow(sh))], scale) == ApplyShadow(sh, map[], scale)
  {
    var es := [Present(Shadow(sh))];
    assert es[..|es| - 1] == [];
    assert Compose(es[..|es| - 1], scale) == map[];
  }

  /** A shadow in a draw call is scaled by the canvas's current scale factor. */
  lemma ShadowFollowsScale(c: Canvas, s: real, sh: ShadowStyle, x: real, y: real, w: real, h: real)
    ensures var r := DrawRect(SetScaleFactor(c, s), x, y, w, h, [Present(Shadow(sh))]);
      Assign(map["shadowOffsetX" := Plain(Number(Fin(sh.offsetX * s)))]
                ["shadowOffsetY" := Plain(Number(Fin(sh.offsetY * s)))]
                ["shadowBlur" := Plain(Number(Fin(sh.blurAmount * s)))]
                ["shadowColor" := HexOf(sh.color)]) in r.ctx.log
  {
    var c1 := SetScaleFactor(c, s);
    var r := DrawRect(c1, x, y, w, h, [Present(Shadow(sh))]);
    SingleShadow(sh, s);
    assert Added(c1.ctx, r.ctx)[1] in r.ctx.log;
  }

  /** A shadow alone paints nothing: no fill and no stroke is issued. */
  lemma ShadowAlonePaintsNothing(c: Canvas, sh: ShadowStyle, x: real, y: real, w: real, h: real)
    ensures var r := DrawRect(c, x, y, w, h, [Present(Shadow(sh))]);
      FillPath(None) !in Added(c.ctx, r.ctx) && StrokePath(None) !in Added(c.ctx, r.ctx)
  {
    SingleShadow(sh, c.scaleFactor);
    var props := Props(c, [Present(Shadow(sh))]);
    assert !Has(props, "fillStyle") && !Has(props, "strokeStyle");
  }

  /** Three arguments: the destination form with width and height undefined. */
  lemma ThreeArgumentsLeaveSizeUndefined(c: Canvas, image: ImageSource, dx: Value, dy: Value)
    ensures DrawImage(c, image, [dx, dy]).Ok?
    ensures DrawImage(c, image, [dx, dy]).value.ctx.log == c.ctx.log + [DrawImage5(Unwrap(image), dx, dy, Undefined, Undefined)]
  {
  }
}

=== FILE: context2d.dfy ===
/** The browser's 2D rendering context, reduced to what the drawing code
    relies on: paint attributes, the current transform, the save/restore
    stack, and a log of every call made on it. No pixels are modelled. */
module Context2D {
  import opened Wrappers
  import opened Js
  import opened Drawing

  datatype Transform = Scaled(scale: real) | Translated(base: Transform, dx: real, dy: real)

  /** What `drawImage` receives: a canvas element or any other image source. */
  datatype ImageRef = ElementRef(element: nat) | ForeignRef(id: nat)

  /** `shape.getPath(width, height)`. */
  datatype Path = PathOf(shape: Shape, width: real, height: real)

  /** Calls on the context. `FillPath(None)` is `fill()` on the current path. */
  datatype Op =
    | Save
    | Restore
    | Assign(props: Attrs)
    | BeginPath
    | Rect(x: real, y: real, w: real, h: real)
    | Translate(tx: real, ty: real)
    | FillPath(path: Option<Path>)
    | StrokePath(path: Option<Path>)
    | FillText(text: string, x: real, y: real)
    | StrokeText(text: string, x: real, y: real)
    | DrawImage5(image: ImageRef, dx: Value, dy: Value, dw: Value, dh: Value)
    | DrawImage9(image: ImageRef, sx: Value, sy: Value, sw: Value, sh: Value,
                 dx: Value, dy: Value, dw: Value, dh: Value)
    | ClearRect(x: real, y: real, w: real, h: real)
    | SetTransform(scale: real)

  datatype Snapshot = Snapshot(attrs: Attrs, transform: Transform)

  datatype Context = Context(attrs: Attrs, transform: Transform, stack: seq<Snapshot>, log: seq<Op>)

  /** The state a context returns to whenever its canvas element's width
      or height is set, even to the value it already has (section 4.12.5,
      "The canvas element", of the HTML Living Standard): every attribute
      back at its default (none assigned), the identity transform and an
      empty save stack. The calls already made stay in the log. */
  function Reset(c: Context): (r: Context)
    ensures r.attrs == map[] && r.transform == Scaled(1.0) && r.stack == []
    ensures r.log == c.log
  {
    Context(map[], Scaled(1.0), [], c.log)
  }

  predicate IsFill(op: Op) { op.FillPath? || op.FillText? }
  predicate IsStroke(op: Op) { op.StrokePath? || op.StrokeText? }
  predicate KeepsStack(op: Op) { !op.Save? && !op.Restore? }

  /** One call: its effect on the state, and its entry in the log. */
  function Step(c: Context, op: Op): (r: Context)
    ensures r.log == c.log + [op]
    ensures KeepsStack(op) ==> r.stack == c.stack
    ensures op.Save? ==> r.stack == c.stack + [Snapshot(c.attrs, c.transform)] && r.attrs == c.attrs && r.transform == c.transform
    ensures op.Restore? && |c.stack| > 0 ==> (
      r.stack == c.stack[..|c.stack| - 1]
      && r.attrs == c.stack[|c.stack| - 1].attrs
      && r.transform == c.stack[|c.stack| - 1].transform)
    ensures op.Restore? && |c.stack| == 0 ==> r == c.(log := c.log + [op])
    ensures !op.Assign? && !op.Restore? ==> r.attrs == c.attrs
  {
    var c' := c.(log := c.log + [op]);
    match op
    case Save => c'.(stack := c.stack + [Snapshot(c.attrs, c.transform)])
    case Restore =>
      if |c.stack| == 0 then c'
      else
        var top := c.stack[|c.stack| - 1];
        c'.(attrs := top.attrs, transform := top.transform, stack := c.stack[..|c.stack| - 1])
    case Assign(p) => c'.(attrs := c.attrs + p)
    case Translate(tx, ty) => c'.(transform := Translated(c.transform, tx, ty))
    case SetTransform(s) => c'.(transform := Scaled(s))
    case _ => c'
  }

  /** A sequence of calls, in order. */
  function Run(c: Context, ops: seq<Op>): Context
    decreases |ops|
  {
    if |ops| == 0 then c else Run(Step(c, ops[0]), ops[1..])
  }

  /** Every call is logged, in order. */
  lemma {:induction false} RunLogs(c: Context, ops: seq<Op>)
    ensures Run(c, ops).log == c.log + ops
    decreases |ops|
  {
    if |ops| > 0 {
      RunLogs(Step(c, ops[0]), ops[1..]);
      assert c.log + [ops[0]] + ops[1..] == c.log + ops;
    }
  }

  /** Calls that neither save nor restore leave the stack alone. */
  lemma {:induction false} RunKeepsStack(c: Context, ops: seq<Op>)
    requires forall i :: 0 <= i < |ops| ==> KeepsStack(ops[i])
    ensures Run(c, ops).stack == c.stack
    decreases |ops|
  {
    if |ops| > 0 {
      RunKeepsStack(Step(c, ops[0]), ops[1..]);
    }
  }

  /** The conditional part of a draw call: the fill call if `fillStyle` is
      truthy, then the stroke call if `strokeStyle` is truthy. */
  function Paint(props: Attrs, fill: Op, stroke: Op): seq<Op> {
    (if Has(props, "fillStyle") then [fill] else [])
    + (if Has(props, "strokeStyle") then [stroke] else [])
  }

  /** The calls a draw call appended to the log. */
  function Added(before: Context, after: Context): seq<Op>
    requires |before.log| <= |after.log|
  {
    after.log[|before.log|..]
  }

  /** Paint attributes, transform and save stack are what they were. */
  predicate SameState(before: Context, after: Context) {
    after.attrs == before.attrs && after.transform == before.transform && after.stack == before.stack
  }

  /** No stroke call precedes a fill call. */
  predicate FillsBeforeStrokes(ops: seq<Op>) {
    forall i, j :: 0 <= i < |ops| && 0 <= j < |ops| && IsStroke(ops[i]) && IsFill(ops[j]) ==> j < i
  }

  /** Whether `prelude` may sit between the attribute assignment and the
      paint calls: it neither saves, restores, fills nor strokes. */
  predicate QuietPrelude(prelude: seq<Op>) {
    forall i :: 0 <= i < |prelude| ==> KeepsStack(prelude[i]) && !IsFill(prelude[i]) && !IsStroke(prelude[i])
  }

  /** The calls shared by every draw primitive: save, assign the composed
      attributes, the primitive's own set-up calls, fill and stroke as the
      attributes decide, restore. */
  function Calls(props: Attrs, prelude: seq<Op>, fill: Op, stroke: Op): seq<Op> {
    [Save] + ([Assign(props)] + prelude + Paint(props, fill, stroke)) + [Restore]
  }

  /** Fill is issued iff `fillStyle` is truthy, stroke iff `strokeStyle` is,
      and every fill precedes every stroke, after the set-up calls. */
  lemma PaintOrder(props: Attrs, prelude: seq<Op>, fill: Op, stroke: Op)
    requires QuietPrelude(prelude)
    requires IsFill(fill) && IsStroke(stroke)
    ensures fill in Calls(props, prelude, fill, stroke) <==> Has(props, "fillStyle")
    ensures stroke in Calls(props, prelude, fill, stroke) <==> Has(props, "strokeStyle")
    ensures forall i :: 0 <= i < |Calls(props, prelude, fill, stroke)| && IsFill(Calls(props, prelude, fill, stroke)[i]) ==>
      Calls(props, prelude, fill, stroke)[i] == fill && i >= 2 + |prelude|
    ensures forall i :: 0 <= i < |Calls(props, prelude, fill, stroke)| && IsStroke(Calls(props, prelude, fill, stroke)[i]) ==>
      Calls(props, prelude, fill, stroke)[i] == stroke && i >= 2 + |prelude|
    ensures FillsBeforeStrokes(Calls(props, prelude, fill, stroke))
  {
    CallsLayout(props, prelude, fill, stroke);
  }

  /** Where each call sits: save and assignment, the set-up calls, the
      paint calls, restore. */
  lemma CallsLayout(props: Attrs, prelude: seq<Op>, fill: Op, stroke: Op)
    ensures var ops := Calls(props, prelude, fill, stroke);
      var paint := Paint(props, fill, stroke);
      |ops| == 3 + |prelude| + |paint|
      && ops[0] == Save && ops[1] == Assign(props)
      && (forall i :: 2 <= i < 2 + |prelude| ==> ops[i] == prelude[i - 2])
      && (forall i :: 2 + |prelude| <= i < 2 + |prelude| + |paint| ==> ops[i] == paint[i - 2 - |prelude|])
      && ops[|ops| - 1] == Restore
  {
    var ops := Calls(props, prelude, fill, stroke);
    var paint := Paint(props, fill, stroke);
    assert ops == [Save, Assign(props)] + prelude + paint + [Restore];
  }

  /** What a draw primitive promises about the calls it appended to the
      log: it kept what was logged before, opened with save and the
      attribute assignment, ran its set-up calls, issued fill iff
      `fillStyle` is truthy and stroke iff `strokeStyle` is, every fill
      before every stroke and after the set-up, and closed with restore. */
  predicate PaintedWith(before: Context, after: Context, props: Attrs, prelude: seq<Op>, fill: Op, stroke: Op) {
    |before.log| + 3 + |prelude| <= |after.log|
    && after.log[..|before.log|] == before.log
    && var ops := Added(before, after);
    && ops[0] == Save
    && ops[1] == Assign(props)
    && ops[2..2 + |prelude|] == prelude
    && ops[|ops| - 1] == Restore
    && (fill in ops <==> Has(props, "fillStyle"))
    && (stroke in ops <==> Has(props, "strokeStyle"))
    && FillsBeforeStrokes(ops)
    && (forall i :: 0 <= i < |ops| && IsFill(ops[i]) ==> ops[i] == fill && i >= 2 + |prelude|)
    && (forall i :: 0 <= i < |ops| && IsStroke(ops[i]) ==> ops[i] == stroke && i >= 2 + |prelude|)
  }

  lemma LoggedCallsPaint(before: Context, after: Context, props: Attrs, prelude: seq<Op>, fill: Op, stroke: Op)
    requires QuietPrelude(prelude)
    requires IsFill(fill) && IsStroke(stroke)
    requires after.log == before.log + Calls(props, prelude, fill, stroke)
    ensures PaintedWith(before, after, props, prelude, fill, stroke)
  {
    var ops := Calls(props, prelude, fill, stroke);
    assert Added(before, after) == ops;
    PaintOrder(props, prelude, fill, stroke);
    assert ops[..2 + |prelude|] == [Save, Assign(props)] + prelude;
  }

  /** A draw primitive run on `c`: the calls are logged after what was
      there, and the save/restore pair puts attributes, transform and stack
      back as they were. */
  function Bracket(c: Context, props: Attrs, prelude: seq<Op>, fill: Op, stroke: Op): (r: Context)
    requires QuietPrelude(prelude)
    requires IsFill(fill) && IsStroke(stroke)
    ensures SameState(c, r)
    ensures r.log == c.log + Calls(props, prelude, fill, stroke)
    ensures PaintedWith(c, r, props, prelude, fill, stroke)
  {
    var body := [Assign(props)] + prelude + Paint(props, fill, stroke);
    var saved := Step(c, Save);
    var inner := Run(saved, body);
    RunKeepsStack(saved, body);
    RunLogs(saved, body);
    var r := Step(inner, Restore);
    LoggedCallsPaint(c, r, props, prelude, fill, stroke);
    r
  }

  /** The calls added across two steps are those of the first step, then
      those of the second. */
  lemma AddedSplits(a: Context, b: Context, c: Context)
    requires |a.log| <= |b.log| && b.log[..|a.log|] == a.log
    requires |b.log| <= |c.log| && c.log[..|b.log|] == b.log
    ensures |a.log| <= |c.log| && c.log[..|a.log|] == a.log
    ensures Added(a, c) == Added(a, b) + Added(b, c)
  {
    assert c.log[..|a.log|] == c.log[..|b.log|][..|a.log|];
  }

  /** A segment without strokes followed by one without fills keeps every
      fill before every stroke. */
  lemma FillsThenStrokes(ops1: seq<Op>, ops2: seq<Op>, fill: Op, stroke: Op)
    requires forall i :: 0 <= i < |ops1| ==> !IsStroke(ops1[i]) && (IsFill(ops1[i]) ==> ops1[i] == fill)
    requires forall i :: 0 <= i < |ops2| ==> !IsFill(ops2[i]) && (IsStroke(ops2[i]) ==> ops2[i] == stroke)
    ensures FillsBeforeStrokes(ops1 + ops2)
    ensures forall i :: 0 <= i < |ops1 + ops2| && IsFill((ops1 + ops2)[i]) ==> (ops1 + ops2)[i] == fill
    ensures forall i :: 0 <= i < |ops1 + ops2| && IsStroke((ops1 + ops2)[i]) ==> (ops1 + ops2)[i] == stroke
  {
    var ops := ops1 + ops2;
    assert forall k :: 0 <= k < |ops1| ==> ops[k] == ops1[k];
    assert forall k :: |ops1| <= k < |ops| ==> ops[k] == ops2[k - |ops1|];
  }
}

=== FILE: drawing.dfy ===
/** Paint styles and their composition into the attribute map one draw call
    uses (`drawing/Style` and subclasses, `src/drawing/ShadowStyle`). */
module Drawing {
  import opened Js
  import opened Themes

  /** A shape; its path and hit test belong to the shape and are opaque here. */
  datatype Shape = Shape(id: nat)

  datatype FillStyle = FillStyle(color: Color)
  datatype StrokeStyle = StrokeStyle(color: Color, thickness: real)

  /** A shadow; its four fields are what the constructor stored or a setter
      last assigned. */
  datatype ShadowStyle = ShadowStyle(offsetX: real, offsetY: real, blurAmount: real, color: Color)

  /** The Style subclasses. `Custom` stands for any other subclass through
      the attributes its `apply` writes. */
  datatype Style = Fill(fill: FillStyle) | Stroke(stroke: StrokeStyle) | Shadow(shadow: ShadowStyle) | Custom(writes: Attrs)

  /** A paint attribute value: a plain value, or the hex string of a colour
      (`color.toHex()`, never empty). */
  datatype Attr = Plain(v: Value) | HexOf(c: Color)

  type Attrs = map<string, Attr>

  /** An entry of a draw call's style list: a Style instance, or anything
      else (null, undefined, another object), which is skipped. */
  datatype StyleEntry = Present(style: Style) | Absent

  predicate AttrTruthy(a: Attr) {
    match a
    case Plain(v) => Truthy(v)
    case HexOf(_) => true
  }

  /** Whether the composed attributes hold a truthy value for `k`. */
  predicate Has(props: Attrs, k: string) {
    k in props && AttrTruthy(props[k])
  }

  const ShadowKeys: set<string> := {"shadowOffsetX", "shadowOffsetY", "shadowBlur", "shadowColor"}

  /** `ShadowStyle.apply`: offsets and blur scaled by the canvas scale
      factor, colour as its hex string; nothing else is written. */
  function ApplyShadow(s: ShadowStyle, props: Attrs, scale: real): (r: Attrs)
    ensures r.Keys == props.Keys + ShadowKeys
    ensures r["shadowOffsetX"] == Plain(Number(Fin(s.offsetX * scale)))
    ensures r["shadowOffsetY"] == Plain(Number(Fin(s.offsetY * scale)))
    ensures r["shadowBlur"] == Plain(Number(Fin(s.blurAmount * scale)))
    ensures r["shadowColor"] == HexOf(s.color)
    ensures forall k :: k in props && k !in ShadowKeys ==> r[k] == props[k]
  {
    props["shadowOffsetX" := Plain(Number(Fin(s.offsetX * scale)))]
         ["shadowOffsetY" := Plain(Number(Fin(s.offsetY * scale)))]
         ["shadowBlur" := Plain(Number(Fin(s.blurAmount * scale)))]
         ["shadowColor" := HexOf(s.color)]
  }

  /** What a style writes. FillStyle and StrokeStyle are not part of this
      model beyond setting `fillStyle` and `strokeStyle` to their colour. */
  function Writes(s: Style, scale: real): Attrs {
    match s
    case Fill(f) => map["fillStyle" := HexOf(f.color)]
    case Stroke(st) => map["strokeStyle" := HexOf(st.color)]
    case Shadow(sh) => ApplyShadow(sh, map[], scale)
    case Custom(w) => w
  }

  /** `style.apply(props, canvas)`: the style's writes overwrite `props`. */
  function ApplyStyle(s: Style, props: Attrs, scale: real): (r: Attrs)
    ensures r.Keys == props.Keys + Writes(s, scale).Keys
    ensures forall k :: k in Writes(s, scale) ==> r[k] == Writes(s, scale)[k]
    ensures forall k :: k in props && k !in Writes(s, scale) ==> r[k] == props[k]
  {
    match s
    case Shadow(sh) => ApplyShadow(sh, props, scale)
    case _ => props + Writes(s, scale)
  }

  /** Whether entry `e` is a style that writes `k`. */
  predicate WritesKey(e: StyleEntry, k: string, scale: real) {
    e.Present? && k in Writes(e.style, scale)
  }

  /** The styles applied in list order onto a fresh map, non-styles skipped. */
  function Compose(entries: seq<StyleEntry>, scale: real): (r: Attrs)
    ensures |entries| == 0 ==> r == map[]
    ensures |entries| > 0 && entries[|entries| - 1].Present? ==>
      var last := Writes(entries[|entries| - 1].style, scale);
      forall k :: k in last ==> k in r && r[k] == last[k]
    decreases |entries|
  {
    if |entries| == 0 then map[]
    else
      var before := Compose(entries[..|entries| - 1], scale);
      match entries[|entries| - 1]
      case Absent => before
      case Present(s) => ApplyStyle(s, before, scale)
  }

  /** An attribute is present exactly when some style in the list writes it. */
  lemma {:induction false} ComposedKeys(entries: seq<StyleEntry>, scale: real, k: string)
    ensures k in Compose(entries, scale) <==> exists i :: 0 <= i < |entries| && WritesKey(entries[i], k, scale)
    decreases |entries|
  {
    if |entries| > 0 {
      var n := |entries| - 1;
      var init := entries[..n];
      ComposedKeys(init, scale, k);
      if !WritesKey(entries[n], k, scale) {
        if exists i :: 0 <= i < |entries| && WritesKey(entries[i], k, scale) {
          var i :| 0 <= i < |entries| && WritesKey(entries[i], k, scale);
          assert init[i] == entries[i];
        }
        if exists i :: 0 <= i < n && WritesKey(init[i], k, scale) {
          var i :| 0 <= i < n && WritesKey(init[i], k, scale);
          assert init[i] == entries[i];
        }
      }
    }
  }

  /** Last write wins: a written attribute holds the value the last style
      that writes it wrote. */
  lemma {:induction false} LastWriterWins(entries: seq<StyleEntry>, scale: real, k: string, i: nat)
    requires i < |entries| && WritesKey(entries[i], k, scale)
    requires forall j :: i < j < |entries| ==> !WritesKey(entries[j], k, scale)
    ensures k in Compose(entries, scale)
    ensures Compose(entries, scale)[k] == Writes(entries[i].style, scale)[k]
    decreases |entries|
  {
    var n := |entries| - 1;
    if i < n {
      var init := entries[..n];
      assert init[i] == entries[i];
      LastWriterWins(init, scale, k, i);
    }
  }

  /** A list with no Style instance composes to the empty map. */
  lemma {:induction false} NoStylesNoAttributes(entries: seq<StyleEntry>, scale: real)
    requires forall i :: 0 <= i < |entries| ==> entries[i].Absent?
    ensures Compose(entries, scale) == map[]
    decreases |entries|
  {
    if |entries| > 0 {
      NoStylesNoAttributes(entries[..|entries| - 1], scale);
    }
  }

  /** Shadows never set `fillStyle` or `strokeStyle`, whatever the scale. */
  lemma ShadowLeavesPaintKeys(s: ShadowStyle, props: Attrs, scale: real)
    ensures forall k :: k in props && k in {"fillStyle", "strokeStyle"} ==> ApplyShadow(s, props, scale)[k] == props[k]
    ensures "fillStyle" in ApplyShadow(s, props, scale) <==> "fillStyle" in props
    ensures "strokeStyle" in ApplyShadow(s, props, scale) <==> "strokeStyle" in props
  {
  }
}

=== FILE: handler_list.dfy ===
/** The deduplicated, ordered handler list of `src/utils/HandlerList`.
    Handlers are functions known by identity; what a call returns is an input
    (`call`), because the arguments are fixed for one `invoke`. */
module HandlerList {
  import opened Js
  import opened Wrappers

  /** What a caller passes to `add` or `remove`: a plain function, or another
      handler list. */
  datatype Handler = Fn(fn: nat) | List(list: nat)

  /** What the list stores. A handler-list argument is replaced by its
      `invoke` method read off the prototype: one function shared by every
      handler list, and not bound to the list it came from. */
  datatype Entry = Callable(fn: nat) | PrototypeInvoke

  function EntryFor(h: Handler): Entry {
    match h
    case Fn(f) => Callable(f)
    case List(_) => PrototypeInvoke
  }

  predicate NoDuplicates<T(==)>(s: seq<T>) {
    forall i, j :: 0 <= i < j < |s| ==> s[i] != s[j]
  }

  /** `indexOf`: the first position holding `x`, or -1. */
  function IndexOf<T(==)>(s: seq<T>, x: T): (r: int)
    ensures -1 <= r < |s|
    ensures r == -1 <==> x !in s
    ensures 0 <= r ==> s[r] == x && x !in s[..r]
  {
    if |s| == 0 then -1
    else if s[0] == x then 0
    else
      var k := IndexOf(s[1..], x);
      if k == -1 then -1
      else
        assert s[..k + 1] == [s[0]] + s[1..][..k];
        k + 1
  }

  /** Append `x` unless it is already present (`includes` then `push`). */
  function Insert<T(==)>(s: seq<T>, x: T): (r: seq<T>)
    ensures x in r
    ensures x in s ==> r == s
    ensures x !in s ==> r == s + [x]
    ensures NoDuplicates(s) ==> NoDuplicates(r)
  {
    if x in s then s else s + [x]
  }

  /** Delete the first occurrence of `x` (`indexOf` then `splice`); the flag
      says whether anything was deleted. */
  function Delete<T(==)>(s: seq<T>, x: T): (r: (seq<T>, bool))
    ensures r.1 <==> x in s
    ensures !r.1 ==> r.0 == s
    ensures r.1 ==> (|r.0| == |s| - 1
      && exists i :: 0 <= i < |s| && s[i] == x && x !in s[..i] && r.0 == s[..i] + s[i + 1..])
    ensures NoDuplicates(s) ==> NoDuplicates(r.0) && x !in r.0
  {
    var i := IndexOf(s, x);
    if i < 0 then (s, false)
    else
      var r := s[..i] + s[i + 1..];
      assert NoDuplicates(s) ==> x !in r by {
        if NoDuplicates(s) {
          forall j | 0 <= j < |r| ensures r[j] != x {
            if j < i { assert r[j] == s[j]; } else { assert r[j] == s[j + 1]; }
          }
        }
      }
      (r, true)
  }

  function Add(entries: seq<Entry>, h: Handler): (r: seq<Entry>)
    ensures h.List? ==> PrototypeInvoke in r
    ensures h.Fn? ==> Callable(h.fn) in r
    ensures forall e :: e in r <==> e in entries || e == EntryFor(h)
    ensures |r| == if EntryFor(h) in entries then |entries| else |entries| + 1
    ensures NoDuplicates(entries) ==> NoDuplicates(r)
  {
    Insert(entries, EntryFor(h))
  }

  function Remove(entries: seq<Entry>, h: Handler): (r: (seq<Entry>, bool))
    ensures r.1 <==> EntryFor(h) in entries
    ensures !r.1 ==> r.0 == entries
    ensures r.1 ==> |r.0| == |entries| - 1
    ensures r.1 ==> exists i :: (0 <= i < |entries| && entries[i] == EntryFor(h) && EntryFor(h) !in entries[..i]
      && r.0 == entries[..i] + entries[i + 1..])
    ensures NoDuplicates(entries) ==> NoDuplicates(r.0) && EntryFor(h) !in r.0
  {
    Delete(entries, EntryFor(h))
  }

  /** The result of one `invoke`: the value it returned or the fact that it
      threw, and how many leading entries were called. */
  datatype Outcome = Returned(result: Value, invoked: nat) | Threw(invoked: nat)

  function Bump(o: Outcome): Outcome {
    match o
    case Returned(v, n) => Returned(v, n + 1)
    case Threw(n) => Threw(n + 1)
  }

  /** The loop `handled = handled || handler(...)`: each entry's call either
      returns a value (`Some`) or throws (`None`); calls stop at the first
      truthy value, which is returned; otherwise the last value is. */
  function ShortCircuit(results: seq<Option<Value>>, handled: Value): (r: Outcome)
    requires !Truthy(handled)
    ensures r.invoked <= |results|
    ensures forall j :: 0 <= j < r.invoked - 1 ==> results[j].Some? && !Truthy(results[j].value)
    ensures r.Threw? ==> 0 < r.invoked && results[r.invoked - 1].None?
    ensures r.Returned? && Truthy(r.result) ==> 0 < r.invoked && results[r.invoked - 1] == Some(r.result)
    ensures r.Returned? && !Truthy(r.result) ==> r.invoked == |results|
    ensures r.Returned? && |results| == 0 ==> r.result == handled
    ensures r.Returned? && !Truthy(r.result) && 0 < |results| ==>
      results[|results| - 1].Some? && r.result == results[|results| - 1].value
    ensures (forall j :: 0 <= j < |results| ==> results[j].Some?) ==> r.Returned?
  {
    if |results| == 0 then Returned(handled, 0)
    else match results[0]
      case None => Threw(1)
      case Some(v) => if Truthy(v) then Returned(v, 1) else Bump(ShortCircuit(results[1..], v))
  }

  /** What each stored entry does when called: a plain function returns its
      result; the unbound prototype `invoke` reads `this.$` with `this`
      undefined and throws a TypeError. */
  function Results(entries: seq<Entry>, call: nat -> Value): (r: seq<Option<Value>>)
    ensures |r| == |entries|
    ensures forall i :: 0 <= i < |entries| ==> (r[i].None? <==> entries[i].PrototypeInvoke?)
    ensures forall i :: 0 <= i < |entries| && entries[i].Callable? ==> r[i] == Some(call(entries[i].fn))
  {
    seq(|entries|, i requires 0 <= i < |entries| =>
      match entries[i]
      case Callable(f) => Some(call(f))
      case PrototypeInvoke => None)
  }

  /** `invoke` as written. */
  function Invoke(entries: seq<Entry>, call: nat -> Value): (r: Outcome)
    ensures |entries| == 0 ==> r == Returned(Bool(false), 0)
    ensures r.invoked <= |entries|
    ensures forall j :: 0 <= j < r.invoked - 1 ==> entries[j].Callable? && !Truthy(call(entries[j].fn))
    ensures r.Returned? && Truthy(r.result) ==>
      0 < r.invoked && entries[r.invoked - 1].Callable? && r.result == call(entries[r.invoked - 1].fn)
    ensures r.Returned? ==> (Truthy(r.result) <==>
      exists i :: 0 <= i < |entries| && entries[i].Callable? && Truthy(call(entries[i].fn)))
    ensures r.Threw? <==> PrototypeInvoke in entries[..r.invoked]
    ensures PrototypeInvoke !in entries ==> r.Returned?
  {
    var results := Results(entries, call);
    var r := ShortCircuit(results, Bool(false));
    assert r.Threw? ==> entries[r.invoked - 1] == PrototypeInvoke;
    assert r.Returned? && !Truthy(r.result) ==> forall i :: 0 <= i < |entries| ==> results[i].Some? && !Truthy(results[i].value) by {
      if r.Returned? && !Truthy(r.result) {
        forall i | 0 <= i < |entries| ensures results[i].Some? && !Truthy(results[i].value) {
          if i < |entries| - 1 {} else {}
        }
      }
    }
    r
  }

  /** The evidently intended `add`: a handler list is kept as itself (its
      `invoke` bound to it), so distinct lists stay distinct entries. */
  function AddBound(entries: seq<Handler>, h: Handler): (r: seq<Handler>)
    ensures h in r
    ensures forall e :: e in r <==> e in entries || e == h
    ensures NoDuplicates(entries) ==> NoDuplicates(r)
  {
    Insert(entries, h)
  }

  /** The evidently intended `invoke`: every entry, nested lists included, is
      callable; `call` gives a function's result or a nested list's `invoke`. */
  function InvokeBound(entries: seq<Handler>, call: Handler -> Value): (r: Outcome)
    ensures r.Returned?
    ensures r.invoked <= |entries|
    ensures forall j :: 0 <= j < r.invoked - 1 ==> !Truthy(call(entries[j]))
    ensures Truthy(r.result) ==> 0 < r.invoked && r.result == call(entries[r.invoked - 1])
    ensures Truthy(r.result) <==> exists i :: 0 <= i < |entries| && Truthy(call(entries[i]))
  {
    var results := seq(|entries|, i requires 0 <= i < |entries| => Some(call(entries[i])));
    assert forall j :: 0 <= j < |entries| ==> results[j] == Some(call(entries[j]));
    var r := ShortCircuit(results, Bool(false));
    assert !Truthy(r.result) ==> forall i :: 0 <= i < |entries| ==> !Truthy(results[i].value) by {
      if !Truthy(r.result) {
        forall i | 0 <= i < |entries| ensures !Truthy(results[i].value) {
          if i < |entries| - 1 {} else {}
        }
      }
    }
    r
  }

  /** As written, adding two different handler lists keeps only one entry,
      and invoking the list then throws. */
  lemma NestedListsCollapseAndThrow(call: nat -> Value)
    ensures Add(Add([], List(1)), List(2)) == [PrototypeInvoke]
    ensures Invoke(Add([], List(1)), call) == Threw(1)
  {
  }

  /** With the intended definitions the two lists stay two entries and
      invoking them returns normally. */
  lemma NestedListsStayDistinct(call: Handler -> Value)
    ensures AddBound(AddBound([], List(1)), List(2)) == [List(1), List(2)]
    ensures InvokeBound([List(1), List(2)], call).Returned?
  {
  }
}

=== FILE: js.dfy ===
/** The slice of JavaScript value semantics the toolkit's decisions depend on:
    IEEE special values (NaN and the infinities, without signed zero or
    rounding), the `ToNumber` coercion behind `isNaN`, `isFinite` and the
    arithmetic operators, and truthiness. */
module Js {

  /** A JavaScript number: a finite value or one of the special values. */
  datatype Num = Fin(r: real) | PosInf | NegInf | NaN

  function Neg(a: Num): Num {
    match a
    case Fin(x) => Fin(-x)
    case PosInf => NegInf
    case NegInf => PosInf
    case NaN => NaN
  }

  function Add(a: Num, b: Num): Num {
    match (a, b)
    case (NaN, _) => NaN
    case (_, NaN) => NaN
    case (Fin(x), Fin(y)) => Fin(x + y)
    case (PosInf, NegInf) => NaN
    case (NegInf, PosInf) => NaN
    case (PosInf, _) => PosInf
    case (NegInf, _) => NegInf
    case (_, PosInf) => PosInf
    case (_, NegInf) => NegInf
  }

  function Sub(a: Num, b: Num): Num {
    Add(a, Neg(b))
  }

  /** The sign of a non-NaN number: -1, 0 or 1. */
  function Sign(a: Num): int
    requires !a.NaN?
  {
    match a
    case Fin(x) => if x < 0.0 then -1 else if x == 0.0 then 0 else 1
    case PosInf => 1
    case NegInf => -1
  }

  function InfinityOfSign(s: int): Num {
    if s < 0 then NegInf else PosInf
  }

  function Mul(a: Num, b: Num): Num {
    match (a, b)
    case (NaN, _) => NaN
    case (_, NaN) => NaN
    case (Fin(x), Fin(y)) => Fin(x * y)
    case _ =>
      // at least one infinity: zero times infinity is NaN
      if Sign(a) == 0 || Sign(b) == 0 then NaN else InfinityOfSign(Sign(a) * Sign(b))
  }

  /** Division; a zero divisor is treated as +0 (signed zero is not modelled). */
  function Div(a: Num, b: Num): Num {
    match (a, b)
    case (NaN, _) => NaN
    case (_, NaN) => NaN
    case (Fin(x), Fin(y)) =>
      if y != 0.0 then Fin(x / y)
      else if x == 0.0 then NaN
      else InfinityOfSign(Sign(a))
    case (Fin(_), _) => Fin(0.0)
    case (_, Fin(y)) => if y == 0.0 then a else InfinityOfSign(Sign(a) * Sign(b))
    case _ => NaN
  }

  /** On finite operands the operators are the real ones. */
  lemma FiniteArithmetic(x: real, y: real)
    ensures Sub(Fin(x), Fin(y)) == Fin(x - y)
    ensures Mul(Fin(x), Fin(y)) == Fin(x * y)
    ensures y != 0.0 ==> Div(Fin(x), Fin(y)) == Fin(x / y)
  {
  }

  /** The relational `<` on numbers: false whenever NaN is involved. */
  predicate Less(a: Num, b: Num) {
    match (a, b)
    case (Fin(x), Fin(y)) => x < y
    case (NegInf, PosInf) => true
    case (NegInf, Fin(_)) => true
    case (Fin(_), PosInf) => true
    case _ => false
  }

  /** `Math.min` of two numbers: NaN if either is NaN. */
  function Min(a: Num, b: Num): Num {
    if a.NaN? || b.NaN? then NaN else if Less(b, a) then b else a
  }

  /** `Math.floor`: infinities and NaN are returned unchanged. */
  function Floor(a: Num): Num {
    match a
    case Fin(x) => Fin(x.Floor as real)
    case _ => a
  }

  /** A JavaScript value, as far as the toolkit inspects one: functions and
      other objects are known only by identity. */
  datatype Value =
    | Undefined
    | Null
    | Bool(b: bool)
    | Number(n: Num)
    | Str(s: string)
    | Function(fn: nat)
    | Object(obj: nat)

  predicate IsNullish(v: Value) {
    v.Undefined? || v.Null?
  }

  predicate IsDigit(c: char) {
    '0' <= c <= '9'
  }

  function DigitsValue(s: string): nat
    requires forall i :: 0 <= i < |s| ==> IsDigit(s[i])
  {
    if |s| == 0 then 0
    else
      assert IsDigit(s[|s| - 1]);
      DigitsValue(s[..|s| - 1]) * 10 + (s[|s| - 1] as int - '0' as int)
  }

  /** `ToNumber` of a string, for the empty string, the infinity literals and
      plain decimal digit strings; every other string reads as NaN. */
  function StringToNumber(s: string): Num {
    if s == "" then Fin(0.0)
    else if s == "Infinity" || s == "+Infinity" then PosInf
    else if s == "-Infinity" then NegInf
    else if forall i :: 0 <= i < |s| ==> IsDigit(s[i]) then Fin(DigitsValue(s) as real)
    else NaN
  }

  /** The `ToNumber` coercion of a primitive. An object that reaches it
      has no numeric primitive (a plain object's `"[object Object]"`), and
      a function's conversion is its source text: both read as NaN. */
  function ToNumber(v: Value): Num {
    match v
    case Undefined => NaN
    case Null => Fin(0.0)
    case Bool(b) => if b then Fin(1.0) else Fin(0.0)
    case Number(n) => n
    case Str(s) => StringToNumber(s)
    case Function(_) => NaN
    case Object(_) => NaN
  }

  /** The `ToPrimitive` step (section 7.1.1 of ECMAScript) that `ToNumber`
      applies to an object first: `primitive(o)` is what object `o`'s
      `valueOf` (or, failing that, its `toString`) yields at the moment of
      the conversion. Primitives are their own primitive. */
  function ToPrimitive(v: Value, primitive: nat -> Value): (p: Value)
    ensures !v.Object? ==> p == v
    ensures v.Object? ==> p == primitive(v.obj)
  {
    match v
    case Object(o) => primitive(o)
    case _ => v
  }

  /** `ToNumber` of any value: objects convert through `ToPrimitive`. A
      primitive that is itself an object reads as NaN. */
  function ToNumberVia(v: Value, primitive: nat -> Value): (n: Num)
    ensures !v.Object? ==> n == ToNumber(v)
    ensures v.Object? && primitive(v.obj).Object? ==> n.NaN?
    ensures v.Object? && !primitive(v.obj).Object? ==> n == ToNumber(primitive(v.obj))
  {
    ToNumber(ToPrimitive(v, primitive))
  }

  /** The global `isNaN`, which coerces its argument first. */
  predicate IsNaNValue(v: Value) {
    ToNumber(v).NaN?
  }

  /** The global `isFinite`, which coerces its argument first. */
  predicate IsFiniteValue(v: Value) {
    ToNumber(v).Fin?
  }

  predicate Truthy(v: Value) {
    match v
    case Undefined => false
    case Null => false
    case Bool(b) => b
    case Number(n) => n != Fin(0.0) && !n.NaN?
    case Str(s) => s != ""
    case Function(_) => true
    case Object(_) => true
  }
}

=== FILE: legacy_handler_list.dfy ===
/** The root tree's `utils/HandlerList`. Entries are stored as given: plain
    functions and nested handler lists. */
module LegacyHandlerList {
  import opened Js
  import HandlerList

  type Handler = HandlerList.Handler
  type Outcome = HandlerList.Outcome

  function Add(entries: seq<Handler>, h: Handler): (r: seq<Handler>)
    ensures h in r
    ensures forall e :: e in r <==> e in entries || e == h
    ensures |r| == if h in entries then |entries| else |entries| + 1
    ensures HandlerList.NoDuplicates(entries) ==> HandlerList.NoDuplicates(r)
  {
    HandlerList.Insert(entries, h)
  }

  function Remove(entries: seq<Handler>, h: Handler): (r: (seq<Handler>, bool))
    ensures r.1 <==> h in entries
    ensures !r.1 ==> r.0 == entries
    ensures r.1 ==> |r.0| == |entries| - 1
    ensures r.1 ==> exists i :: (0 <= i < |entries| && entries[i] == h && h !in entries[..i]
      && r.0 == entries[..i] + entries[i + 1..])
    ensures HandlerList.NoDuplicates(entries) ==> HandlerList.NoDuplicates(r.0) && h !in r.0
  {
    HandlerList.Delete(entries, h)
  }

  /** The value `handled` holds before the entry at position `i` runs. */
  function Before(entries: seq<Handler>, call: Handler -> Value, handled: Value, i: nat): Value
    requires i < |entries|
  {
    if i == 0 then handled else call(entries[i - 1])
  }

  /** The loop body as written:
      `handled = (handled || h instanceof HandlerList) ? h.invoke(...) : h(...)`.
      Once `handled` is truthy a plain function is reached through `.invoke`,
      which it does not have, so the call throws a TypeError before the
      function runs. */
  function Walk(entries: seq<Handler>, call: Handler -> Value, handled: Value): (r: Outcome)
    ensures r.invoked <= |entries|
    ensures r.Returned? ==> r.invoked == |entries|
    ensures r.Returned? ==> r.result == (if |entries| == 0 then handled else call(entries[|entries| - 1]))
    ensures r.Threw? <==> exists i :: 0 <= i < |entries| && entries[i].Fn? && Truthy(Before(entries, call, handled, i))
    ensures r.Threw? ==> (r.invoked < |entries| && entries[r.invoked].Fn?
      && Truthy(Before(entries, call, handled, r.invoked)))
    ensures (forall i :: 0 <= i < |entries| ==> entries[i].List?) ==> r.Returned?
    decreases |entries|
  {
    if |entries| == 0 then HandlerList.Returned(handled, 0)
    else
      var h := entries[0];
      var rest := Walk(entries[1..], call, call(h));
      assert forall i :: 1 <= i < |entries| ==>
        Before(entries, call, handled, i) == Before(entries[1..], call, call(h), i - 1);
      if Truthy(handled) || h.List? then
        if h.List? then HandlerList.Bump(rest) else HandlerList.Threw(0)
      else HandlerList.Bump(rest)
  }

  /** `invoke` as written: `handled` ends as the most recent call's result,
      not an OR of all of them. */
  function Invoke(entries: seq<Handler>, call: Handler -> Value): (r: Outcome)
    ensures |entries| == 0 ==> r == HandlerList.Returned(Bool(false), 0)
    ensures r.Returned? ==> r.invoked == |entries| && (0 < |entries| ==> r.result == call(entries[|entries| - 1]))
    ensures r.Threw? <==> exists i :: 1 <= i < |entries| && entries[i].Fn? && Truthy(call(entries[i - 1]))
    ensures (forall i :: 0 <= i < |entries| ==> entries[i].List?) ==> r.Returned?
  {
    var r := Walk(entries, call, Bool(false));
    assert forall i :: 0 <= i < |entries| ==>
      Before(entries, call, Bool(false), i) == (if i == 0 then Bool(false) else call(entries[i - 1]));
    r
  }

  /** A truthy plain handler followed by another plain handler makes the as
      written `invoke` throw; the intended short-circuit returns the first
      truthy result. */
  lemma TruthyThenPlainThrows(call: Handler -> Value)
    requires call(HandlerList.Fn(1)) == Bool(true)
    ensures Invoke([HandlerList.Fn(1), HandlerList.Fn(2)], call).Threw?
    ensures HandlerList.InvokeBound([HandlerList.Fn(1), HandlerList.Fn(2)], call) == HandlerList.Returned(Bool(true), 1)
  {
    assert Truthy(call([HandlerList.Fn(1), HandlerList.Fn(2)][0]));
  }

  /** A falsy last handler hides an earlier truthy nested list: the as written
      result is the last call's, not whether any handler handled it. */
  lemma LaterResultOverwrites(call: Handler -> Value)
    requires call(HandlerList.List(1)) == Bool(true)
    requires call(HandlerList.List(2)) == Bool(false)
    ensures Invoke([HandlerList.List(1), HandlerList.List(2)], call) == HandlerList.Returned(Bool(false), 2)
    ensures Truthy(HandlerList.InvokeBound([HandlerList.List(1), HandlerList.List(2)], call).result)
  {
    var es := [HandlerList.List(1), HandlerList.List(2)];
    assert Truthy(call(es[0]));
  }
}

=== FILE: percentage_length.dfy ===
/** `src/layout/PercentageLength`: a fraction of a reference value that is
    resolved only when the length is read. */
module PercentageLength {
  import opened Js
  import opened Wrappers

  /** `relativeTo` is any value; a function among them is called on every
      resolution. */
  datatype PercentageLength = PercentageLength(percentage: Value, relativeTo: Value)

  /** The constructor; an undefined reference takes the default 1. */
  function New(percentage: Value, relativeTo: Value): (l: PercentageLength)
    ensures l.percentage == percentage
    ensures relativeTo == Undefined ==> l.relativeTo == Number(Fin(1.0))
    ensures relativeTo != Undefined ==> l.relativeTo == relativeTo
  {
    PercentageLength(percentage, if relativeTo == Undefined then Number(Fin(1.0)) else relativeTo)
  }

  /** The reference value at resolution time: a function is called once
      (`call` gives what each function returns now) and its result is not
      called again; any other value is used as it is. */
  function Current(relativeTo: Value, call: nat -> Value): Value {
    match relativeTo
    case Function(f) => call(f)
    case _ => relativeTo
  }

  /** `valueOf`: fails when the reference coerces to NaN (so Infinity,
      numeric strings and objects with a numeric `valueOf` pass), otherwise
      multiplies the coerced operands. `primitive` gives each object's
      conversion, so a length can be relative to another length. Only a
      number comes back: the length itself is not an output. */
  function ValueOf(l: PercentageLength, call: nat -> Value, primitive: nat -> Value): (r: Result<Num>)
    ensures r.Err? <==> ToNumberVia(Current(l.relativeTo, call), primitive).NaN?
    ensures r.Err? ==> r.error == InvalidReference
    ensures r.Ok? ==> var p := ToNumberVia(l.percentage, primitive);
      var x := ToNumberVia(Current(l.relativeTo, call), primitive);
      p.Fin? && x.Fin? ==> r.value == Fin(p.r * x.r)
  {
    var reference := Current(l.relativeTo, call);
    if ToNumberVia(reference, primitive).NaN? then Err(InvalidReference)
    else Ok(Mul(ToNumberVia(l.percentage, primitive), ToNumberVia(reference, primitive)))
  }

  /** Finite numbers resolve to their product. */
  lemma ValueOfIsProduct(p: real, x: real, call: nat -> Value, primitive: nat -> Value)
    ensures ValueOf(PercentageLength(Number(Fin(p)), Number(Fin(x))), call, primitive) == Ok(Fin(p * x))
  {
    assert Mul(Fin(p), Fin(x)) == Fin(p * x);
  }

  /** With the default reference the length is the coerced percentage. */
  lemma DefaultReferenceIsOne(p: Value, call: nat -> Value, primitive: nat -> Value)
    ensures ValueOf(New(p, Undefined), call, primitive) == Ok(ToNumberVia(p, primitive))
  {
  }

  /** A function reference is late-bound: resolving through it is the same
      as resolving against whatever it returns at that moment, unless that
      is a function again, which is not called and fails. */
  lemma FunctionIsLateBound(p: Value, f: nat, call: nat -> Value, primitive: nat -> Value)
    ensures !call(f).Function? ==>
      ValueOf(PercentageLength(p, Function(f)), call, primitive) == ValueOf(PercentageLength(p, call(f)), call, primitive)
    ensures call(f).Function? ==> ValueOf(PercentageLength(p, Function(f)), call, primitive) == Err(InvalidReference)
  {
  }

  /** An object reference, such as another length, resolves through its
      `valueOf`; one whose conversion is not numeric fails. */
  lemma ObjectsReadThroughValueOf(p: real, o: nat, x: real, call: nat -> Value, primitive: nat -> Value)
    requires primitive(o) == Number(Fin(x))
    ensures ValueOf(PercentageLength(Number(Fin(p)), Object(o)), call, primitive) == Ok(Fin(p * x))
  {
    assert Mul(Fin(p), Fin(x)) == Fin(p * x);
  }

  /** An infinite reference is accepted, not rejected; against a zero
      percentage it yields NaN without an error. */
  lemma InfinityAccepted(p: real, call: nat -> Value, primitive: nat -> Value)
    requires p > 0.0
    ensures ValueOf(PercentageLength(Number(Fin(p)), Number(PosInf)), call, primitive) == Ok(PosInf)
    ensures ValueOf(PercentageLength(Number(Fin(0.0)), Number(PosInf)), call, primitive) == Ok(NaN)
  {
  }

  /** References that do not coerce to numbers fail, whether fixed or
      returned by a function: undefined, and an object whose conversion is
      not numeric; a numeric string does not. */
  lemma NonNumbersRejected(p: Value, f: nat, o: nat, call: nat -> Value, primitive: nat -> Value)
    requires call(f) == Undefined && primitive(o).Object?
    ensures ValueOf(PercentageLength(p, Function(f)), call, primitive) == Err(InvalidReference)
    ensures ValueOf(PercentageLength(p, Object(o)), call, primitive) == Err(InvalidReference)
    ensures ValueOf(PercentageLength(Number(Fin(2.0)), Str("7")), call, primitive) == Ok(Fin(14.0))
  {
    SevenReadsAsNumber();
  }

  lemma SevenReadsAsNumber()
    ensures ToNumber(Str("7")) == Fin(7.0)
  {
    assert "7"[..0] == "";
    assert DigitsValue("7") == 7;
  }
}

=== FILE: property_set.dfy ===
/** `src/utils/PropertySet`: defaults merged with caller overrides and then
    assigned to an object through its setters. An object is described by the
    property descriptor each name resolves to on its prototype chain and by
    whether assigning a value through that property throws. */
module PropertySet {
  import opened Js
  import opened Wrappers

  /** A plain object's own enumerable properties, in enumeration order. */
  type Record = seq<(string, Value)>

  function Keys(r: Record): (ks: seq<string>)
    ensures |ks| == |r|
    ensures forall i :: 0 <= i < |r| ==> ks[i] == r[i].0
  {
    seq(|r|, i requires 0 <= i < |r| => r[i].0)
  }

  /** The value the merge picks for `k`: the override when `overrides` has
      `k` as an own key (even if its value is undefined), else the default. */
  function Pick(k: string, default: Value, overrides: map<string, Value>): Value {
    if k in overrides then overrides[k] else default
  }

  /** `merge`: exactly the defaults' own keys, in their order, each taking
      its value from the overrides when present. The source reads the
      defaults through a free identifier `object`; here they are a parameter. */
  function Merge(defaults: Record, overrides: map<string, Value>): (r: Record)
    ensures Keys(r) == Keys(defaults)
    ensures forall i :: 0 <= i < |r| ==>
      (defaults[i].0 in overrides ==> r[i].1 == overrides[defaults[i].0])
      && (defaults[i].0 !in overrides ==> r[i].1 == defaults[i].1)
  {
    seq(|defaults|, i requires 0 <= i < |defaults| =>
      (defaults[i].0, Pick(defaults[i].0, defaults[i].1, overrides)))
  }

  /** Merging is stable: the overrides already present in the result are
      picked again, and with no overrides the defaults come back. */
  lemma MergeIdempotent(defaults: Record, overrides: map<string, Value>)
    ensures Merge(Merge(defaults, overrides), overrides) == Merge(defaults, overrides)
    ensures Merge(defaults, map[]) == defaults
  {
  }

  /** What `getDescriptor` finds for a property on the prototype chain. */
  datatype Descriptor = NoDescriptor | Data(writable: bool) | Accessor(hasSetter: bool)

  /** The guard `!descriptor || descriptor.writable || typeof descriptor.set === "function"`. */
  predicate Assignable(d: Descriptor) {
    d.NoDescriptor? || (d.Data? && d.writable) || (d.Accessor? && d.hasSetter)
  }

  /** The `ignoreErrors` argument: an array of property names, or any other
      value, of which only truthiness matters. */
  datatype IgnoreErrors = Flag(v: Value) | Names(names: seq<string>)

  /** Whether a setter error on `prop` is rethrown:
      `!ignoreErrors || Array.isArray(ignoreErrors) && !ignoreErrors.includes(prop)`.
      An array, even an empty one, is truthy. */
  predicate Rethrows(ignore: IgnoreErrors, prop: string) {
    match ignore
    case Flag(v) => !Truthy(v)
    case Names(ns) => prop !in ns
  }

  /** The object being configured: the descriptor of each property, and the
      error (if any) that assigning a value to a property throws. */
  datatype Target = Target(descriptor: string -> Descriptor, assign: (string, Value) -> Option<Error>)

  /** Whether the assignment of entry `e` throws. */
  predicate Fails(t: Target, e: (string, Value)) {
    Assignable(t.descriptor(e.0)) && t.assign(e.0, e.1).Some?
  }

  /** Whether the assignment of entry `e` takes effect. */
  predicate Succeeds(t: Target, e: (string, Value)) {
    Assignable(t.descriptor(e.0)) && t.assign(e.0, e.1).None?
  }

  /** The properties actually assigned, in order, and either the completed
      result or the error that aborted the rest. */
  datatype Outcome = Done(values: Record, written: seq<string>) | Aborted(error: Error, written: seq<string>)

  function Prepend(k: string, o: Outcome): Outcome {
    match o
    case Done(v, w) => Done(v, [k] + w)
    case Aborted(e, w) => Aborted(e, [k] + w)
  }

  /** The keys of the entries whose assignment takes effect, in order: a
      reference for what a run over `values` leaves written. */
  function Written(values: Record, t: Target): (ks: seq<string>)
    ensures |ks| <= |values|
  {
    if |values| == 0 then []
    else (if Succeeds(t, values[0]) then [values[0].0] else []) + Written(values[1..], t)
  }

  /** A key is written exactly when some entry for it takes effect. */
  lemma {:induction false} WrittenMembers(values: Record, t: Target)
    ensures forall k :: k in Written(values, t) <==> exists i :: 0 <= i < |values| && values[i].0 == k && Succeeds(t, values[i])
    decreases |values|
  {
    if |values| > 0 {
      WrittenMembers(values[1..], t);
      assert forall i :: 1 <= i < |values| ==> values[i] == values[1..][i - 1];
    }
  }

  /** The position of the first entry whose error is rethrown, or the
      length when there is none. */
  function FirstRethrown(values: Record, t: Target, ignore: IgnoreErrors): (n: nat)
    ensures n <= |values|
    ensures forall j :: 0 <= j < n ==> !(Fails(t, values[j]) && Rethrows(ignore, values[j].0))
    ensures n < |values| ==> Fails(t, values[n]) && Rethrows(ignore, values[n].0)
  {
    if |values| == 0 then 0
    else if Fails(t, values[0]) && Rethrows(ignore, values[0].0) then 0
    else
      assert forall i :: 1 <= i < |values| ==> values[i] == values[1..][i - 1];
      1 + FirstRethrown(values[1..], t, ignore)
  }

  /** Dropping the first entry of a prefix of length n + 1 leaves the prefix
      of length n of the rest. */
  lemma WrittenPrefix(values: Record, t: Target, n: nat)
    requires n < |values|
    ensures Written(values[..n + 1], t)
      == (if Succeeds(t, values[0]) then [values[0].0] else []) + Written(values[1..][..n], t)
  {
    assert values[..n + 1][1..] == values[1..][..n];
  }

  /** The assignment loop over the merged values, by recursion on them. */
  function Assign(values: Record, t: Target, ignore: IgnoreErrors): (r: Outcome)
    ensures r.Done? <==> FirstRethrown(values, t, ignore) == |values|
    ensures r.Done? ==> r.values == values && r.written == Written(values, t)
    ensures r.Aborted? ==> var n := FirstRethrown(values, t, ignore);
      n < |values| && r.error == t.assign(values[n].0, values[n].1).value
      && r.written == Written(values[..n], t)
  {
    if |values| == 0 then Done(values, [])
    else
      var e := values[0];
      var rest := Assign(values[1..], t, ignore);
      WrittenPrefix(values, t, FirstRethrown(values[1..], t, ignore));
      if !Assignable(t.descriptor(e.0)) then
        match rest
        case Done(_, w) => Done(values, w)
        case Aborted(_, _) => rest
      else match t.assign(e.0, e.1)
        case None =>
          (match rest
           case Done(_, w) => Done(values, [e.0] + w)
           case Aborted(_, _) => Prepend(e.0, rest))
        case Some(err) =>
          if Rethrows(ignore, e.0) then Aborted(err, [])
          else match rest
            case Done(_, w) => Done(values, w)
            case Aborted(_, _) => rest
  }

  /** The assignment loop: it runs up to the first rethrown error, and what
      it leaves written is exactly the keys whose assignment took effect
      before that point. */
  function AssignAll(values: Record, t: Target, ignore: IgnoreErrors): (r: Outcome)
    ensures r.Done? <==> forall i :: 0 <= i < |values| && Fails(t, values[i]) ==> !Rethrows(ignore, values[i].0)
    ensures r.Done? ==> r.values == values
    ensures r.Done? ==> r.written == Written(values, t)
    ensures r.Aborted? ==> var n := FirstRethrown(values, t, ignore);
      n < |values| && r.error == t.assign(values[n].0, values[n].1).value
      && r.written == Written(values[..n], t)
    ensures r.Aborted? ==> exists i :: (0 <= i < |values| && Fails(t, values[i]) && Rethrows(ignore, values[i].0)
      && r.error == t.assign(values[i].0, values[i].1).value
      && (forall j :: 0 <= j < i && Fails(t, values[j]) ==> !Rethrows(ignore, values[j].0)))
    ensures forall k :: k in r.written ==> exists i :: 0 <= i < |values| && values[i].0 == k && Succeeds(t, values[i])
    ensures r.Done? ==> forall i :: 0 <= i < |values| && Succeeds(t, values[i]) ==> values[i].0 in r.written
  {
    var r := Assign(values, t, ignore);
    var n := FirstRethrown(values, t, ignore);
    WrittenMembers(values, t);
    WrittenMembers(values[..n], t);
    assert forall i :: 0 <= i < n ==> values[..n][i] == values[i];
    assert r.Aborted? ==> (Fails(t, values[n]) && Rethrows(ignore, values[n].0)
      && (forall j :: 0 <= j < n && Fails(t, values[j]) ==> !Rethrows(ignore, values[j].0)));
    r
  }

  /** `apply`: merge, assign through setters, return the merged values; an
      error that is not ignored aborts the remaining assignments. */
  function Apply(defaults: Record, overrides: map<string, Value>, t: Target, ignore: IgnoreErrors): (r: Outcome)
    ensures r.Done? ==> r.values == Merge(defaults, overrides)
    ensures r.Done? ==> r.written == Written(Merge(defaults, overrides), t)
    ensures r.Aborted? ==> var vs := Merge(defaults, overrides); var n := FirstRethrown(vs, t, ignore);
      n < |vs| && r.error == t.assign(vs[n].0, vs[n].1).value
      && r.written == Written(vs[..n], t)
    ensures r.Done? <==> forall i :: 0 <= i < |defaults| && Fails(t, Merge(defaults, overrides)[i]) ==>
      !Rethrows(ignore, defaults[i].0)
    ensures r.Aborted? ==> exists i :: (0 <= i < |defaults| && Fails(t, Merge(defaults, overrides)[i])
      && Rethrows(ignore, defaults[i].0)
      && (forall j :: 0 <= j < i && Fails(t, Merge(defaults, overrides)[j]) ==> !Rethrows(ignore, defaults[j].0)))
    ensures r.Done? ==> forall i :: 0 <= i < |defaults| && Succeeds(t, Merge(defaults, overrides)[i]) ==>
      defaults[i].0 in r.written
    ensures forall k :: k in r.written ==> k in Keys(defaults)
    ensures ignore == Flag(Bool(true)) ==> r.Done?
  {
    var values := Merge(defaults, overrides);
    var r := AssignAll(values, t, ignore);
    WrittenAreDefaults(defaults, overrides, t, r.written);
    r
  }

  /** Only keys of the defaults can be written by a run over their merge. */
  lemma WrittenAreDefaults(defaults: Record, overrides: map<string, Value>, t: Target, written: seq<string>)
    requires forall k :: k in written ==>
      exists i :: (0 <= i < |defaults| && Merge(defaults, overrides)[i].0 == k && Succeeds(t, Merge(defaults, overrides)[i]))
    ensures forall k :: k in written ==> k in Keys(defaults)
  {
    forall k | k in written ensures k in Keys(defaults) {
      var i :| 0 <= i < |defaults| && Merge(defaults, overrides)[i].0 == k && Succeeds(t, Merge(defaults, overrides)[i]);
      assert Keys(defaults)[i] == k;
    }
  }
}

/** The root tree's `utils/PropertySet`: the same merge performed inline, no
    error suppression, and the configured object returned. */
module LegacyPropertySet {
  import opened Js
  import PropertySet

  /** `apply`: every assignable property of the defaults is assigned its
      override or default; the first setter error propagates and stops the
      loop. The object's resulting state is the list of assignments made. */
  function Apply(defaults: PropertySet.Record, overrides: map<string, Value>, t: PropertySet.Target): (r: PropertySet.Outcome)
    ensures r.Done? <==> forall i :: 0 <= i < |defaults| ==> !PropertySet.Fails(t, PropertySet.Merge(defaults, overrides)[i])
    ensures r.Aborted? ==> exists i :: (0 <= i < |defaults| && PropertySet.Fails(t, PropertySet.Merge(defaults, overrides)[i])
      && forall j :: 0 <= j < i ==> !PropertySet.Fails(t, PropertySet.Merge(defaults, overrides)[j]))
    ensures r.Done? ==> forall i :: 0 <= i < |defaults| ==>
      (PropertySet.Assignable(t.descriptor(defaults[i].0)) ==> defaults[i].0 in r.written)
    ensures forall k :: k in r.written ==> k in PropertySet.Keys(defaults)
    ensures r.Aborted? ==> var vs := PropertySet.Merge(defaults, overrides);
      var n := PropertySet.FirstRethrown(vs, t, PropertySet.Flag(Bool(false)));
      n < |vs| && r.error == t.assign(vs[n].0, vs[n].1).value
      && r.written == PropertySet.Written(vs[..n], t)
  {
    PropertySet.Apply(defaults, overrides, t, PropertySet.Flag(Bool(false)))
  }
}

=== FILE: surface.dfy ===
/** A widget with a shape, a background fill, an optional shadow and an
    optional stroke (`widgets/Surface`). */
module Surface {
  import opened Wrappers
  import opened Themes
  import opened Drawing
  import opened Context2D
  import C = Canvas

  /** The widget geometry and visibility Surface reads, its own style
      properties, and how many times it has asked to be redrawn. */
  datatype Surface = Surface(
    x: real, y: real, width: real, height: real,
    hitTestEnabled: bool, gone: bool,
    background: FillStyle, shadow: Option<ShadowStyle>, stroke: Option<StrokeStyle>, shape: Shape,
    invalidations: nat)

  /** A value handed to a setter, by what it is an instance of. */
  datatype Arg =
    | ColorArg(color: Color)
    | FillArg(fill: FillStyle)
    | ShadowArg(shadow: ShadowStyle)
    | StrokeArg(stroke: StrokeStyle)
    | ShapeArg(shape: Shape)
    | NullishArg
    | OtherArg

  /** Whether only the invalidation count moved on, by one. */
  predicate Invalidated(s: Surface, r: Surface) {
    r.invalidations == s.invalidations + 1
  }

  /** A Color becomes a FillStyle around it; a FillStyle is kept as is. */
  function SetBackground(s: Surface, v: Arg): (r: Result<Surface>)
    ensures r.Ok? <==> v.ColorArg? || v.FillArg?
    ensures r.Err? ==> r.error == InvalidArgument
    ensures v.ColorArg? ==> r.Ok? && r.value == s.(background := FillStyle(v.color), invalidations := s.invalidations + 1)
    ensures v.FillArg? ==> r.Ok? && r.value == s.(background := v.fill, invalidations := s.invalidations + 1)
  {
    match v
    case ColorArg(c) => Ok(s.(background := FillStyle(c), invalidations := s.invalidations + 1))
    case FillArg(f) => Ok(s.(background := f, invalidations := s.invalidations + 1))
    case _ => Err(InvalidArgument)
  }

  /** A ShadowStyle, or nullish to remove the shadow. */
  function SetShadow(s: Surface, v: Arg): (r: Result<Surface>)
    ensures r.Ok? <==> v.ShadowArg? || v.NullishArg?
    ensures r.Err? ==> r.error == InvalidArgument
    ensures r.Ok? ==> r.value == s.(shadow := r.value.shadow, invalidations := s.invalidations + 1)
    ensures r.Ok? ==> (r.value.shadow.Some? <==> v.ShadowArg?)
    ensures v.ShadowArg? ==> r.Ok? && r.value.shadow == Some(v.shadow)
  {
    match v
    case ShadowArg(sh) => Ok(s.(shadow := Some(sh), invalidations := s.invalidations + 1))
    case NullishArg => Ok(s.(shadow := None, invalidations := s.invalidations + 1))
    case _ => Err(InvalidArgument)
  }

  /** A StrokeStyle, or nullish to remove the stroke. */
  function SetStroke(s: Surface, v: Arg): (r: Result<Surface>)
    ensures r.Ok? <==> v.StrokeArg? || v.NullishArg?
    ensures r.Err? ==> r.error == InvalidArgument
    ensures r.Ok? ==> r.value == s.(stroke := r.value.stroke, invalidations := s.invalidations + 1)
    ensures r.Ok? ==> (r.value.stroke.Some? <==> v.StrokeArg?)
    ensures v.StrokeArg? ==> r.Ok? && r.value.stroke == Some(v.stroke)
  {
    match v
    case StrokeArg(st) => Ok(s.(stroke := Some(st), invalidations := s.invalidations + 1))
    case NullishArg => Ok(s.(stroke := None, invalidations := s.invalidations + 1))
    case _ => Err(InvalidArgument)
  }

  /** Only a Shape; nullish is refused too. */
  function SetShape(s: Surface, v: Arg): (r: Result<Surface>)
    ensures r.Ok? <==> v.ShapeArg?
    ensures r.Err? ==> r.error == InvalidArgument
    ensures r.Ok? ==> r.value == s.(shape := v.shape, invalidations := s.invalidations + 1)
  {
    match v
    case ShapeArg(sh) => Ok(s.(shape := sh, invalidations := s.invalidations + 1))
    case _ => Err(InvalidArgument)
  }

  /** Every accepted setter call asks for exactly one redraw, and a refused
      one changes nothing because it produces no new surface. */
  lemma SettersInvalidateOnce(s: Surface, v: Arg)
    ensures SetBackground(s, v).Ok? ==> Invalidated(s, SetBackground(s, v).value)
    ensures SetShadow(s, v).Ok? ==> Invalidated(s, SetShadow(s, v).value)
    ensures SetStroke(s, v).Ok? ==> Invalidated(s, SetStroke(s, v).value)
    ensures SetShape(s, v).Ok? ==> Invalidated(s, SetShape(s, v).value)
    ensures v.OtherArg? ==> SetBackground(s, v).Err? && SetShadow(s, v).Err? && SetStroke(s, v).Err? && SetShape(s, v).Err?
  {
  }

  /** The shape's own hit test: shape, size, point relative to the
      surface, and the stroke thickness when there is a stroke. */
  type ShapeHit = (Shape, real, real, real, real, Option<real>) -> bool

  function StrokeThickness(s: Surface): Option<real> {
    match s.stroke
    case Some(st) => Some(st.thickness)
    case None => None
  }

  function HitTest(s: Surface, px: real, py: real, shapeHit: ShapeHit): (r: bool)
    ensures r ==> s.hitTestEnabled && !s.gone
    ensures !s.hitTestEnabled || s.gone ==> !r
    ensures s.hitTestEnabled && !s.gone ==> (r <==> shapeHit(s.shape, s.width, s.height, px - s.x, py - s.y, StrokeThickness(s)))
  {
    s.hitTestEnabled && !s.gone && shapeHit(s.shape, s.width, s.height, px - s.x, py - s.y, StrokeThickness(s))
  }

  /** Hit testing is relative: moving the surface and the point by the same
      offset gives the same answer. */
  lemma HitTestIsTranslationInvariant(s: Surface, px: real, py: real, dx: real, dy: real, shapeHit: ShapeHit)
    ensures HitTest(s.(x := s.x + dx, y := s.y + dy), px + dx, py + dy, shapeHit) == HitTest(s, px, py, shapeHit)
  {
    assert (px + dx) - (s.x + dx) == px - s.x;
    assert (py + dy) - (s.y + dy) == py - s.y;
  }

  /** The style lists of the two drawShape calls. A missing shadow or
      stroke is `undefined`, which is not a Style and is skipped. */
  function FirstStyles(s: Surface): seq<StyleEntry> {
    [Present(Fill(s.background)), if s.shadow.Some? then Present(Shadow(s.shadow.value)) else Absent]
  }

  function SecondStyles(s: Surface): seq<StyleEntry> {
    [if s.stroke.Some? then Present(Stroke(s.stroke.value)) else Absent]
  }

  /** The calls one drawShape of the surface's shape, at its position and
      size, adds to the log for the given style list. */
  function ShapeCalls(s: Surface, c: C.Canvas, styles: seq<StyleEntry>): seq<Op> {
    var path := Some(PathOf(s.shape, s.width, s.height));
    Calls(C.Props(c, styles), [Translate(s.x, s.y)], FillPath(path), StrokePath(path))
  }

  /** `draw`: the background and shadow go to the first drawShape call, the
      stroke to the second, and nothing else reaches the log. */
  function Draw(s: Surface, c: C.Canvas): (r: C.Canvas)
    ensures C.SameCanvas(c, r) && SameState(c.ctx, r.ctx)
    ensures |c.ctx.log| <= |r.ctx.log| && r.ctx.log[..|c.ctx.log|] == c.ctx.log
    ensures Added(c.ctx, r.ctx) == ShapeCalls(s, c, FirstStyles(s)) + ShapeCalls(s, c, SecondStyles(s))
  {
    var first := C.DrawShape(c, s.x, s.y, s.width, s.height, s.shape, FirstStyles(s));
    var second := C.DrawShape(first, s.x, s.y, s.width, s.height, s.shape, SecondStyles(s));
    AddedSplits(c.ctx, first.ctx, second.ctx);
    second
  }

  /** The first call's attributes are exactly the background's fill colour
      and, when a shadow is set, the shadow's four attributes: it always
      fills and never strokes. */
  lemma FirstCallFillsOnly(s: Surface, scale: real)
    ensures Compose(FirstStyles(s), scale)
      == map["fillStyle" := HexOf(s.background.color)]
         + (if s.shadow.Some? then ApplyShadow(s.shadow.value, map[], scale) else map[])
    ensures Has(Compose(FirstStyles(s), scale), "fillStyle")
    ensures !Has(Compose(FirstStyles(s), scale), "strokeStyle")
  {
    var es := FirstStyles(s);
    var fill := map["fillStyle" := HexOf(s.background.color)];
    assert es[..1] == [Present(Fill(s.background))];
    assert Compose(es[..1], scale) == fill by {
      assert es[..1][..0] == [];
    }
    if s.shadow.Some? {
      var shadow := ApplyShadow(s.shadow.value, map[], scale);
      var r := ApplyShadow(s.shadow.value, fill, scale);
      assert Compose(es, scale) == r;
      assert r.Keys == (fill + shadow).Keys;
      assert forall k :: k in r ==> r[k] == (fill + shadow)[k];
    }
    LastWriterWins(es, scale, "fillStyle", 0);
    ComposedKeys(es, scale, "strokeStyle");
  }

  /** The second call's attributes are exactly the stroke's colour when a
      stroke is set and nothing otherwise: no shadow, never a fill, and a
      stroke iff one is set. */
  lemma SecondCallStrokesOnly(s: Surface, scale: real)
    ensures Compose(SecondStyles(s), scale)
      == if s.stroke.Some? then map["strokeStyle" := HexOf(s.stroke.value.color)] else map[]
    ensures Compose(SecondStyles(s), scale).Keys !! ShadowKeys
    ensures !Has(Compose(SecondStyles(s), scale), "fillStyle")
    ensures Has(Compose(SecondStyles(s), scale), "strokeStyle") <==> s.stroke.Some?
  {
    var es := SecondStyles(s);
    assert es[..0] == [];
    ComposedKeys(es, scale, "fillStyle");
    ComposedKeys(es, scale, "strokeStyle");
    if s.stroke.Some? {
      LastWriterWins(es, scale, "strokeStyle", 0);
    }
  }

  /** `draw` makes two drawShape calls on the surface's shape at its
      position and size: the first fills the background (with the shadow)
      and never strokes, the second strokes iff a stroke is set and never
      fills, so the fill comes before any stroke. */
  lemma {:induction false} DrawFillsThenStrokes(s: Surface, c: C.Canvas)
    ensures var r := Draw(s, c);
      var ops := Added(c.ctx, r.ctx);
      var path := Some(PathOf(s.shape, s.width, s.height));
      FillPath(path) in ops
      && (StrokePath(path) in ops <==> s.stroke.Some?)
      && (forall i :: 0 <= i < |ops| && IsFill(ops[i]) ==> ops[i] == FillPath(path))
      && (forall i :: 0 <= i < |ops| && IsStroke(ops[i]) ==> ops[i] == StrokePath(path))
      && FillsBeforeStrokes(ops)
  {
    var first := C.DrawShape(c, s.x, s.y, s.width, s.height, s.shape, FirstStyles(s));
    var r := C.DrawShape(first, s.x, s.y, s.width, s.height, s.shape, SecondStyles(s));
    var path := Some(PathOf(s.shape, s.width, s.height));
    FirstCallOps(s, c);
    SecondCallOps(s, first);
    AddedSplits(c.ctx, first.ctx, r.ctx);
    FillsThenStrokes(Added(c.ctx, first.ctx), Added(first.ctx, r.ctx), FillPath(path), StrokePath(path));
  }

  /** The first call fills the surface's path and strokes nothing. */
  lemma FirstCallOps(s: Surface, c: C.Canvas)
    ensures var first := C.DrawShape(c, s.x, s.y, s.width, s.height, s.shape, FirstStyles(s));
      var ops := Added(c.ctx, first.ctx);
      var path := Some(PathOf(s.shape, s.width, s.height));
      FillPath(path) in ops
      && forall i :: 0 <= i < |ops| ==> !IsStroke(ops[i]) && (IsFill(ops[i]) ==> ops[i] == FillPath(path))
  {
    FirstCallFillsOnly(s, c.scaleFactor);
  }

  /** The second call fills nothing and strokes the surface's path iff a
      stroke is set. */
  lemma SecondCallOps(s: Surface, c: C.Canvas)
    ensures var second := C.DrawShape(c, s.x, s.y, s.width, s.height, s.shape, SecondStyles(s));
      var ops := Added(c.ctx, second.ctx);
      var path := Some(PathOf(s.shape, s.width, s.height));
      (StrokePath(path) in ops <==> s.stroke.Some?)
      && forall i :: 0 <= i < |ops| ==> !IsFill(ops[i]) && (IsStroke(ops[i]) ==> ops[i] == StrokePath(path))
  {
    SecondCallStrokesOnly(s, c.scaleFactor);
  }
}

=== FILE: text_metrics.dfy ===
/** `drawing/text/TextMetrics`: three numeric measures that can be set only
    while the constructor applies its properties. */
module TextMetrics {
  import opened Js
  import opened Wrappers
  import PropertySet
  import LegacyPropertySet

  datatype TextMetrics = TextMetrics(initialized: bool, ascent: Num, descent: Num, width: Num)

  datatype Field = Ascent | Descent | Width

  function Get(m: TextMetrics, f: Field): Num {
    match f
    case Ascent => m.ascent
    case Descent => m.descent
    case Width => m.width
  }

  function Put(m: TextMetrics, f: Field, n: Num): TextMetrics {
    match f
    case Ascent => m.(ascent := n)
    case Descent => m.(descent := n)
    case Width => m.(width := n)
  }

  /** A setter: refused after construction (checked before the value), then
      refused for values that coerce to NaN, then stored as `Number(val)`.
      An object converts through its primitive (`primitive`). */
  function Set(m: TextMetrics, f: Field, v: Value, primitive: nat -> Value): (r: Result<TextMetrics>)
    ensures m.initialized ==> r == Err(Frozen)
    ensures !m.initialized ==> (r.Ok? <==> !ToNumberVia(v, primitive).NaN?)
    ensures !m.initialized && ToNumberVia(v, primitive).NaN? ==> r == Err(InvalidArgument)
    ensures r.Ok? ==> Get(r.value, f) == ToNumberVia(v, primitive) && !r.value.initialized
    ensures r.Ok? ==> forall g :: g != f ==> Get(r.value, g) == Get(m, g)
  {
    var n := ToNumberVia(v, primitive);
    if m.initialized then Err(Frozen)
    else if n.NaN? then Err(InvalidArgument)
    else Ok(Put(m, f, n))
  }

  /** The measures in the order the defaults list them, each defaulting to 0. */
  const Defaults: PropertySet.Record := [("ascent", Number(Fin(0.0))), ("descent", Number(Fin(0.0))), ("width", Number(Fin(0.0)))]

  /** The object under construction, as the property applier sees it: every
      measure is an accessor with a setter, which throws for NaN-ish values. */
  function Constructing(primitive: nat -> Value): PropertySet.Target {
    PropertySet.Target(
      k => PropertySet.Accessor(true),
      (k, v) => if ToNumberVia(v, primitive).NaN? then Some(InvalidArgument) else None)
  }

  /** The constructor. Omitted `props` (or `null`) makes the property applier
      call `hasOwnProperty` on it, which throws. */
  function New(props: Option<map<string, Value>>, primitive: nat -> Value): (r: Result<TextMetrics>)
    ensures props.None? ==> r == Err(TypeError)
    ensures props.Some? ==> var vs := PropertySet.Merge(Defaults, props.value);
      (r.Ok? <==> !ToNumberVia(vs[0].1, primitive).NaN? && !ToNumberVia(vs[1].1, primitive).NaN? && !ToNumberVia(vs[2].1, primitive).NaN?)
    ensures r.Err? && props.Some? ==> r.error == InvalidArgument
    ensures r.Ok? ==> r.value.initialized
    ensures r.Ok? ==> var vs := PropertySet.Merge(Defaults, props.value);
      r.value.ascent == ToNumberVia(vs[0].1, primitive) && r.value.descent == ToNumberVia(vs[1].1, primitive) && r.value.width == ToNumberVia(vs[2].1, primitive)
  {
    match props
    case None => Err(TypeError)
    case Some(o) =>
      var vs := PropertySet.Merge(Defaults, o);
      var m :- SetAll(vs[0].1, vs[1].1, vs[2].1, primitive);
      Ok(m.(initialized := true))
  }

  /** Construction succeeds exactly when the property applier runs through
      all three setters without an error. */
  lemma ConstructsIffApplied(o: map<string, Value>, primitive: nat -> Value)
    ensures New(Some(o), primitive).Ok? <==> LegacyPropertySet.Apply(Defaults, o, Constructing(primitive)).Done?
  {
    AppliesIffNoNaN(o, primitive);
  }

  /** The property applier completes exactly when none of the three merged
      values is NaN-ish. */
  lemma AppliesIffNoNaN(o: map<string, Value>, primitive: nat -> Value)
    ensures var vs := PropertySet.Merge(Defaults, o);
      LegacyPropertySet.Apply(Defaults, o, Constructing(primitive)).Done?
      <==> !ToNumberVia(vs[0].1, primitive).NaN? && !ToNumberVia(vs[1].1, primitive).NaN? && !ToNumberVia(vs[2].1, primitive).NaN?
  {
    var vs := PropertySet.Merge(Defaults, o);
    FailsIffNaN(vs, primitive);
    assert |vs| == |Defaults| == 3;
  }


  /** The three setters in the order of the defaults, on a fresh object:
      the first NaN-ish value stops them with `InvalidArgument`. */
  function SetAll(ascent: Value, descent: Value, width: Value, primitive: nat -> Value): (r: Result<TextMetrics>)
    ensures r.Ok? <==> !ToNumberVia(ascent, primitive).NaN? && !ToNumberVia(descent, primitive).NaN? && !ToNumberVia(width, primitive).NaN?
    ensures r.Err? ==> r.error == InvalidArgument
    ensures r.Ok? ==> r.value == TextMetrics(false, ToNumberVia(ascent, primitive), ToNumberVia(descent, primitive), ToNumberVia(width, primitive))
  {
    var m0 := TextMetrics(false, NaN, NaN, NaN);
    var m1 :- Set(m0, Ascent, ascent, primitive);
    var m2 :- Set(m1, Descent, descent, primitive);
    Set(m2, Width, width, primitive)
  }

  /** Under construction, an assignment fails exactly for a NaN-ish value. */
  lemma FailsIffNaN(vs: PropertySet.Record, primitive: nat -> Value)
    ensures forall i :: 0 <= i < |vs| ==> (PropertySet.Fails(Constructing(primitive), vs[i]) <==> ToNumberVia(vs[i].1, primitive).NaN?)
  {
  }

  /** `height`: ascent plus descent, with JavaScript's `+` on the special
      values. */
  function Height(m: TextMetrics): (r: Num)
    ensures r.Fin? <==> m.ascent.Fin? && m.descent.Fin?
    ensures r.Fin? ==> r.r == m.ascent.r + m.descent.r
    ensures m.ascent.NaN? || m.descent.NaN? ==> r.NaN?
  {
    Add(m.ascent, m.descent)
  }

  /** The constructor rejects NaN measures, yet accepts opposite infinities,
      whose height is NaN. */
  lemma AcceptedMeasuresCanSumToNaN(primitive: nat -> Value)
    ensures var r := New(Some(map["ascent" := Number(PosInf), "descent" := Str("-Infinity")]), primitive);
      r.Ok? && Height(r.value).NaN?
  {
    assert StringToNumber("-Infinity") == NegInf;
    AscentAndDescent(Number(PosInf), Str("-Infinity"), primitive);
  }

  /** Construction from an ascent and a descent that are not NaN-ish. */
  lemma AscentAndDescent(a: Value, d: Value, primitive: nat -> Value)
    requires !ToNumberVia(a, primitive).NaN? && !ToNumberVia(d, primitive).NaN?
    ensures New(Some(map["ascent" := a, "descent" := d]), primitive) == Ok(TextMetrics(true, ToNumberVia(a, primitive), ToNumberVia(d, primitive), Fin(0.0)))
  {
    var vs := PropertySet.Merge(Defaults, map["ascent" := a, "descent" := d]);
    assert vs[0].1 == a && vs[1].1 == d && vs[2].1 == Number(Fin(0.0));
  }

  /** A measure given as an object is converted through its primitive: a
      length whose `valueOf` yields a number is stored as that number, and
      an object without a numeric primitive fails construction. */
  lemma ObjectMeasuresConvert(o: nat, primitive: nat -> Value)
    ensures primitive(o).Number? && !primitive(o).n.NaN? ==>
      New(Some(map["ascent" := Object(o)]), primitive) == Ok(TextMetrics(true, primitive(o).n, Fin(0.0), Fin(0.0)))
    ensures primitive(o).Object? ==> New(Some(map["width" := Object(o)]), primitive) == Err(InvalidArgument)
  {
    var asc := PropertySet.Merge(Defaults, map["ascent" := Object(o)]);
    assert asc[0].1 == Object(o) && asc[1].1 == Number(Fin(0.0)) && asc[2].1 == Number(Fin(0.0));
    var wide := PropertySet.Merge(Defaults, map["width" := Object(o)]);
    assert wide[0].1 == Number(Fin(0.0)) && wide[1].1 == Number(Fin(0.0)) && wide[2].1 == Object(o);
  }

  /** Omitted measures are 0, and the height is their sum. */
  lemma DefaultsAreZero(primitive: nat -> Value)
    ensures New(Some(map[]), primitive) == Ok(TextMetrics(true, Fin(0.0), Fin(0.0), Fin(0.0)))
    ensures Height(New(Some(map[]), primitive).value) == Fin(0.0)
  {
  }

  /** Finite ascent and descent give their sum as height; accepted values
      are coerced, so a digit string is stored as a number. */
  lemma HeightIsSum(a: real, d: real, primitive: nat -> Value)
    ensures var r := New(Some(map["ascent" := Number(Fin(a)), "descent" := Str("12")]), primitive);
      r.Ok? && r.value.descent == Fin(12.0) && Height(r.value) == Fin(a + 12.0)
  {
    TwelveReadsAsNumber();
    AscentAndDescent(Number(Fin(a)), Str("12"), primitive);
  }

  lemma TwelveReadsAsNumber()
    ensures ToNumber(Str("12")) == Fin(12.0)
  {
    assert DigitsValue("1") == 1 by { assert "1"[..0] == ""; }
    assert "12"[..1] == "1";
    assert DigitsValue("12") == 12;
  }

  /** Once constructed, no setter changes anything: each reports `Frozen`,
      even for a value that would also fail the NaN check. */
  lemma WriteOnce(props: map<string, Value>, f: Field, v: Value, primitive: nat -> Value)
    requires New(Some(props), primitive).Ok?
    ensures Set(New(Some(props), primitive).value, f, v, primitive) == Err(Frozen)
  {
  }

  /** A NaN-ish measure makes construction fail. */
  lemma NaNRejected(f: Field, primitive: nat -> Value)
    ensures New(Some(map["width" := Str("wide")]), primitive) == Err(InvalidArgument)
    ensures New(Some(map["ascent" := Undefined]), primitive) == Err(InvalidArgument)
  {
    assert StringToNumber("wide").NaN? by { assert !IsDigit("wide"[0]); }
    var wide := PropertySet.Merge(Defaults, map["width" := Str("wide")]);
    assert wide[0].1 == Number(Fin(0.0)) && wide[1].1 == Number(Fin(0.0)) && wide[2].1 == Str("wide");
    var undef := PropertySet.Merge(Defaults, map["ascent" := Undefined]);
    assert undef[0].1 == Undefined;
  }
}

=== FILE: theme.dfy ===
/** `src/resources/Theme` and `src/resources/ThemeColor`: a string-keyed
    colour table, and a colour that re-resolves its name through a theme on
    every use. Themes and applications are objects, so a theme colour refers
    to them by identity and reads their current state from an `Env` at the
    moment it is used. */
module Themes {
  import opened Wrappers

  type ThemeId = nat
  type AppId = nat
  type ObjectId = nat

  datatype Hsva = Hsva(h: real, s: real, v: real, a: real)

  /** A colour: a concrete one, or a theme colour (which is a Color). */
  datatype Color = Solid(hsva: Hsva) | Themed(tc: ThemeColor)

  const Transparent: Color := Solid(Hsva(0.0, 0.0, 0.0, 0.0))

  /** What a theme colour was given as its context: a theme itself, an
      object whose `application` is read at every use (a view or widget),
      or something else entirely. */
  datatype Context = DirectTheme(theme: ThemeId) | Owner(obj: ObjectId) | Unrelated

  datatype ThemeColor = ThemeColor(context: Context, name: string, fallback: Color)

  /** A theme. A name set to null or undefined is stored as undefined. */
  datatype Theme = Theme(id: ThemeId, colors: map<string, Option<Color>>)

  /** The current state of the objects a theme colour can reach: each theme
      by identity, each application's current theme (absent when unset),
      and the application each object currently belongs to (absent when
      its `application` is unset or reading it throws). */
  datatype Env = Env(themes: map<ThemeId, Theme>, appThemes: map<AppId, ThemeId>, owners: map<ObjectId, AppId>)

  /** `getColor`: the stored value when it is a Color, else undefined. */
  function GetColor(t: Theme, k: string): (r: Option<Color>)
    ensures r.Some? ==> k in t.colors && t.colors[k] == r
    ensures k !in t.colors ==> r.None?
  {
    if k in t.colors then t.colors[k] else None
  }

  /** What `setColor` is given. */
  datatype ColorArg = ColorValue(c: Color) | StringValue(s: string) | Nullish | OtherValue

  /** The theme colour the source builds for a string, as written:
      `new ThemeColor(color, Color.transparent)` passes the string as the
      context and the transparent colour as the name, and leaves the default
      at transparent. The name is recorded as "" here; with an unrelated
      context it is never read. */
  function StringColorAsWritten(s: string): Color {
    Themed(ThemeColor(Unrelated, "", Transparent))
  }

  /** The theme colour evidently intended for a string: an alias resolving
      the named colour through this theme. */
  function StringColorIntended(t: Theme, s: string): Color {
    Themed(ThemeColor(DirectTheme(t.id), s, Transparent))
  }

  /** `setColor` with the string case supplied by `stringColor`. */
  function Store(t: Theme, k: string, arg: ColorArg, stringColor: Color): (r: Theme)
    ensures r.id == t.id
    ensures arg.ColorValue? ==> GetColor(r, k) == Some(arg.c)
    ensures arg.StringValue? ==> GetColor(r, k) == Some(stringColor)
    ensures arg.Nullish? ==> GetColor(r, k) == None
    ensures arg.OtherValue? ==> r == t
    ensures forall j :: j != k ==> GetColor(r, j) == GetColor(t, j)
  {
    match arg
    case ColorValue(c) => t.(colors := t.colors[k := Some(c)])
    case StringValue(_) => t.(colors := t.colors[k := Some(stringColor)])
    case Nullish => t.(colors := t.colors[k := None])
    case OtherValue => t
  }

  /** `setColor` as written. */
  function SetColor(t: Theme, k: string, arg: ColorArg): (r: Theme)
    ensures r.id == t.id
    ensures arg.ColorValue? ==> GetColor(r, k) == Some(arg.c)
    ensures arg.StringValue? ==> GetColor(r, k).Some?
    ensures arg.Nullish? ==> GetColor(r, k) == None
    ensures arg.OtherValue? ==> r == t
    ensures forall j :: j != k ==> GetColor(r, j) == GetColor(t, j)
  {
    Store(t, k, arg, if arg.StringValue? then StringColorAsWritten(arg.s) else Transparent)
  }

  /** `setColor` with the string case as evidently intended. */
  function SetColorIntended(t: Theme, k: string, arg: ColorArg): (r: Theme)
    ensures arg.StringValue? ==> GetColor(r, k) == Some(StringColorIntended(t, arg.s))
    ensures forall j :: j != k ==> GetColor(r, j) == GetColor(t, j)
    ensures !arg.StringValue? ==> r == SetColor(t, k, arg)
  {
    Store(t, k, arg, if arg.StringValue? then StringColorIntended(t, arg.s) else Transparent)
  }

  /** `setColors`: `setColor` for each key of the argument, in order. */
  function SetColors(t: Theme, entries: seq<(string, ColorArg)>): (r: Theme)
    ensures r.id == t.id
    ensures forall k :: (forall i :: 0 <= i < |entries| ==> entries[i].0 != k) ==> GetColor(r, k) == GetColor(t, k)
    decreases |entries|
  {
    if |entries| == 0 then t
    else
      var rest := entries[1..];
      assert forall i :: 0 <= i < |rest| ==> rest[i] == entries[i + 1];
      SetColors(SetColor(t, entries[0].0, entries[0].1), rest)
  }

  /** The constructor: an empty theme handed `colors` through `setColors`
      (an omitted argument is no entries). */
  function NewTheme(id: ThemeId, colors: seq<(string, ColorArg)>): (r: Theme)
    ensures r.id == id
    ensures forall k :: (forall i :: 0 <= i < |colors| ==> colors[i].0 != k) ==> GetColor(r, k).None?
    ensures |colors| == 0 ==> r.colors == map[]
  {
    SetColors(Theme(id, map[]), colors)
  }

  /** After `setColors` with distinct keys, each key reads back as if it had
      been set alone, and every other key is untouched. */
  lemma {:induction false} SetColorsSetsEach(t: Theme, entries: seq<(string, ColorArg)>)
    requires forall i, j :: 0 <= i < j < |entries| ==> entries[i].0 != entries[j].0
    ensures forall i :: 0 <= i < |entries| ==>
      GetColor(SetColors(t, entries), entries[i].0) == GetColor(SetColor(t, entries[i].0, entries[i].1), entries[i].0)
    ensures forall k :: (forall i :: 0 <= i < |entries| ==> entries[i].0 != k) ==>
      GetColor(SetColors(t, entries), k) == GetColor(t, k)
    decreases |entries|
  {
    if |entries| > 0 {
      var t1 := SetColor(t, entries[0].0, entries[0].1);
      var rest := entries[1..];
      SetColorsSetsEach(t1, rest);
      assert SetColors(t, entries) == SetColors(t1, rest);
      forall i | 0 <= i < |entries|
        ensures GetColor(SetColors(t, entries), entries[i].0) == GetColor(SetColor(t, entries[i].0, entries[i].1), entries[i].0)
      {
        if i == 0 {
          assert forall j :: 0 <= j < |rest| ==> rest[j].0 != entries[0].0;
        } else {
          assert rest[i - 1] == entries[i];
          assert GetColor(t1, entries[i].0) == GetColor(t, entries[i].0);
          var a := SetColor(t1, entries[i].0, entries[i].1);
          var b := SetColor(t, entries[i].0, entries[i].1);
          assert GetColor(a, entries[i].0) == GetColor(b, entries[i].0) by {
            match entries[i].1
            case OtherValue => {}
            case _ => {}
          }
        }
      }
      forall k | forall i :: 0 <= i < |entries| ==> entries[i].0 != k
        ensures GetColor(SetColors(t, entries), k) == GetColor(t, k)
      {
        assert entries[0].0 != k;
        assert forall i :: 0 <= i < |rest| ==> rest[i].0 != k by {
          forall i | 0 <= i < |rest| ensures rest[i].0 != k { assert rest[i] == entries[i + 1]; }
        }
      }
    }
  }

  /** The theme a context yields at the moment of use; anything that throws
      on the way (an object without an application, a context without
      `application`) yields undefined. */
  function ThemeOf(ctx: Context, env: Env): (r: Option<Theme>)
    ensures r.Some? ==> r.value in env.themes.Values
    ensures r.Some? <==> match ctx
      case DirectTheme(id) => id in env.themes
      case Owner(o) => o in env.owners && env.owners[o] in env.appThemes && env.appThemes[env.owners[o]] in env.themes
      case Unrelated => false
    ensures ctx.DirectTheme? && r.Some? ==> r.value == env.themes[ctx.theme]
    ensures ctx.Owner? && r.Some? ==> r.value == env.themes[env.appThemes[env.owners[ctx.obj]]]
  {
    match ctx
    case DirectTheme(id) => if id in env.themes then Some(env.themes[id]) else None
    case Owner(o) =>
      if o in env.owners && env.owners[o] in env.appThemes && env.appThemes[env.owners[o]] in env.themes
      then Some(env.themes[env.appThemes[env.owners[o]]])
      else None
    case Unrelated => None
  }

  /** The private `color` getter: the theme's colour for the name when it
      has one, and the default otherwise; it never fails. A Color is always
      truthy, so `||` picks the default only when the theme has none. */
  function Resolve(tc: ThemeColor, env: Env): (c: Color)
    ensures c == tc.fallback
      || (ThemeOf(tc.context, env).Some? && GetColor(ThemeOf(tc.context, env).value, tc.name) == Some(c))
    ensures ThemeOf(tc.context, env).Some? && GetColor(ThemeOf(tc.context, env).value, tc.name).Some? ==>
      c == GetColor(ThemeOf(tc.context, env).value, tc.name).value
  {
    match ThemeOf(tc.context, env)
    case None => tc.fallback
    case Some(t) =>
      match GetColor(t, tc.name)
      case Some(found) => found
      case None => tc.fallback
  }

  /** The default colour given to the constructor: left out (undefined),
      a Color, an object that is not a Color but has a `toHsv` yielding an
      HSV record, or anything else (null, a number, an object without
      `toHsv`). */
  datatype DefaultArg = Omitted | GivenColor(c: Color) | ColorLike | NotAColor

  /** The constructor: the default colour defaults to transparent. The
      super call reads `toHsv()` of the default first, which throws a
      TypeError for anything without one; the type check only comes after,
      so a colour-like object fails with the constructor's own error. */
  function NewThemeColor(ctx: Context, name: string, default: DefaultArg): (r: Result<ThemeColor>)
    ensures r.Ok? <==> default.Omitted? || default.GivenColor?
    ensures default.ColorLike? ==> r == Err(InvalidArgument)
    ensures default.NotAColor? ==> r == Err(TypeError)
    ensures r.Ok? ==> r.value.context == ctx && r.value.name == name
    ensures r.Ok? ==> r.value.fallback == (if default.GivenColor? then default.c else Transparent)
  {
    match default
    case Omitted => Ok(ThemeColor(ctx, name, Transparent))
    case GivenColor(c) => Ok(ThemeColor(ctx, name, c))
    case ColorLike => Err(InvalidArgument)
    case NotAColor => Err(TypeError)
  }

  /** A constructed theme colour read while no theme is reachable from its
      context stands for the default it was given, and for transparent when
      none was given. */
  lemma ConstructedFallsBack(ctx: Context, name: string, c: Color, env: Env)
    requires ThemeOf(ctx, env).None?
    ensures Resolve(NewThemeColor(ctx, name, GivenColor(c)).value, env) == c
    ensures Resolve(NewThemeColor(ctx, name, Omitted).value, env) == Transparent
  {
  }

  datatype Conversion = ToHsv | ToRgb | ToHex | ValueOf | ToString

  /** A conversion call forwarded to the colour the theme colour stands for. */
  datatype Delegation = Delegation(conversion: Conversion, target: Color)

  /** Every conversion resolves afresh and forwards to the result. */
  function Convert(tc: ThemeColor, env: Env, k: Conversion): (d: Delegation)
    ensures d.conversion == k
    ensures ThemeOf(tc.context, env).None? ==> d.target == tc.fallback
    ensures ThemeOf(tc.context, env).Some? && GetColor(ThemeOf(tc.context, env).value, tc.name).Some? ==>
      d.target == GetColor(ThemeOf(tc.context, env).value, tc.name).value
    ensures ThemeOf(tc.context, env).Some? && GetColor(ThemeOf(tc.context, env).value, tc.name).None? ==>
      d.target == tc.fallback
  {
    Delegation(k, Resolve(tc, env))
  }

  /** An object that belongs to an application reads exactly as that
      application's current theme given directly would. */
  lemma OwnerReadsAsItsTheme(name: string, fallback: Color, o: ObjectId, env: Env)
    requires o in env.owners && env.owners[o] in env.appThemes
    ensures Resolve(ThemeColor(Owner(o), name, fallback), env)
      == Resolve(ThemeColor(DirectTheme(env.appThemes[env.owners[o]]), name, fallback), env)
  {
  }

  /** The application is looked up at every use: a colour built for an
      object that has no application yet (a view's default background,
      built before the view is attached) stands for its default until the
      object is attached, and for the application theme's colour after. */
  lemma AttachingLaterIsObserved(o: ObjectId, name: string, fallback: Color, a: AppId, env: Env, c: Color)
    requires o !in env.owners
    requires a in env.appThemes && env.appThemes[a] in env.themes
    requires GetColor(env.themes[env.appThemes[a]], name) == Some(c)
    ensures var tc := NewThemeColor(Owner(o), name, GivenColor(fallback)).value;
      Resolve(tc, env) == fallback && Resolve(tc, env.(owners := env.owners[o := a])) == c
  {
  }

  /** Swapping an application's theme is observed on the next use: no
      resolution is cached. */
  lemma ThemeSwapObserved(name: string, fallback: Color, o: ObjectId, env: Env, t2: Theme, c: Color, k: Conversion)
    requires o in env.owners
    requires GetColor(t2, name) == Some(c)
    ensures var env2 := env.(themes := env.themes[t2.id := t2], appThemes := env.appThemes[env.owners[o] := t2.id]);
      Convert(ThemeColor(Owner(o), name, fallback), env2, k).target == c
  {
  }

  /** A name the theme lacks, or a context without a theme, falls back to
      the default. */
  lemma FallsBackToDefault(tc: ThemeColor, env: Env)
    requires tc.context.Unrelated? || (tc.context.Owner? && tc.context.obj !in env.owners)
      || (ThemeOf(tc.context, env).Some? && GetColor(ThemeOf(tc.context, env).value, tc.name).None?)
    ensures Resolve(tc, env) == tc.fallback
  {
  }

  /** As written, a colour stored from a string resolves to transparent in
      every environment, even when the theme defines the named colour. */
  lemma StringColorIsAlwaysTransparent(t: Theme, k: string, s: string, env: Env)
    ensures GetColor(SetColor(t, k, StringValue(s)), k) == Some(StringColorAsWritten(s))
    ensures Resolve(StringColorAsWritten(s).tc, env) == Transparent
  {
  }

  /** As intended, it resolves to the theme's colour of that name. */
  lemma StringColorIsAlias(t: Theme, k: string, s: string, env: Env)
    requires s != k
    requires GetColor(t, s).Some?
    ensures var t2 := SetColorIntended(t, k, StringValue(s));
      GetColor(t2, k) == Some(StringColorIntended(t, s))
      && Resolve(StringColorIntended(t, s).tc, env.(themes := env.themes[t.id := t2])) == GetColor(t, s).value
  {
  }
}

/** The root tree's `resources/ThemeColor`: the theme is always the current
    application's. */
module LegacyThemeColor {
  import opened Wrappers
  import Themes

  datatype LegacyThemeColor = LegacyThemeColor(name: string, fallback: Themes.Color)

  /** `Application.current.theme`, or None when reading it throws or it is
      unset. */
  type Current = Option<Themes.Theme>

  /** The colour stands for the current theme's colour of its name when
      there is one, and for its default otherwise; it never fails. */
  function Resolve(c: LegacyThemeColor, current: Current): (r: Themes.Color)
    ensures r == c.fallback || (current.Some? && Themes.GetColor(current.value, c.name) == Some(r))
    ensures current.Some? && Themes.GetColor(current.value, c.name).Some? ==>
      r == Themes.GetColor(current.value, c.name).value
  {
    match current
    case None => c.fallback
    case Some(t) =>
      match Themes.GetColor(t, c.name)
      case Some(found) => found
      case None => c.fallback
  }

  /** The constructor, with the src tree's order of checks. */
  function New(name: string, default: Themes.DefaultArg): (r: Result<LegacyThemeColor>)
    ensures r.Ok? <==> default.Omitted? || default.GivenColor?
    ensures default.ColorLike? ==> r == Err(InvalidArgument)
    ensures default.NotAColor? ==> r == Err(TypeError)
    ensures r.Ok? ==> r.value.name == name
    ensures r.Ok? ==> r.value.fallback == (if default.GivenColor? then default.c else Themes.Transparent)
  {
    match default
    case Omitted => Ok(LegacyThemeColor(name, Themes.Transparent))
    case GivenColor(col) => Ok(LegacyThemeColor(name, col))
    case ColorLike => Err(InvalidArgument)
    case NotAColor => Err(TypeError)
  }

  /** Without a current theme a constructed colour stands for the default it
      was given, and for transparent when none was given. */
  lemma ConstructedFallsBack(name: string, col: Themes.Color)
    ensures Resolve(New(name, Themes.GivenColor(col)).value, None) == col
    ensures Resolve(New(name, Themes.Omitted).value, None) == Themes.Transparent
  {
  }

  function Convert(c: LegacyThemeColor, current: Current, k: Themes.Conversion): (d: Themes.Delegation)
    ensures d.conversion == k
    ensures current.None? ==> d.target == c.fallback
    ensures current.Some? && Themes.GetColor(current.value, c.name).Some? ==>
      d.target == Themes.GetColor(current.value, c.name).value
    ensures current.Some? && Themes.GetColor(current.value, c.name).None? ==> d.target == c.fallback
  {
    Themes.Delegation(k, Resolve(c, current))
  }

  /** The root colour agrees with the src colour whose context is an
      application: both read that application's current theme. */
  lemma AgreesWithOwnerContext(c: LegacyThemeColor, o: Themes.ObjectId, env: Themes.Env)
    ensures Resolve(c, Themes.ThemeOf(Themes.Owner(o), env))
      == Themes.Resolve(Themes.ThemeColor(Themes.Owner(o), c.name, c.fallback), env)
  {
  }
}

=== FILE: web_canvas.dfy ===
/** The browser canvas (`platform/drawing/WebCanvas`): a Canvas over an
    internal canvas element whose resizing and rescaling are guarded by
    the `resizable` and `scalable` flags. */
module WebCanvas {
  import opened Wrappers
  import opened Js
  import opened Drawing
  import opened Context2D
  import C = Canvas

  datatype WebCanvas = WebCanvas(canvas: C.Canvas, resizable: bool, scalable: bool)

  /** Constructor options; an absent entry takes its default. */
  datatype Options = Options(width: Option<nat>, height: Option<nat>, scaleFactor: Option<real>,
                             resizable: Option<bool>, scalable: Option<bool>)

  function OrElse<T>(o: Option<T>, d: T): T {
    match o
    case Some(v) => v
    case None => d
  }

  /** Whether the flags, the element and the scale factor are kept while
      the context is reset, as resizing the internal canvas element does. */
  predicate Resized(w: WebCanvas, r: WebCanvas) {
    r.resizable == w.resizable && r.scalable == w.scalable
    && r.canvas.element == w.canvas.element && r.canvas.scaleFactor == w.canvas.scaleFactor
    && r.canvas.ctx == Reset(w.canvas.ctx)
  }

  function SetWidth(w: WebCanvas, v: nat): (r: Result<WebCanvas>)
    ensures r.Ok? <==> w.resizable
    ensures r.Err? ==> r.error == NotSupported
    ensures r.Ok? ==> r.value.canvas.width == v && r.value.canvas.height == w.canvas.height && Resized(w, r.value)
  {
    if w.resizable then Ok(w.(canvas := C.SetWidth(w.canvas, v))) else Err(NotSupported)
  }

  function SetHeight(w: WebCanvas, v: nat): (r: Result<WebCanvas>)
    ensures r.Ok? <==> w.resizable
    ensures r.Err? ==> r.error == NotSupported
    ensures r.Ok? ==> r.value.canvas.height == v && r.value.canvas.width == w.canvas.width && Resized(w, r.value)
  {
    if w.resizable then Ok(w.(canvas := C.SetHeight(w.canvas, v))) else Err(NotSupported)
  }

  function SetScaleFactor(w: WebCanvas, s: real): (r: Result<WebCanvas>)
    ensures r.Ok? <==> w.scalable
    ensures r.Err? ==> r.error == NotSupported
    ensures r.Ok? ==> (
      r.value.canvas.scaleFactor == s && r.value.canvas.ctx.transform == Scaled(s)
      && r.value.canvas.width == w.canvas.width && r.value.canvas.height == w.canvas.height
      && r.value.resizable == w.resizable && r.value.scalable == w.scalable)
  {
    if w.scalable then Ok(w.(canvas := C.SetScaleFactor(w.canvas, s))) else Err(NotSupported)
  }

  /** Construction over an internal canvas: both flags are switched on
      while height, width and scale factor are applied, in that order,
      then set to the requested values, which default to false. Width and
      height default to 0: their defaults read the private internal canvas
      during the merge, before the constructor stores it, and find none.
      The scale factor defaults to 1. */
  function New(internal: C.Canvas, opts: Options): (r: WebCanvas)
    ensures r.resizable == OrElse(opts.resizable, false)
    ensures r.scalable == OrElse(opts.scalable, false)
    ensures r.canvas.element == internal.element
    ensures r.canvas.width == OrElse(opts.width, 0)
    ensures r.canvas.height == OrElse(opts.height, 0)
    ensures r.canvas.scaleFactor == OrElse(opts.scaleFactor, 1.0)
    ensures r.canvas.ctx.transform == Scaled(r.canvas.scaleFactor)
    ensures r.canvas.ctx.attrs == map[] && r.canvas.ctx.stack == []
  {
    var open := WebCanvas(internal, true, true);
    var sized := SetHeight(open, OrElse(opts.height, 0)).value;
    var sized' := SetWidth(sized, OrElse(opts.width, 0)).value;
    var scaled := SetScaleFactor(sized', OrElse(opts.scaleFactor, 1.0)).value;
    scaled.(resizable := OrElse(opts.resizable, false), scalable := OrElse(opts.scalable, false))
  }

  /** A canvas built with default options is 0 by 0 whatever the internal
      canvas's size, and refuses to be resized or rescaled. */
  lemma DefaultsAreFixed(internal: C.Canvas, w: nat, s: real)
    ensures var wc := New(internal, Options(None, None, None, None, None));
      SetWidth(wc, w) == Err(NotSupported)
      && SetHeight(wc, w) == Err(NotSupported)
      && SetScaleFactor(wc, s) == Err(NotSupported)
      && wc.canvas.width == 0 && wc.canvas.height == 0
      && wc.canvas.scaleFactor == 1.0
  {
  }

  /** Flags requested at construction are the ones that guard afterwards,
      even though construction itself resized and rescaled. */
  lemma ConstructionIgnoresFlags(internal: C.Canvas, w: nat, h: nat, s: real)
    ensures var wc := New(internal, Options(Some(w), Some(h), Some(s), Some(false), Some(false)));
      wc.canvas.width == w && wc.canvas.height == h && wc.canvas.scaleFactor == s
      && SetWidth(wc, 0).Err? && SetScaleFactor(wc, 1.0).Err?
  {
  }

  /** Whether a draw call left the flags and the canvas geometry alone. */
  predicate Kept(w: WebCanvas, r: WebCanvas) {
    r.resizable == w.resizable && r.scalable == w.scalable && C.SameCanvas(w.canvas, r.canvas)
  }

  function DrawRect(w: WebCanvas, x: real, y: real, width: real, height: real, styles: seq<StyleEntry>): (r: WebCanvas)
    ensures Kept(w, r) && SameState(w.canvas.ctx, r.canvas.ctx)
    ensures PaintedWith(w.canvas.ctx, r.canvas.ctx, C.Props(w.canvas, styles),
                        [BeginPath, Rect(x, y, width, height)], FillPath(None), StrokePath(None))
    ensures r.canvas.ctx.log == w.canvas.ctx.log
      + Calls(C.Props(w.canvas, styles), [BeginPath, Rect(x, y, width, height)], FillPath(None), StrokePath(None))
  {
    w.(canvas := C.DrawRect(w.canvas, x, y, width, height, styles))
  }

  function DrawShape(w: WebCanvas, x: real, y: real, width: real, height: real, shape: Shape, styles: seq<StyleEntry>): (r: WebCanvas)
    ensures Kept(w, r) && SameState(w.canvas.ctx, r.canvas.ctx)
    ensures PaintedWith(w.canvas.ctx, r.canvas.ctx, C.Props(w.canvas, styles), [Translate(x, y)],
                        FillPath(Some(PathOf(shape, width, height))), StrokePath(Some(PathOf(shape, width, height))))
    ensures r.canvas.ctx.log == w.canvas.ctx.log
      + Calls(C.Props(w.canvas, styles), [Translate(x, y)],
              FillPath(Some(PathOf(shape, width, height))), StrokePath(Some(PathOf(shape, width, height))))
  {
    w.(canvas := C.DrawShape(w.canvas, x, y, width, height, shape, styles))
  }

  function DrawText(w: WebCanvas, text: string, x: real, y: real, styles: seq<StyleEntry>): (r: WebCanvas)
    ensures Kept(w, r) && SameState(w.canvas.ctx, r.canvas.ctx)
    ensures PaintedWith(w.canvas.ctx, r.canvas.ctx, C.Props(w.canvas, styles), [], FillText(text, x, y), StrokeText(text, x, y))
    ensures r.canvas.ctx.log == w.canvas.ctx.log + Calls(C.Props(w.canvas, styles), [], FillText(text, x, y), StrokeText(text, x, y))
  {
    w.(canvas := C.DrawText(w.canvas, text, x, y, styles))
  }

  /** Same arity dispatch as the base canvas; a canvas source is replaced
      by its internal canvas element. */
  function DrawImage(w: WebCanvas, image: C.ImageSource, args: seq<Value>): (r: Result<WebCanvas>)
    ensures r.Ok? <==> 1 + |args| in {3, 5, 7, 9}
    ensures r.Err? ==> r.error == InvalidArgument
    ensures r.Ok? ==> Kept(w, r.value) && SameState(w.canvas.ctx, r.value.canvas.ctx)
    ensures r.Ok? ==> |r.value.canvas.ctx.log| == |w.canvas.ctx.log| + 1
    ensures r.Ok? ==> (
      var op := r.value.canvas.ctx.log[|w.canvas.ctx.log|];
      (op.DrawImage5? || op.DrawImage9?) && op.image == C.Unwrap(image))
    ensures r.Ok? && 1 + |args| in {3, 5} ==>
      r.value.canvas.ctx.log[|w.canvas.ctx.log|] == DrawImage5(C.Unwrap(image), C.Arg(args, 0), C.Arg(args, 1), C.Arg(args, 2), C.Arg(args, 3))
    ensures r.Ok? && 1 + |args| in {7, 9} ==>
      r.value.canvas.ctx.log[|w.canvas.ctx.log|] == DrawImage9(C.Unwrap(image), C.Arg(args, 4), C.Arg(args, 5), C.Arg(args, 6), C.Arg(args, 7),
                                                               C.Arg(args, 0), C.Arg(args, 1), C.Arg(args, 2), C.Arg(args, 3))
  {
    var c :- C.DrawImage(w.canvas, image, args);
    Ok(w.(canvas := c))
  }

  /** Clears from the origin to the internal canvas's size. */
  function Clear(w: WebCanvas): (r: WebCanvas)
    ensures Kept(w, r) && SameState(w.canvas.ctx, r.canvas.ctx)
    ensures r.canvas.ctx.log == w.canvas.ctx.log + [ClearRect(0.0, 0.0, w.canvas.width as real, w.canvas.height as real)]
  {
    w.(canvas := C.Clear(w.canvas))
  }
}

=== FILE: wrappers.dfy ===
/** Failure-compatible result types shared by every component of the model.
    The toolkit reports contract violations by throwing; the model returns
    an `Err` carrying the kind of error instead. */
module Wrappers {

  datatype Option<+T> = None | Some(value: T)

  /** The kinds of error the toolkit throws synchronously. */
  datatype Error =
    | InvalidState       // an Animator transition or property change in the wrong state
    | InvalidArgument    // a value of the wrong type or range, or a bad drawImage arity
    | NotSupported       // resizing or scaling a canvas that does not allow it
    | InvalidReference   // a percentage length whose reference is not a number
    | ReadOnly           // assigning one of the application's handler lists
    | Frozen             // changing text metrics after construction
    | TypeError          // a JavaScript TypeError the code triggers as written

  datatype Result<+T> = Ok(value: T) | Err(error: Error) {
    predicate IsFailure() {
      Err?
    }

    function PropagateFailure<U>(): Result<U>
      requires Err?
    {
      Err(error)
    }

    function Extract(): T
      requires Ok?
    {
      value
    }
  }
}
